=== FILE: README.md ===
# Transcription extension: a Dafny model of its core

This project models the content-script and background logic of a browser
extension with two jobs:

- **Proofreading.** The background worker asks the active tab for its
  selection. It posts the selection to a proofreading API, and the content
  script puts the corrected text back where the selection was.
- **Transcription.** A modal records from the microphone until it is stopped.
  It then sends the recording off and inserts the transcribed text at the
  cursor of the element that had the focus when the modal opened.

Everything that touches the page, the network or the microphone is modelled
as data:

- **Page state is an input.** The focused element and the window selection
  are parameters: `Dom.ActiveElement`, `Dom.DomSelection`.
- **Page writes are a log.** What the code does to the page is an ordered
  log of `Dom.Effect`s, and `Dom.ApplyToField` replays that log on a text
  field.
- **The network is an input.** What `fetch` and `json()` settle to is a
  parameter (`Proofread.ApiOutcome`). Requests and messages sent out form a
  log of actions.
- **The recorder is a state machine.** The module-level state of
  `audioRecorder.ts` is `AudioRecorder.Device`. That is the recorder, its
  chunks and its stream, plus the set of microphone streams still live.
- **Awaits are split.** Every `await` in the React hook becomes two
  transitions, one before and one after (`TranscriptionHook.HookStep`). The
  event that settles the promise drives the second one: the microphone
  answering, the recorder's `stop` event or the background's reply.
- **The content script is a state machine over all modals.**
  `ContentSession.SessionStep` routes each event to the hook instances. This
  includes modals already closed, whose promises and listeners stay alive.

Strings are sequences of Unicode scalar values (Dafny's `char`), not of
UTF-16 code units; see "## Left out". `substring` clamps and swaps its
bounds as ECMAScript does. `trim` removes the ECMAScript white-space and
line-terminator characters.

Some of the code has defects (see "## Findings"). The operations whose
behaviour depends on them take a `Builds.Build`: `AsWritten` follows the
code line by line, and `Corrected` swaps in the corrected definitions.

Modules, in dependency order:

| module | file | models |
|---|---|---|
| `Js` | js.dfy | `Option`, thrown values and completions, truthiness, `substring`, `trim`, decimal printing |
| `Dom` | dom.dfy | focused element, selection, page effects, text-field semantics (value sanitization, caret) |
| `TextSplice` | splice.dfy | the value splice shared by `replaceText` and `insertTextAtCursor` |
| `SelectionCache` | selection_cache.dfy | `getSelectionText.ts` |
| `ReplaceText` | replace_text.dfy | `replaceText.ts` |
| `InsertText` | insert_text.dfy | `insertText.ts` |
| `SelectionStyle` | selection_style.dfy | `selectionStyle.ts` |
| `AudioRecorder` | audio_recorder.dfy | `startRecording`, `stopRecording`, `isRecording`, with the pending `onstop` handlers of every stopped recorder |
| `Messages` | messages.dfy | the runtime messages and their `action` tags |
| `Builds` | build.dfy | the as-written and corrected readings of the code |
| `TranscriptionHook` | transcription_hook.dfy | `use-transcription-modal.tsx` |
| `TranscriptionModal` | transcription_modal.dfy | `TranscriptionModal.tsx` |
| `Proofread` | proofread.dfy | `background.ts` and `proofread.ts` |
| `ContentScript` | content_script.dfy | `content.ts`, whose cases the listener of `content.tsx` repeats for the proofreading messages |
| `ContentSession` | content_session.dfy | `content.tsx` with its modals, its replies and the recorder events |

## Model

| member | source | states |
|---|---|---|
| Js.Substring | utils/replaceText.ts:29-32 | `substring(a, b)` with both bounds inside the string is the slice between them, in either argument order; bounds covering the whole string give the whole string; the result is never longer than the string |
| Js.SubstringSymmetric | utils/replaceText.ts:29-32 | swapping the two bounds of `substring` gives the same string |
| Js.Trim | entrypoints/background.ts:20 | `trim` never lengthens a string, and a non-empty result starts and ends with a character that is not white space |
| Js.TrimEmptyIffBlank | entrypoints/background.ts:20 | `trim().length === 0` holds exactly when every character is white space, in both directions |
| Js.TrimIsInnerSlice | entrypoints/background.ts:20 | `trim` returns the contiguous piece of its input between a blank prefix and a blank suffix |
| Js.DecimalRoundTrip | entrypoints/background.ts:36 | the status printed into the error message is a non-empty digit string that reads back as the same number, so distinct statuses give distinct messages |
| TextSplice.Splice | utils/replaceText.ts:29-32 | the new value is the clamped text before `start`, then the inserted text, then the clamped text after `end` |
| TextSplice.SpliceReplacesSelection | utils/replaceText.ts:29-37 | for a forward selection inside the value, the selected characters are replaced, everything around them is kept, and the caret lands right after the inserted text |
| TextSplice.SpliceAtCaretOnlyInserts | utils/insertText.ts:14-24 | with a collapsed caret the old value is recovered by cutting the inserted text out again |
| TextSplice.SplicePastEndAppends | utils/replaceText.ts:29-32 | bounds beyond the value clamp to its end, so the text is appended |
| TextSplice.SpliceHelloEarth | utils/replaceText.ts:29-37 | replacing "world" in "Hello world" by "Earth" yields "Hello Earth", with the caret at 11 |
| Dom.StripLineBreaks | utils/replaceText.ts:33 | what an input stores has no line breaks, is no longer than what was assigned, and equals it when the assigned string had none |
| Dom.ApplyToField | utils/replaceText.ts:33-37 | assigning a value stores it sanitized; the caret moves to the end only when the stored value differs from the old one, and otherwise nothing changes. `setSelectionRange` keeps the value; in-range bounds are taken as given, and a start past the end collapses the selection, as section 4.10.5.2.10 of the HTML standard requires. Effects on other elements, and other effects, leave the field alone |
| Dom.NoFieldWriteKeepsField | utils/insertText.ts:34-58 | effects that write no value and no selection range leave every text field as it was |
| SelectionCache.GetSelectionText | utils/getSelectionText.ts:9-50 | the snapshot text is always the window selection's text. A focused text field caches its element, bounds and value, and its value is the context text. Any other element caches the first range, if there is one, and otherwise keeps the old entry |
| SelectionCache.GetCachedSelectionInfo | utils/getSelectionText.ts:55-59 | returns the cached entry and empties the cache |
| SelectionCache.ConsumeOnce | utils/getSelectionText.ts:55-59 | a second read right after the first finds nothing |
| SelectionCache.CaptureThenConsume | utils/getSelectionText.ts:16-59 | what a capture stores is exactly what the next read returns, for fields and for ranges |
| SelectionCache.FailedCaptureKeepsEarlierEntry | utils/getSelectionText.ts:33-43 | a capture that finds no range leaves an earlier entry in place, so a later replace uses a stale entry |
| ReplaceText.ReplaceText | utils/replaceText.ts:7-53 | the cache is always emptied. Exactly an empty cache gives the "Selection was lost" alert. A call throws exactly for a cached input whose type has no selection, after writing only its value. An input event is dispatched exactly for a cached selectable field, and always after its value is written |
| ReplaceText.ReplaceIntoField | utils/replaceText.ts:18-40 | a cached selectable field ends up holding the spliced value as the field stores it, with the caret after the proofread text (clamped to the stored length), whatever its live state was; a textarea, or text without line breaks, holds exactly the splice; no other element changes and nothing is thrown |
| ReplaceText.ReplaceIntoFieldDefaults | utils/replaceText.ts:23-25 | missing bounds count as 0 and a missing value as empty, so the field ends up holding exactly the new text as it stores it |
| ReplaceText.ReplaceIntoUnselectableInput | utils/replaceText.ts:33-37 | for an input whose type has no selection, the spliced value is written, then `setSelectionRange` throws, so the caret is not set and no input event fires |
| ReplaceText.ReplaceIntoRange | utils/replaceText.ts:41-50 | a cached range is emptied, the text node is inserted, and the range becomes the only selected range; no field changes |
| ReplaceText.ReplaceWithoutEntry | utils/replaceText.ts:10-14 | with nothing cached, the only effect is the alert |
| ReplaceText.SecondReplaceIsLost | utils/replaceText.ts:8-14 | two replacements after one capture: the second only alerts |
| ReplaceText.HelloEarth | utils/replaceText.ts:18-40 | "world" selected in "Hello world" and proofread to "Earth" leaves "Hello Earth", with the caret at 11 |
| InsertText.InsertTextAtCursor | utils/insertText.ts:1-61 | throws exactly for an input whose type has no selection, after writing only its value (line 24). Returns true exactly for a selectable text field, or for a contenteditable element while a range exists; then the last effect is the input event on that element. Returns false, doing nothing, otherwise |
| InsertText.InsertIntoField | utils/insertText.ts:12-31 | a selectable field ends up holding the splice of its live value at its live selection, as the field stores it, with the caret after the inserted text; a textarea, or text without line breaks, holds exactly the splice |
| InsertText.InsertIntoUnselectableInput | utils/insertText.ts:12-24 | an input without a selection reads both offsets as 0: the text goes in front of the old value, then the call throws and no input event fires |
| InsertText.InsertAtCaretKeepsValue | utils/insertText.ts:14-24 | inserting at a caret of a textarea, or with no line breaks involved, keeps the old text on both sides of the inserted text |
| InsertText.Refresh | utils/insertText.ts:13-16 | the next insertion reads a text control's value and selection as the earlier effects left them, an offset that reads `null` keeping `null`; other elements read as before |
| InsertText.RefreshWithoutWritesKeepsElement | utils/insertText.ts:13-16 | effects that write no text control leave the focused element reading the same, and whether it is selectable never changes |
| InsertText.SecondInsertSeesFirst | utils/insertText.ts:12-31 | two insertions into a textarea with a caret, the second reading what the first left: the value holds both texts at the caret in order, and the caret is after both |
| InsertText.InsertIntoEditable | utils/insertText.ts:34-58 | in a contenteditable element the first range is emptied and receives the text node, the caret collapses after it, and no text field changes |
| SelectionStyle.RemoveSelectionHighlight | utils/selectionStyle.ts:44-52 | takes exactly the recorded style tag and the recorded `selectionchange` listener out of the document and forgets both; nothing else in the document changes |
| SelectionStyle.ApplySelectionHighlight | utils/selectionStyle.ts:14-39 | removes the recorded highlight, then adds the new style tag and listener and records them; nothing else in the document changes |
| SelectionStyle.OnSelectionChange | utils/selectionStyle.ts:31-35 | an empty selection removes the highlight; a non-empty one changes nothing |
| SelectionStyle.RemoveIdempotent | utils/selectionStyle.ts:44-52 | removing twice is removing once |
| SelectionStyle.RemovePreservesAtMostOne | utils/selectionStyle.ts:44-52 | removing keeps at most one highlight tag and one listener in the document |
| SelectionStyle.ApplyPreservesAtMostOne | utils/selectionStyle.ts:14-39 | applying keeps at most one highlight tag and one listener, because it removes first |
| SelectionStyle.RunKeepsAtMostOne | utils/selectionStyle.ts:5-52 | across any sequence of applies, removals and selection changes, the document never holds two highlight tags or two listeners |
| SelectionStyle.ClearedSelectionUndoesApply | utils/selectionStyle.ts:14-39 | applying and then clearing the selection returns the document to its state without the highlight |
| AudioRecorder.StartRecording | utils/audioRecorder.ts:13-38 | a grant installs a fresh recording recorder with a new id, no chunks and the new stream, which becomes live; a refusal changes nothing and rethrows; a recorder constructor that throws rethrows, keeps the old state, and leaves the granted stream live. No pending stop handler is touched, and consistency is kept |
| AudioRecorder.IsRecordingLifecycle | utils/audioRecorder.ts:71-73 | `isRecording()` is false before any start, true after a granted start, unchanged by a refused one, and false once a stop is requested or completed |
| AudioRecorder.OnDataAvailable | utils/audioRecorder.ts:19-23 | a non-empty chunk of the current recorder is appended; anything else changes nothing |
| AudioRecorder.RequestStop | utils/audioRecorder.ts:40-67 | with no recorder the promise resolves to null at once; otherwise the recorder becomes inactive and, when a stop event is still to come, its `onstop` handler is (re)set to resolve this caller |
| AudioRecorder.OnStop | utils/audioRecorder.ts:47-65 | a stop event resolves exactly when its recorder has a handler waiting; the handler reads the state as it is now: it resolves with the current chunks, releases the current stream and resets the state, whichever recorder is current |
| AudioRecorder.StopRecording | utils/audioRecorder.ts:40-69 | exactly a stop with no recorder gives null, changing nothing; a blob holds the recorded chunks plus the final one, and the stream is released and the state reset; a promise that never settles needs an inconsistent state; consistency is kept |
| AudioRecorder.StopTwice | utils/audioRecorder.ts:40-45 | stopping after a completed stop never yields a blob and changes nothing |
| AudioRecorder.ConsistentStopSettles | utils/audioRecorder.ts:40-69 | from a consistent state, a stop run to completion always settles, to null or to a blob |
| AudioRecorder.DeliverKeepsOrder | utils/audioRecorder.ts:19-23 | a sequence of chunks delivered to the current recorder is stored as exactly its non-empty chunks, in order |
| AudioRecorder.NonEmptyKeepsBytes | utils/audioRecorder.ts:19-23 | dropping empty chunks loses no bytes |
| AudioRecorder.RecordingSession | utils/audioRecorder.ts:13-69 | start, chunks, stop: the blob holds exactly the recorded bytes in order, the stream is released, and the recorder is reset |
| AudioRecorder.StartOverRunningSessionLeaks | utils/audioRecorder.ts:27-31 | starting while recording overwrites the state: the first stream stays live even after the next stop, which releases only the new stream |
| AudioRecorder.StaleStopTakesOverNewRecording | utils/audioRecorder.ts:47-65 | when a requested stop's event arrives after a new recording has started, the first caller receives the new recording's audio, the new stream is released, and a later stop finds nothing and resolves to null |
| Messages.Parse | entrypoints/content.tsx:24-114 | dispatching on an action string gives a message that carries that same tag |
| Messages.ParseAction | entrypoints/content.tsx:24-114 | the known tags are pairwise distinct, so dispatching on a message's tag gives the message back |
| TranscriptionHook.StartErrorMessage | hooks/use-transcription-modal.tsx:63-67 | the permission message is chosen exactly for an `Error` named NotAllowedError; otherwise the start-failure message |
| TranscriptionHook.Mount | hooks/use-transcription-modal.tsx:46-73 | a new modal shows "Ready to record", is mounted, and waits for the microphone |
| TranscriptionHook.AutoStartSettled | hooks/use-transcription-modal.tsx:54-70 | the recorder is updated either way. While mounted, success shows "Recording..." and failure reports the chosen message and then closes. After unmounting it stays silent |
| TranscriptionHook.Unmount | hooks/use-transcription-modal.tsx:75-81 | the hook becomes unmounted, and a recorder that is recording is asked to stop on behalf of the cleanup, so it is no longer recording |
| TranscriptionHook.BeginStop | hooks/use-transcription-modal.tsx:156-161 | the stop path shows "Processing..." and requests the stop. With no recorder it continues at once and leaves the recording state. Otherwise it waits for the recorder |
| TranscriptionHook.ToggleRecording | hooks/use-transcription-modal.tsx:131-154 | when idle a grant shows "Recording..." and a failure only reports, leaving the modal open and unchanged; when recording it takes the stop path |
| TranscriptionHook.StopAndInsert | hooks/use-transcription-modal.tsx:156-167 | only a recording recorder starts the stop path, and afterwards it is no longer recording; otherwise nothing at all happens |
| TranscriptionHook.ProcessAudio | hooks/use-transcription-modal.tsx:84-129 | the reply listener is registered and the audio is sent first. A failed send reports the server message and shows "Transcription failed" with recording and processing cleared |
| TranscriptionHook.StopResolved | hooks/use-transcription-modal.tsx:160-165 | a pending stop path leaves the recording state and sends the blob it was given; without one nothing happens |
| TranscriptionHook.OnReply | hooks/use-transcription-modal.tsx:92-109 | a completion unregisters the listener, delivers the text and closes. An error unregisters, reports and shows "Transcription failed". Other messages, or no listener, change nothing |
| TranscriptionHook.RecorderStopped | hooks/use-transcription-modal.tsx:160-165 | a stop event with no handler waiting changes nothing. Otherwise the state is reset and the current stream released; the hook sends audio exactly when the handler resolves its own waiting stop path, and the audio is the current chunks plus the final chunk when the stopped recorder is still current. It only ever sends or reports |
| TranscriptionHook.HookStep | hooks/use-transcription-modal.tsx:50-167 | no step changes the hook's id, only unmounting changes whether it is mounted, and every step keeps the recorder consistent; a microphone granted to the auto-start after unmounting keeps recording exactly in the as-written build, silently |
| TranscriptionHook.BuildsAgreeElsewhere | hooks/use-transcription-modal.tsx:50-167 | apart from that late grant, both builds take the same step on every event |
| TranscriptionHook.AtMostOneTranscriptionPerRecording | hooks/use-transcription-modal.tsx:156-167 | in either build, however stop clicks, stop events, chunks, replies and unmounting interleave, a run that grants no new microphone sends at most one transcription request, and none when no recorder exists and no stop is pending |
| TranscriptionHook.RepeatedStopIsIgnored | hooks/use-transcription-modal.tsx:156-160 | a second stop while the first is under way does nothing |
| TranscriptionHook.StopAndTranscribe | hooks/use-transcription-modal.tsx:156-165 | stopping a recording sends exactly its chunks plus the final one, releases the microphone and resets the recorder, and the modal leaves the recording state with its listener registered |
| TranscriptionHook.StaleStopSendsNewRecording | hooks/use-transcription-modal.tsx:156-165 | when the stop path's stop event arrives after a new recording has started, the hook sends the new recording's audio as its own and the new microphone is released |
| TranscriptionHook.AutoStartSettledReleasing | hooks/use-transcription-modal.tsx:54-81 | corrected auto-start: the same as written while mounted or on refusal; a grant after unmounting is stopped at once on behalf of the cleanup, so its stop event is to come |
| TranscriptionHook.ClosedBeforeGrantKeepsMicrophone | hooks/use-transcription-modal.tsx:54-81 | as written, closing the modal before the microphone answers leaves the granted recorder recording, its stream live and no stop handler installed, and its stop event does nothing |
| TranscriptionHook.ClosedBeforeGrantReleasesMicrophone | hooks/use-transcription-modal.tsx:54-81 | with the correction, the late grant's stop event releases the stream, resets the recorder and sends nothing |
| TranscriptionModal.StopDisabled | components/TranscriptionModal.tsx:106 | the Stop button is disabled exactly when the stop event would not act |
| TranscriptionModal.StopEventActs | components/TranscriptionModal.tsx:57 | the stop event acts only while recording, when the label reads "Voice", and never while processing |
| TranscriptionModal.StatusLabel | components/TranscriptionModal.tsx:95-97 | the label is "Voice" exactly while recording, and "Paused" otherwise |
| TranscriptionModal.StatusDotClass | components/TranscriptionModal.tsx:92-94 | the class list starts with "status-dot " and adds "recording" exactly while recording |
| TranscriptionModal.OnKeyDown | components/TranscriptionModal.tsx:44-53 | exactly for Escape the default action is prevented (propagation is not stopped) and the modal closes; any other key passes with no effect |
| TranscriptionModal.OnStopEvent | components/TranscriptionModal.tsx:55-60 | the stop event runs the stop path exactly while recording and not processing |
| TranscriptionModal.OnStopClick | components/TranscriptionModal.tsx:103-109 | a disabled Stop button takes no clicks; an enabled one runs the stop path |
| TranscriptionModal.OnCancelClick | components/TranscriptionModal.tsx:114-116 | Cancel closes the modal |
| TranscriptionModal.StopEventIsStopClick | components/TranscriptionModal.tsx:55-109 | the stop event acts exactly when the Stop button is enabled, and then does what a click does |
| TranscriptionModal.NoSecondStopWhileProcessing | components/TranscriptionModal.tsx:55-60 | after one stop the modal is processing, Stop is disabled, and a second stop event is ignored |
| TranscriptionModal.AutoStartEnablesStop | components/TranscriptionModal.tsx:92-109 | a new modal shows "Paused" with Stop disabled; once the microphone is granted it shows "Voice" and "Recording..." with Stop enabled |
| Proofread.CheckSelection | entrypoints/background.ts:18-26 | the selection passes exactly when the reply holds a string that is not white space only. A rejected request or an object reply throws. Anything else counts as nothing selected |
| Proofread.ReadApi | entrypoints/background.ts:29-44 | the proofread text is returned exactly for a 2xx status with a parsed, non-empty `proofreadText`. Another status throws "API returned status: N", a failed fetch or a body that does not parse rethrows its error, a `null` body throws the `TypeError` of reading `proofreadText` from null, and a missing or empty `proofreadText` throws "No proofread text returned from API" |
| Proofread.ErrorMessage | entrypoints/background.ts:51-58 | an `Error` is reported by its message, anything else thrown as "Unknown error occurred" |
| Proofread.Answer | entrypoints/background.ts:46-58 | the tab is told "complete" exactly when the API gave a text, and then with that text; a thrown error is told as "error" with its message |
| Proofread.OnMenuClicked | entrypoints/background.ts:14-61 | only the proofreading menu item on a tab with an id acts. With nothing selected it asks and reports the prompt; when the check throws it asks and reports that error; with a selection it asks, posts the text to the fixed endpoint without a key, and tells the tab the API's answer. It posts exactly when the check passes |
| Proofread.NullBodyIsReported | entrypoints/background.ts:39-58 | a 2xx answer whose body is `null` reaches the tab as an error carrying the `TypeError`'s message, and nothing is reported as proofread |
| Proofread.BadStatusIsReported | entrypoints/background.ts:35-58 | a non-2xx status reaches the tab as "error" with "API returned status: " and the status in decimal |
| Proofread.ProofreadSelection | utils/proofread.ts:1-43 | the selection is checked before the key: a blank one is reported even without a key, and a failing check throws before anything else. A missing key throws before any request. Exactly when both pass, the text is posted to `/api/proofread` under the configured base or the default, with the key as bearer token; the run then ends with the API's text or throws the API's error |
| Proofread.BackgroundIsReportedProofread | utils/proofread.ts:1-43 | the two copies agree: with a key set and no base configured, the background handler acts like `proofreadSelection` without the bearer token, and reports to the tab what `proofreadSelection` throws |
| Proofread.StatusBoundaries | entrypoints/background.ts:35-37 | statuses 199 and 300 throw, 200 and 299 pass, and 503 reads "API returned status: 503" |
| Proofread.BlankSelectionIsNotSent | entrypoints/background.ts:20-26 | a white-space-only selection is answered with "Please select some text to proofread", and nothing is posted |
| ContentScript.SelectionReplyAsWritten | entrypoints/content.ts:5-9 | as written, the reply's `selectedText` holds the whole snapshot object |
| ContentScript.SelectionReply | entrypoints/content.ts:5-9 | corrected: the reply's `selectedText` holds the selected text |
| ContentScript.OnMessage | entrypoints/content.ts:4-22 | only `get-selection` is answered, and only it keeps the channel open: it captures the selection and replies as the build does. `proofread-complete` replaces the cached selection and throws what `replaceText` throws. `proofread-error` alerts "Error: " plus the message. Everything else is ignored |
| ContentScript.BuildsDifferOnlyInReply | entrypoints/content.ts:4-22 | the two builds handle every message alike except for the reply to `get-selection` |
| ContentScript.ObjectReplyNeverProofreads | entrypoints/background.ts:18-26 | as written, whatever the page and the API, the background posts nothing and the tab alerts the `TypeError` from calling `trim` on an object |
| ContentScript.TextReplyProofreads | entrypoints/background.ts:18-33 | corrected, the selection is posted exactly when it is not blank, and it is posted unchanged |
| ContentScript.CorrectedProofreadRoundTrip | entrypoints/background.ts:14-50 | corrected, "helo wrld" selected in a text box and proofread to "hello world": the three messages, then the box holds "hello world" with the caret at 11 |
| ContentSession.StartIsValid | entrypoints/content.tsx:14 | the script starts with no modal, no ui and an idle recorder, which satisfies the session invariant |
| ContentSession.CloseUi | entrypoints/content.tsx:97-100 | the current ui is removed and its modal unmounted, so nothing is recording afterwards; `ui` becomes null; no other modal changes |
| ContentSession.Complete | entrypoints/content.tsx:82-93 | the stored target is refocused when it is an HTML element, then the text goes in at the cursor of the element focused by then |
| ContentSession.RouteOne | entrypoints/content.tsx:81-101 | each hook callback does what the script wires it to: an error alerts "Error: " plus the message, close removes the ui, completion inserts, and the audio goes to the background |
| ContentSession.Route | hooks/use-transcription-modal.tsx:98-99 | callbacks run in order; a completion whose insertion throws ends the hook's code there, so the callbacks after it do not run |
| ContentSession.DeliverToModals | hooks/use-transcription-modal.tsx:92-111 | a runtime message reaches every modal's reply listener in rendering order, each listener reading the page as the earlier listeners' effects left it, and the session invariant holds afterwards |
| ContentSession.DeliverToTwo | hooks/use-transcription-modal.tsx:92-111 | with two modals, the second listener reads the focused element and the window selection refreshed by the first listener's page effects, and the outs are the first's then the second's |
| ContentSession.LoneListenerInserts | hooks/use-transcription-modal.tsx:94-99 | a listening modal while no modal is open focuses its target, inserts at the cursor of whatever element is focused, unregisters, and leaves the session otherwise as it was, whether or not the insertion throws |
| ContentSession.TwoListenersInsertTwice | hooks/use-transcription-modal.tsx:92-111 | two listeners for the same transcription into a textarea with a caret: replaying the page effects leaves the text inserted twice at the caret, with the caret after both, and no modal open |
| ContentSession.TwoListenersOnTextarea | entrypoints/content.tsx:82-91 | textarea 7 holding "ab" with the caret at 1 and two listeners receiving "X" ends up holding "aXXb" with the caret at 3 |
| ContentSession.OnStartTranscription | entrypoints/content.tsx:55-111 | with no modal open, a new modal is mounted that remembers the focused element. With one open, only `transcription-stop` is dispatched and `ui` stays |
| ContentSession.OnRuntimeMessage | entrypoints/content.tsx:16-116 | proofreading messages are handled once, by the cases of `content.tsx` that repeat `content.ts`, and the `get-selection` reply goes out through `sendResponse`; transcription results go to the modals; `start-transcription` opens or stops; anything else is ignored; the session invariant is kept |
| ContentSession.StopOwner | utils/audioRecorder.ts:47-64 | a recorder's stop event belongs to a modal exactly when a handler waits on it, and that handler resolves that modal's stop path or cleanup |
| ContentSession.SessionStep | entrypoints/content.tsx:14-116 | every event, including the recorder's events, which go to the modal whose stop they resolve, keeps the session invariant: `ui` names a rendered modal, exactly that modal is mounted, and the recorder is consistent; at most one modal is added |
| ContentSession.AtMostOneModal | entrypoints/content.tsx:58-64 | in either build, over any sequence of events, at most one modal is mounted and it is the one `ui` holds |
| ContentSession.StartWhileOpenStops | entrypoints/content.tsx:55-64 | `start-transcription` while recording dispatches the stop event, and the open modal starts its stop path |
| ContentSession.EscapeCloses | components/TranscriptionModal.tsx:44-50 | Escape on an open modal removes its ui and stops its recorder |
| ContentSession.LaterModalStopsLeakedRecorder | hooks/use-transcription-modal.tsx:75-81 | a microphone left recording with no modal open is stopped by a later modal closed before its own grant, whose cleanup reads `isRecording()` of the shared module state; the recorder's stop event then resets the state and releases the stream |
| ContentSession.EscapeBeforeGrant | hooks/use-transcription-modal.tsx:54-81 | Escape before the microphone answers, then a grant: no modal is open, and the microphone keeps recording exactly in the as-written build |
| ContentSession.RouteCompleteThenClose | hooks/use-transcription-modal.tsx:98-99 | a completion then a close: the insertion leaves the session alone, and the close acts only when the insertion did not throw |
| ContentSession.ListenerReceives | hooks/use-transcription-modal.tsx:94-99 | any modal whose reply listener is registered, mounted or not, answers a transcription by unregistering, focusing its own stored target, inserting the text at the cursor of the element focused then, and, unless the insertion threw, running `onClose` on the session as it is then |
| ContentSession.TranscriptionLandsInTarget | entrypoints/content.tsx:66-100 | while the one mounted modal waits for its transcription, the reply refocuses the stored target, inserts the text at that element's cursor and unregisters the listener; the modal is removed exactly when the insertion did not throw, and otherwise stays open and mounted |
| ContentSession.ClosedListenerStep | hooks/use-transcription-modal.tsx:92-99 | the closed but listening modal's step starts with the focus of its target and the insertion's effects, and, unless the insertion threw, ends by removing the open modal |
| ContentSession.DeliverQuietSecond | hooks/use-transcription-modal.tsx:92-111 | when the second of two modals no longer listens once the first has had its turn, a message does exactly what the first listener does |
| ContentSession.QuietModalStep | hooks/use-transcription-modal.tsx:92-111 | a modal whose reply listener is gone lets a runtime message pass with no effect |
| ContentSession.ClosedModalStillInserts | hooks/use-transcription-modal.tsx:92-111 | the reply listener of a modal that was already closed still refocuses its target and inserts the text (the outs begin with the focus and exactly the insertion's effects), and, unless that threw, its `onClose` removes whichever modal is open now |
| ContentSession.SessionAnswersSelection | entrypoints/content.tsx:24-28 | `get-selection` stores the capture and sends one reply: the snapshot object as written, the selected text corrected |
| ContentSession.StopClickBegins | components/TranscriptionModal.tsx:103-109 | a click on an enabled Stop while recording begins the open modal's stop path and makes no callback |
| ContentSession.StopEventGoesToOwner | utils/audioRecorder.ts:47-64 | a recorder's stop event is handled by the hook of the modal whose stop path its handler resolves |
| ContentSession.RouteStartsWithSend | hooks/use-transcription-modal.tsx:111-125 | callbacks that only send audio or report errors leave the session alone, and a leading send goes to the background first |
| ContentSession.StaleStopInSession | utils/audioRecorder.ts:47-65 | in the session, when a stop clicked on the open modal is answered only after a new recording has started, the modal sends the new recording's audio for transcription and the new microphone is released |

## Left out

- Console logging everywhere, the CSS, the `LiveWaveform` visualiser and the keyboard-hint labels are left out. They have no effect on the modelled state.
- The context-menu registration at install time (entrypoints/background.ts:5-11) is left out. It only registers the item whose id `Proofread.MenuItemId` checks.
- `blobToBase64` (hooks/use-transcription-modal.tsx:9-16) is left out. It goes through `FileReader`, whose encoding and failure are browser I/O. The audio message carries the blob itself, and the conversion is taken to succeed.
- No handler for `transcribe-audio` exists in entrypoints/background.ts, and nothing in the modelled code sends `start-transcription`. Whether the audio message is delivered (`delivered`) and which replies arrive are therefore inputs.
- `transcribeAudio` (utils/audioRecorder.ts:75-103) is not part of this model: nothing in the modelled code calls it, and the transcription reply is an input.
- Strings: JavaScript offsets, `length` and `substring` count UTF-16 code units, while the model counts Unicode scalar values. For text outside the Basic Multilingual Plane the offsets the page reports and the caret positions computed here differ.
- Dom.ApplyToField: only the line-break stripping of single-line inputs is modelled. A textarea's CR/CRLF normalisation and the type-specific sanitizations (`email` and `url` trimming, `number` parsing) are not, and every input kind is treated like `text`.
- A recorder that stops on its own (its track ending) is not modelled; only `stop()` leads to a stop event.
- React rendering is simplified. A ref is read as the current state, and the batching and timing of renders are not modelled. State set after unmounting is stored but never shown.
- `createShadowRootUi` is taken to resolve before the next message arrives. With a second `start-transcription` during that await, two modals would be created. The model does not cover that interleaving.
- Runtime listeners receive a message in the order the modals were rendered. The browser's order across listeners is not modelled otherwise.
- The error `replaceText` throws inside the runtime listener (`ContentScript.OnMessage`'s `thrown`) is recorded but not routed further: the browser reports it as an uncaught error in the listener, which has no other effect on the modelled state.
- The final `tabs.sendMessage` calls in the background can themselves reject. Those rejections are left out, as are the network details of the requests (headers, JSON encoding).
- `handleToggleRecording` is modelled (`TranscriptionHook.ToggleRecording`), but the component does not wire it to any control, so `ContentSession` never calls it.
- Both entrypoints/content.ts and entrypoints/content.tsx declare the content script under the same name. The model takes exactly one to be loaded, `content.tsx`, whose proofreading cases repeat `content.ts`. Were both loaded, each `get-selection` would be answered twice, each `proofread-complete` would run `replaceText` twice, and each `proofread-error` would alert twice.
- ContentSession.DeliverToModals: each listener inserts into the element the message found focused, refreshed by the earlier listeners' writes. The `focus()` of a listener's own stored target is an effect in the log but does not change which element is read, so listeners whose stored targets differ all write into that one element.
- Proofread.ReadApi: a truthy `proofreadText` that is not a string (a number, an object) is not represented. The worker forwards such a value unchanged, and `replaceText` would coerce it. Only string values are modelled, and other falsy values read as missing.
- TranscriptionHook.AtMostOneTranscriptionPerRecording: holds for runs that grant no new microphone. A run in which a new recording starts may send once per recording.
- SelectionCache.GetSelectionText: an exception from `getRangeAt` is taken to happen exactly when no range exists, which is the only case the browser throws in.
- Proofread.CheckSelection: the `TypeError` text is the wording of the V8 engine. Other engines word it differently.
- With a promise-returning listener (the webextension polyfill), the `get-selection` reply of entrypoints/content.tsx would be the listener's return value `true`, which fails the same check. The model follows the native `sendResponse` reply, as in entrypoints/content.ts.

## Findings

| source | as written | input that shows it | evidently intended | confidence | as-written member | corrected member |
|---|---|---|---|---|---|---|
| entrypoints/content.ts:5-9 | the reply is `{ selectedText }`, where `selectedText` is the whole snapshot object that `getSelectionText` returns; the background then calls `trim` on an object (entrypoints/background.ts:20) | any selection, e.g. "helo wrld" selected in a text box, then "Proofread selection": the background posts nothing, and the tab alerts "Error: response.selectedText.trim is not a function" | reply with the snapshot's `selectedText` string | high; not executed | ContentScript.SelectionReplyAsWritten, ContentScript.ObjectReplyNeverProofreads (the build `AsWritten` of ContentScript.OnMessage and ContentSession.SessionAnswersSelection) | ContentScript.SelectionReply, ContentScript.TextReplyProofreads, ContentScript.CorrectedProofreadRoundTrip (the build `Corrected`) |
| hooks/use-transcription-modal.tsx:54-81 | the effect's cleanup only stops a recorder that is already recording; when the microphone is granted after the modal was closed, `startRecording` still installs and starts a recorder, and nothing in the closed modal stops it. The microphone stays on until the cleanup of another modal happens to stop the current recorder (`ContentSession.LaterModalStopsLeakedRecorder`), or a later grant overwrites the module state and loses it for good (`AudioRecorder.StartOverRunningSessionLeaks`) | open the modal, press Escape before the permission prompt is answered, then allow: the microphone stays on and its stream stays live with no modal open | stop the recorder when the grant arrives after unmounting | medium; not executed | TranscriptionHook.AutoStartSettled, TranscriptionHook.ClosedBeforeGrantKeepsMicrophone, ContentSession.EscapeBeforeGrant (the build `AsWritten` of TranscriptionHook.HookStep and ContentSession.SessionStep) | TranscriptionHook.AutoStartSettledReleasing, TranscriptionHook.ClosedBeforeGrantReleasesMicrophone, ContentSession.EscapeBeforeGrant (the build `Corrected`) |

Three more behaviours follow from the code but are not claimed as bugs.

- Closing a modal does not remove its reply listener, so a late
  transcription still reaches it. That listener inserts the text and then
  closes whatever modal is open at that moment
  (`ContentSession.ClosedModalStillInserts`).
- The `onstop` handler reads the module state when it runs, not when it was
  installed. A stop event that arrives after a new recording has started
  hands the new recording to the old caller and resets the state
  (`AudioRecorder.StaleStopTakesOverNewRecording`,
  `ContentSession.StaleStopInSession`).
- Inserting into an input whose type has no selection (`email`, `number`)
  writes the value and then throws, so `onClose` never runs and the modal
  stays open (`ContentSession.TranscriptionLandsInTarget`).

=== FILE: audio_recorder.dfy ===
/** `audioRecorder.ts` without `transcribeAudio`: one module-level recorder
    state, started from a microphone stream and stopped into one blob.
    `MediaRecorder`, streams and blobs are opaque; what the browser does on its
    own (granting or refusing the microphone, `dataavailable`, `stop`) arrives
    as events. The device also records which streams still hold live
    microphone tracks, so that releasing the microphone can be stated. */
module AudioRecorder {
  import opened Js

  newtype byte = x: int | 0 <= x < 256

  /** A recorded `Blob` as delivered by `dataavailable`; its `size` is its length. */
  type Chunk = seq<byte>

  type StreamId = nat
  type RecorderId = nat

  /** Identifies the `stopRecording` call whose promise the recorder's `onstop`
      handler will resolve. */
  type Caller = nat

  /** `MediaRecorder.state`. */
  datatype RecordingState = Inactive | Recording | Paused

  /** A `MediaRecorder`: its id and its state. Its state becomes inactive as
      soon as `stop()` is called; the `stop` event follows later. */
  datatype MediaRecorder = MediaRecorder(id: RecorderId, state: RecordingState)

  /** `AudioRecorderState`, the module variable `recorderState`. */
  datatype RecorderState = RecorderState(
    mediaRecorder: Option<MediaRecorder>,
    audioChunks: seq<Chunk>,
    stream: Option<StreamId>)

  /** The state the module starts in and returns to after each stop. */
  const Reset := RecorderState(None, [], None)

  /** The module state, the streams whose tracks are still live, the `onstop`
      handler of every recorder whose `stop` event is still to come (the
      handler resolves that `stopRecording` caller, whichever recorder is
      current by then), and the id the next recorder gets. */
  datatype Device = Device(
    recorder: RecorderState,
    liveStreams: set<StreamId>,
    handlers: map<RecorderId, Caller>,
    nextRecorder: RecorderId)

  /** No microphone, no recorder, nothing pending. */
  const Idle := Device(Reset, {}, map[], 0)

  /** `new Blob(audioChunks, { type: "audio/wav" })`. */
  datatype Blob = Blob(chunks: seq<Chunk>) {
    function Bytes(): seq<byte> {
      Flatten(chunks)
    }
  }

  function Flatten(chunks: seq<Chunk>): seq<byte>
    decreases |chunks|
  {
    if |chunks| == 0 then [] else chunks[0] + Flatten(chunks[1..])
  }

  /** The chunks `ondataavailable` keeps: those with a positive size, in order. */
  function NonEmpty(chunks: seq<Chunk>): (r: seq<Chunk>)
    ensures forall i | 0 <= i < |r| :: |r[i]| > 0
    ensures |r| <= |chunks|
    decreases |chunks|
  {
    if |chunks| == 0 then []
    else if |chunks[0]| > 0 then [chunks[0]] + NonEmpty(chunks[1..])
    else NonEmpty(chunks[1..])
  }

  /** How `getUserMedia` and `new MediaRecorder(stream)` turn out: both succeed;
      the microphone is refused (or missing); or the stream is granted and the
      recorder constructor throws. */
  datatype Acquisition =
    | Granted(stream: StreamId)
    | Refused(error: Thrown)
    | RecorderRejected(stream: StreamId, error: Thrown)

  /** The outcome of `startRecording`: the device afterwards and the error the
      returned promise rejects with, if any. */
  datatype StartResult = StartResult(device: Device, error: Option<Thrown>)

  /** `isRecording()`: a recorder exists and its state is "recording". */
  predicate IsRecording(d: Device) {
    d.recorder.mediaRecorder.Some? && d.recorder.mediaRecorder.value.state == Recording
  }

  /** What holds of the device between events: every recorder id handed out is
      below the counter, and the current recorder, once stopped, still has its
      `stop` event to come. */
  predicate Consistent(d: Device) {
    && (d.recorder.mediaRecorder.Some? ==>
          && d.recorder.mediaRecorder.value.id < d.nextRecorder
          && (d.recorder.mediaRecorder.value.state == Inactive ==> d.recorder.mediaRecorder.value.id in d.handlers))
    && (forall r | r in d.handlers :: r < d.nextRecorder)
  }

  /** `startRecording`. On success the state is replaced by a new recorder, no
      chunks, and the new stream, without looking at or releasing what was
      there; on failure the error is rethrown and the state is as before. The
      microphone is never released here, and no pending `stop` event is
      touched. */
  function StartRecording(d: Device, acquisition: Acquisition): (r: StartResult)
    ensures r.error.None? <==> acquisition.Granted?
    ensures acquisition.Granted? ==>
      && r.device.recorder == RecorderState(Some(MediaRecorder(d.nextRecorder, Recording)), [], Some(acquisition.stream))
      && r.device.nextRecorder == d.nextRecorder + 1
      && IsRecording(r.device)
    ensures !acquisition.Granted? ==> r.device.recorder == d.recorder && r.error == Some(acquisition.error)
    ensures r.device.handlers == d.handlers
    ensures d.liveStreams <= r.device.liveStreams
    ensures acquisition.Granted? ==> r.device.liveStreams == d.liveStreams + {acquisition.stream}
    ensures acquisition.Refused? ==> r.device == d
    ensures acquisition.RecorderRejected? ==> r.device.liveStreams == d.liveStreams + {acquisition.stream}
    ensures Consistent(d) ==> Consistent(r.device)
  {
    match acquisition
    case Granted(stream) =>
      StartResult(
        Device(RecorderState(Some(MediaRecorder(d.nextRecorder, Recording)), [], Some(stream)),
               d.liveStreams + {stream}, d.handlers, d.nextRecorder + 1),
        None)
    case Refused(error) =>
      StartResult(d, Some(error))
    case RecorderRejected(stream, error) =>
      StartResult(d.(liveStreams := d.liveStreams + {stream}), Some(error))
  }

  /** The current recorder is the one with this id. */
  predicate IsCurrent(d: Device, recorder: RecorderId) {
    d.recorder.mediaRecorder.Some? && d.recorder.mediaRecorder.value.id == recorder
  }

  /** `ondataavailable` of recorder `recorder`: a chunk with a positive size is
      appended to that recorder's array. The array is the module state's only
      while that recorder is current; a replaced recorder pushes into an array
      nobody reads any more. */
  function OnDataAvailable(d: Device, recorder: RecorderId, chunk: Chunk): (r: Device)
    ensures IsCurrent(d, recorder) && |chunk| > 0 ==> r.recorder.audioChunks == d.recorder.audioChunks + [chunk]
    ensures !(IsCurrent(d, recorder) && |chunk| > 0) ==> r == d
    ensures r.recorder.mediaRecorder == d.recorder.mediaRecorder && r.recorder.stream == d.recorder.stream
    ensures r.liveStreams == d.liveStreams && r.handlers == d.handlers && r.nextRecorder == d.nextRecorder
  {
    if IsCurrent(d, recorder) && |chunk| > 0 then
      d.(recorder := d.recorder.(audioChunks := d.recorder.audioChunks + [chunk]))
    else d
  }

  /** The outcome of the synchronous part of `stopRecording`. */
  datatype StopRequest = StopRequest(device: Device, resolvedNull: bool)

  /** The synchronous part of `stopRecording(caller)`: with no recorder the
      promise resolves to null at once and nothing changes. Otherwise the
      current recorder's `onstop` is set to resolve this caller and `stop()`
      makes it inactive. A `stop` event is then to come: either this `stop()`
      started it, or an earlier one did and its handler is replaced. Calling
      `stop()` on a recorder that is inactive with no event to come does
      nothing, so no handler will ever run. */
  function RequestStop(d: Device, caller: Caller): (r: StopRequest)
    ensures r.resolvedNull <==> d.recorder.mediaRecorder.None?
    ensures r.resolvedNull ==> r.device == d
    ensures !r.resolvedNull ==>
      var m := d.recorder.mediaRecorder.value;
      && r.device.recorder == d.recorder.(mediaRecorder := Some(MediaRecorder(m.id, Inactive)))
      && r.device.liveStreams == d.liveStreams
      && r.device.nextRecorder == d.nextRecorder
      && (m.state != Inactive || m.id in d.handlers ==> r.device.handlers == d.handlers[m.id := caller])
      && (m.state == Inactive && m.id !in d.handlers ==> r.device.handlers == d.handlers)
    ensures !IsRecording(r.device)
    ensures Consistent(d) ==> Consistent(r.device)
  {
    match d.recorder.mediaRecorder
    case None => StopRequest(d, true)
    case Some(m) =>
      var handlers := if m.state != Inactive || m.id in d.handlers then d.handlers[m.id := caller] else d.handlers;
      StopRequest(Device(d.recorder.(mediaRecorder := Some(MediaRecorder(m.id, Inactive))), d.liveStreams,
                         handlers, d.nextRecorder),
                  false)
  }

  /** A resolved `stopRecording` promise: whose it is and the blob. */
  datatype Resolution = Resolution(caller: Caller, blob: Blob)

  datatype Stopped = Stopped(device: Device, resolved: Option<Resolution>)

  /** The `stop` event of recorder `recorder`. Its `onstop` handler, when one is
      waiting, reads the module state as it is NOW, not as it was when the
      handler was installed: it builds the blob from the current chunks in
      order, stops the current stream's tracks, resets the state and resolves
      its caller. If another recorder has been started since, that is the
      recording it takes. */
  function OnStop(d: Device, recorder: RecorderId): (r: Stopped)
    ensures r.resolved.Some? <==> recorder in d.handlers
    ensures r.resolved.Some? ==>
      && r.resolved.value == Resolution(d.handlers[recorder], Blob(d.recorder.audioChunks))
      && r.device == Device(Reset, d.liveStreams - ToSet(d.recorder.stream), d.handlers - {recorder}, d.nextRecorder)
    ensures r.resolved.None? ==> r.device == d
    ensures Consistent(d) ==> Consistent(r.device)
  {
    if recorder in d.handlers then
      Stopped(Device(Reset, d.liveStreams - ToSet(d.recorder.stream), d.handlers - {recorder}, d.nextRecorder),
              Some(Resolution(d.handlers[recorder], Blob(d.recorder.audioChunks))))
    else Stopped(d, None)
  }

  /** How a `stopRecording` promise settles: null at once, with a blob, or never
      (its handler was installed on a recorder whose `stop` event will not
      come). */
  datatype StopOutcome = ResolvedNull | ResolvedBlob(blob: Blob) | NeverResolves

  datatype StopResult = StopResult(device: Device, outcome: StopOutcome)

  /** `stopRecording` run to completion when no other event comes between: the
      request, the final `dataavailable` that `stop()` makes the recorder emit,
      and its `stop` event. With no recorder the result is null and nothing
      changes; otherwise the result is the blob of every kept chunk in arrival
      order, the microphone stream is released and the state is reset. */
  function StopRecording(d: Device, caller: Caller, finalChunk: Chunk): (r: StopResult)
    ensures d.recorder.mediaRecorder.None? <==> r.outcome == ResolvedNull
    ensures r.outcome == ResolvedNull ==> r.device == d
    ensures r.outcome.ResolvedBlob? ==>
      && r.outcome.blob == Blob(d.recorder.audioChunks + NonEmpty([finalChunk]))
      && r.device.recorder == Reset
      && r.device.liveStreams == d.liveStreams - ToSet(d.recorder.stream)
      && r.device.handlers == d.handlers - {d.recorder.mediaRecorder.value.id}
    ensures r.outcome == NeverResolves ==> !Consistent(d) && r.device.recorder.mediaRecorder.Some?
    ensures Consistent(d) ==> Consistent(r.device)
  {
    var request := RequestStop(d, caller);
    if request.resolvedNull then StopResult(request.device, ResolvedNull)
    else
      var m := d.recorder.mediaRecorder.value;
      if m.state == Inactive && m.id !in d.handlers then StopResult(request.device, NeverResolves)
      else
        var flushed := OnDataAvailable(request.device, m.id, finalChunk);
        assert NonEmpty([finalChunk]) == if |finalChunk| > 0 then [finalChunk] else [] by {
          assert [finalChunk][1..] == [];
        }
        assert d.recorder.audioChunks + [] == d.recorder.audioChunks;
        var stopped := OnStop(flushed, m.id);
        StopResult(stopped.device, ResolvedBlob(stopped.resolved.value.blob))
  }

  /** A stop right after a stop finds no recorder, or finds the same recorder
      with no event to come: it never yields a blob and changes nothing. */
  lemma StopTwice(d: Device, c1: Caller, c2: Caller, f1: Chunk, f2: Chunk)
    ensures var first := StopRecording(d, c1, f1);
      var second := StopRecording(first.device, c2, f2);
      && !second.outcome.ResolvedBlob?
      && second.device == first.device
  {
  }

  /** What `isRecording()` reports over a recorder's life: false before any
      start, true right after a granted start whatever came before, unchanged
      by a refused one, false once a stop has been requested and after the
      stop event resets the state. */
  lemma IsRecordingLifecycle(d: Device, stream: StreamId, error: Thrown, caller: Caller, finalChunk: Chunk)
    ensures !IsRecording(Idle)
    ensures IsRecording(StartRecording(d, Granted(stream)).device)
    ensures IsRecording(StartRecording(d, Refused(error)).device) == IsRecording(d)
    ensures !IsRecording(RequestStop(d, caller).device)
    ensures var started := StartRecording(d, Granted(stream)).device;
      !IsRecording(StopRecording(started, caller, finalChunk).device)
  {
  }

  /** Delivering a run of chunks to the current recorder. */
  function Deliver(d: Device, recorder: RecorderId, chunks: seq<Chunk>): Device
    decreases |chunks|
  {
    if |chunks| == 0 then d else Deliver(OnDataAvailable(d, recorder, chunks[0]), recorder, chunks[1..])
  }

  /** Chunks delivered to the current recorder are kept in arrival order,
      without the empty ones, and nothing else about the device changes. */
  lemma {:induction false} DeliverKeepsOrder(d: Device, recorder: RecorderId, chunks: seq<Chunk>)
    requires IsCurrent(d, recorder)
    ensures var r := Deliver(d, recorder, chunks);
      && r.recorder.audioChunks == d.recorder.audioChunks + NonEmpty(chunks)
      && r == d.(recorder := d.recorder.(audioChunks := r.recorder.audioChunks))
    decreases |chunks|
  {
    if |chunks| > 0 {
      var d' := OnDataAvailable(d, recorder, chunks[0]);
      DeliverKeepsOrder(d', recorder, chunks[1..]);
    }
  }

  lemma {:induction false} FlattenAppend(a: seq<Chunk>, b: seq<Chunk>)
    ensures Flatten(a + b) == Flatten(a) + Flatten(b)
    decreases |a|
  {
    if |a| > 0 {
      assert (a + b)[0] == a[0];
      assert (a + b)[1..] == a[1..] + b;
      FlattenAppend(a[1..], b);
      assert Flatten(a + b) == a[0] + (Flatten(a[1..]) + Flatten(b));
    } else {
      assert a + b == b;
    }
  }

  /** Dropping the empty chunks loses no audio. */
  lemma {:induction false} NonEmptyKeepsBytes(chunks: seq<Chunk>)
    ensures Flatten(NonEmpty(chunks)) == Flatten(chunks)
    decreases |chunks|
  {
    if |chunks| > 0 {
      NonEmptyKeepsBytes(chunks[1..]);
      if |chunks[0]| > 0 {
        FlattenAppend([chunks[0]], NonEmpty(chunks[1..]));
        assert Flatten([chunks[0]]) == chunks[0] by {
          assert [chunks[0]][1..] == [];
        }
      }
    }
  }

  /** A whole session: a granted start, a run of chunks, then a stop. The blob
      holds exactly the recorded audio in order, the microphone stream is
      released, and the module is back in its reset state. */
  lemma RecordingSession(d: Device, stream: StreamId, chunks: seq<Chunk>, caller: Caller, finalChunk: Chunk)
    ensures var started := StartRecording(d, Granted(stream)).device;
      var recorded := Deliver(started, d.nextRecorder, chunks);
      var stopped := StopRecording(recorded, caller, finalChunk);
      && stopped.outcome.ResolvedBlob?
      && stopped.outcome.blob.Bytes() == Flatten(chunks + [finalChunk])
      && stream !in stopped.device.liveStreams
      && stopped.device.recorder == Reset
  {
    var started := StartRecording(d, Granted(stream)).device;
    DeliverKeepsOrder(started, d.nextRecorder, chunks);
    var recorded := Deliver(started, d.nextRecorder, chunks);
    assert recorded.recorder.audioChunks == NonEmpty(chunks);
    assert NonEmpty(chunks) + NonEmpty([finalChunk]) == NonEmpty(chunks + [finalChunk]) by {
      NonEmptyAppend(chunks, [finalChunk]);
    }
    NonEmptyKeepsBytes(chunks + [finalChunk]);
  }

  lemma {:induction false} NonEmptyAppend(a: seq<Chunk>, b: seq<Chunk>)
    ensures NonEmpty(a + b) == NonEmpty(a) + NonEmpty(b)
    decreases |a|
  {
    if |a| > 0 {
      assert (a + b)[0] == a[0];
      assert (a + b)[1..] == a[1..] + b;
      NonEmptyAppend(a[1..], b);
    } else {
      assert a + b == b;
    }
  }

  /** Between events the device stays consistent, so a `stopRecording` run to
      completion always settles: null without a recorder, a blob with one. */
  lemma ConsistentStopSettles(d: Device, caller: Caller, finalChunk: Chunk)
    requires Consistent(d)
    ensures StopRecording(d, caller, finalChunk).outcome != NeverResolves
    ensures Consistent(StopRecording(d, caller, finalChunk).device)
  {
  }

  /** Starting over a running session orphans it: the old stream stays live,
      the state no longer refers to it, and stopping afterwards releases only
      the new stream. */
  lemma StartOverRunningSessionLeaks(d: Device, previous: StreamId, stream: StreamId,
                                     caller: Caller, finalChunk: Chunk)
    requires IsRecording(d) && d.recorder.stream == Some(previous) && previous in d.liveStreams
    requires stream != previous
    ensures var started := StartRecording(d, Granted(stream)).device;
      var stopped := StopRecording(started, caller, finalChunk);
      && previous in stopped.device.liveStreams
      && stopped.device.recorder == Reset
  {
  }

  /** A stop requested on one recording whose `stop` event arrives only after a
      new recording has started: the first caller receives the NEW recording's
      audio, the new stream is released, and the new recording is forgotten, so
      a later `stopRecording` resolves to null although nobody stopped it. */
  lemma StaleStopTakesOverNewRecording(d: Device, first: Caller, stream: StreamId, chunks: seq<Chunk>,
                                       later: Caller, finalChunk: Chunk)
    requires Consistent(d) && IsRecording(d)
    ensures var old_ := d.recorder.mediaRecorder.value.id;
      var requested := RequestStop(d, first).device;
      var restarted := StartRecording(requested, Granted(stream)).device;
      var recorded := Deliver(restarted, requested.nextRecorder, chunks);
      var stale := OnStop(recorded, old_);
      && stale.resolved == Some(Resolution(first, Blob(NonEmpty(chunks))))
      && stream !in stale.device.liveStreams
      && stale.device.recorder == Reset
      && StopRecording(stale.device, later, finalChunk).outcome == ResolvedNull
  {
    var requested := RequestStop(d, first).device;
    var restarted := StartRecording(requested, Granted(stream)).device;
    DeliverKeepsOrder(restarted, requested.nextRecorder, chunks);
    assert [] + NonEmpty(chunks) == NonEmpty(chunks);
  }
}

=== FILE: build.dfy ===
/** Which reading of the code a run follows. */
module Builds {
  /** `AsWritten` follows the code line by line, defects included; `Corrected`
      swaps in the corrected definitions named under Findings in README.md:
      a late microphone grant after unmounting is released, and the content
      script replies with the whole selected text. */
  datatype Build = AsWritten | Corrected
}

=== FILE: content_script.dfy ===
/** The proofreading half of the content scripts: the listener of
    `content.ts`, whose three cases `content.tsx` repeats, and how its answer
    to `get-selection` meets the background's check. */
module ContentScript {
  import opened Js
  import opened Dom
  import opened SelectionCache
  import opened ReplaceText
  import opened Messages
  import opened Proofread
  import opened Builds

  const ErrorAlertPrefix := "Error: "

  /** What a listener does with one message: the cache afterwards, what it did
      to the page, the response it sent, whether it returned `true` to keep
      the response channel open, and what it threw, if anything. */
  datatype Handled = Handled(cache: Cache, effects: seq<Effect>, response: Option<SelectionResponse>,
                             keepChannelOpen: bool, thrown: Option<Thrown>)

  /** `sendResponse({ selectedText })` as written: the property holds the
      whole snapshot object that `getSelectionText` returned, not its text. */
  function SelectionReplyAsWritten(snapshot: SelectionSnapshot): (r: SelectionResponse)
    ensures r.Responded? && r.selectedText.SnapshotObject? && r.selectedText.snapshot == snapshot
  {
    Responded(SnapshotObject(snapshot))
  }

  /** The reply the background's check expects: the selected text itself. */
  function SelectionReply(snapshot: SelectionSnapshot): (r: SelectionResponse)
    ensures r.Responded? && r.selectedText == Str(snapshot.selectedText)
  {
    Responded(Str(snapshot.selectedText))
  }

  /** The answer to `get-selection` in each build: as written the snapshot
      object, corrected its selected text. */
  function Reply(build: Build, snapshot: SelectionSnapshot): (r: SelectionResponse)
    ensures build == AsWritten ==> r == SelectionReplyAsWritten(snapshot)
    ensures build == Corrected ==> r == SelectionReply(snapshot)
  {
    match build
    case AsWritten => SelectionReplyAsWritten(snapshot)
    case Corrected => SelectionReply(snapshot)
  }

  /** The listener of `content.ts`, given the cache, the focused element and
      the window selection: `get-selection` captures and answers (keeping the
      channel open); `proofread-complete` replaces the cached selection,
      throwing what `replaceText` throws; `proofread-error` alerts; anything
      else is ignored. */
  function OnMessage(build: Build, cache: Cache, active: ActiveElement, selection: Option<DomSelection>,
                     m: Message): (r: Handled)
    ensures r.keepChannelOpen <==> m.GetSelection?
    ensures r.response.Some? <==> m.GetSelection?
    ensures m.GetSelection? ==>
      var capture := GetSelectionText(cache, active, selection);
      && r.effects == [] && r.cache == capture.cache && r.thrown.None?
      && r.response == Some(Reply(build, capture.snapshot))
    ensures m.ProofreadComplete? ==>
      var replaced := ReplaceText.ReplaceText(cache, selection, m.proofreadText);
      r.cache == replaced.cache && r.effects == replaced.effects && r.thrown == replaced.thrown
    ensures m.ProofreadError? ==> r == Handled(cache, [Alert(ErrorAlertPrefix + m.error)], None, false, None)
    ensures !(m.GetSelection? || m.ProofreadComplete? || m.ProofreadError?) ==> r == Handled(cache, [], None, false, None)
  {
    match m
    case GetSelection =>
      var capture := GetSelectionText(cache, active, selection);
      Handled(capture.cache, [], Some(Reply(build, capture.snapshot)), true, None)
    case ProofreadComplete(text) =>
      var replaced := ReplaceText.ReplaceText(cache, selection, text);
      Handled(replaced.cache, replaced.effects, None, false, replaced.thrown)
    case ProofreadError(error) =>
      Handled(cache, [Alert(ErrorAlertPrefix + error)], None, false, None)
    case _ =>
      Handled(cache, [], None, false, None)
  }

  /** The builds differ only in the answer to `get-selection`. */
  lemma BuildsDifferOnlyInReply(cache: Cache, active: ActiveElement, selection: Option<DomSelection>, m: Message)
    ensures OnMessage(AsWritten, cache, active, selection, m).(response := None)
            == OnMessage(Corrected, cache, active, selection, m).(response := None)
    ensures !m.GetSelection? ==>
      OnMessage(AsWritten, cache, active, selection, m) == OnMessage(Corrected, cache, active, selection, m)
  {
  }

  /** As written the background can never proofread: whatever is selected,
      and whatever the API would answer, its check calls `trim` on the
      snapshot object, the `TypeError` is caught, and the tab shows it in an
      alert. No request is ever posted. */
  lemma ObjectReplyNeverProofreads(cache: Cache, active: ActiveElement, selection: Option<DomSelection>,
                                   tabId: int, api: ApiOutcome)
    requires tabId != 0
    ensures var answered := OnMessage(AsWritten, cache, active, selection, GetSelection);
      var actions := OnMenuClicked(MenuItemId, Some(tabId), answered.response.value, api);
      && actions == [SendToTab(tabId, GetSelection), SendToTab(tabId, ProofreadError(TrimNotAFunction))]
      && OnMessage(AsWritten, answered.cache, active, selection, actions[1].message).effects
         == [Alert(ErrorAlertPrefix + TrimNotAFunction)]
  {
  }

  /** With the corrected reply, the selection reaches the API exactly when it
      is not white space only, and it is posted as selected. */
  lemma TextReplyProofreads(cache: Cache, active: ActiveElement, selection: Option<DomSelection>,
                            tabId: int, api: ApiOutcome)
    requires tabId != 0
    ensures var answered := OnMessage(Corrected, cache, active, selection, GetSelection);
      var actions := OnMenuClicked(MenuItemId, Some(tabId), answered.response.value, api);
      && ((exists i | 0 <= i < |actions| :: actions[i].Post?) <==> !Blank(SelectionString(selection)))
      && (forall i | 0 <= i < |actions| && actions[i].Post? ::
            actions[i].request == Request(BackgroundEndpoint, SelectionString(selection), None))
  {
    var answered := OnMessage(Corrected, cache, active, selection, GetSelection);
    var text := SelectionString(selection);
    assert answered.response.value == Responded(Str(text));
    var actions := OnMenuClicked(MenuItemId, Some(tabId), answered.response.value, api);
    if !Blank(text) {
      assert actions[1] == Post(Request(BackgroundEndpoint, text, None));
    }
  }

  /** With the corrected reply, the whole round trip on a text box holding
      "helo wrld", all of it selected: the background posts "helo wrld", the API answers 200 with
      "hello world", and the box ends up holding "hello world" with the caret
      after it. */
  lemma CorrectedProofreadRoundTrip(id: ElementId, tabId: int, range: RangeId, live: FieldState)
    requires tabId != 0
    ensures var active := TextField(id, TextAreaElement, "helo wrld", Some(0), Some(9));
      var selection := Some(DomSelection("helo wrld", [range]));
      var answered := OnMessage(Corrected, None, active, selection, GetSelection);
      var actions := OnMenuClicked(MenuItemId, Some(tabId), answered.response.value,
                                   Answered(200, Parsed(Some("hello world"))));
      && actions == [SendToTab(tabId, GetSelection),
                     Post(Request(BackgroundEndpoint, "helo wrld", None)),
                     SendToTab(tabId, ProofreadComplete("hello world"))]
      && ApplyAllToField(id, live, OnMessage(Corrected, answered.cache, active, selection, actions[2].message).effects)
         == FieldState("hello world", 11, 11)
  {
    var text := "helo wrld";
    assert !IsSpace(text[0]);
    ReplaceIntoField(id, TextAreaElement, 0, 9, text, Some(DomSelection(text, [range])), "hello world", live, id + 1);
    assert text[..0] + "hello world" + text[9..] == "hello world";
  }
}

=== FILE: content_session.dfy ===
/** `content.tsx`: the content script that owns the transcription modal. Its
    state is the selection cache, the variable `ui`, the recorder, and every
    modal it ever rendered: a closed modal is unmounted, but its pending
    promises and its reply listener live on. A modal's index is both its hook
    id and its ui handle. `createShadowRootUi` is taken to resolve before the
    next message arrives. Every step takes the build to follow. */
module ContentSession {
  import opened Js
  import opened Dom
  import opened SelectionCache
  import opened InsertText
  import opened AudioRecorder
  import opened Messages
  import opened TranscriptionHook
  import opened TranscriptionModal
  import opened ContentScript
  import opened Builds

  /** One rendered modal: its hook, and `targetElement`, the element that was
      focused when it was opened. */
  datatype Modal = Modal(hook: Hook, target: ActiveElement)

  datatype Session = Session(cache: Cache, ui: Option<nat>, modals: seq<Modal>, device: Device)

  /** What the script does: to the page, a runtime message out, or the
      response to the message being handled. */
  datatype Out = Page(effect: Effect) | ToBackground(message: Message) | Respond(response: SelectionResponse)

  datatype Reaction = Reaction(session: Session, outs: seq<Out>)

  const Start := Session(None, None, [], Idle)

  /** Each modal's hook id is its index, `ui` names a rendered modal, the
      mounted modal is exactly the one `ui` holds, and the recorder is
      consistent. */
  predicate Valid(s: Session) {
    && (s.ui.Some? ==> s.ui.value < |s.modals|)
    && (forall i | 0 <= i < |s.modals| :: s.modals[i].hook.id == i)
    && (forall i | 0 <= i < |s.modals| :: s.modals[i].hook.mounted <==> s.ui == Some(i))
    && Consistent(s.device)
  }

  lemma StartIsValid()
    ensures Valid(Start)
  {
  }

  function Pages(effects: seq<Effect>): (outs: seq<Out>)
    ensures |outs| == |effects|
    ensures forall i | 0 <= i < |effects| :: outs[i] == Page(effects[i])
  {
    seq(|effects|, i requires 0 <= i < |effects| => Page(effects[i]))
  }

  /** The response sent, if any, as an out. */
  function Responses(response: Option<SelectionResponse>): (outs: seq<Out>)
    ensures |outs| <= 1
    ensures response.Some? ==> outs == [Respond(response.value)]
    ensures response.None? ==> outs == []
  {
    match response
    case Some(x) => [Respond(x)]
    case None => []
  }

  /** `onClose` (of any modal: the closure reads the shared variable): the
      current ui is removed, which unmounts its modal and so runs the hook's
      cleanup, and `ui` becomes null. */
  function CloseUi(s: Session): (r: Reaction)
    ensures r.session.ui.None? && |r.session.modals| == |s.modals| && r.session.cache == s.cache
    ensures s.ui.Some? && s.ui.value < |s.modals| ==>
      && r.outs == [Page(RemoveUi(s.ui.value))]
      && !r.session.modals[s.ui.value].hook.mounted
      && !IsRecording(r.session.device)
      && (forall i | 0 <= i < |s.modals| && i != s.ui.value :: r.session.modals[i] == s.modals[i])
    ensures !(s.ui.Some? && s.ui.value < |s.modals|) ==> r == Reaction(s.(ui := None), [])
    ensures Valid(s) ==> Valid(r.session)
  {
    match s.ui
    case Some(u) =>
      if u < |s.modals| then
        var closed := Unmount(s.modals[u].hook, s.device);
        Reaction(s.(ui := None, modals := s.modals[u := s.modals[u].(hook := closed.hook)], device := closed.device),
                 [Page(RemoveUi(u))])
      else Reaction(s.(ui := None), [])
    case None => Reaction(s.(ui := None), [])
  }

  /** `onTranscriptionComplete` of modal `i`: its stored target is focused when
      it is an HTML element, then the text goes in at the cursor of whatever
      element has the focus then (`focused`). */
  function Complete(s: Session, i: nat, text: string, focused: ActiveElement,
                    selection: Option<DomSelection>): (outs: seq<Out>)
    ensures i < |s.modals| && s.modals[i].target.IsHtmlElement() ==>
      outs == [Page(Focus(s.modals[i].target.id))] + Pages(InsertTextAtCursor(focused, selection, text).effects)
    ensures !(i < |s.modals| && s.modals[i].target.IsHtmlElement()) ==>
      outs == Pages(InsertTextAtCursor(focused, selection, text).effects)
  {
    var focus := if i < |s.modals| && s.modals[i].target.IsHtmlElement() then [Page(Focus(s.modals[i].target.id))] else [];
    focus + Pages(InsertTextAtCursor(focused, selection, text).effects)
  }

  /** Whether a callback throws: only `onTranscriptionComplete` can, when
      `insertTextAtCursor` throws. */
  predicate Throws(o: Output, focused: ActiveElement, selection: Option<DomSelection>) {
    o.OnTranscriptionComplete? && InsertTextAtCursor(focused, selection, o.text).result.Throws?
  }

  /** What the script does with one callback of modal `i`. */
  function RouteOne(s: Session, i: nat, o: Output, focused: ActiveElement,
                    selection: Option<DomSelection>): (r: Reaction)
    ensures |r.session.modals| == |s.modals|
    ensures Valid(s) ==> Valid(r.session)
    ensures o.OnError? ==> r == Reaction(s, [Page(Alert(ErrorAlertPrefix + o.message))])
    ensures o.OnClose? ==> r == CloseUi(s)
    ensures o.SendAudio? ==> r == Reaction(s, [ToBackground(TranscribeAudio(o.blob))])
    ensures o.OnTranscriptionComplete? ==> r == Reaction(s, Complete(s, i, o.text, focused, selection))
  {
    match o
    case OnError(m) => Reaction(s, [Page(Alert(ErrorAlertPrefix + m))])
    case OnClose => CloseUi(s)
    case OnTranscriptionComplete(text) => Reaction(s, Complete(s, i, text, focused, selection))
    case SendAudio(blob) => Reaction(s, [ToBackground(TranscribeAudio(blob))])
  }

  /** The callbacks of modal `i`, in the order the hook made them. A callback
      that throws ends the hook's code there: the callbacks after it are not
      made. */
  function Route(s: Session, i: nat, outputs: seq<Output>, focused: ActiveElement,
                 selection: Option<DomSelection>): (r: Reaction)
    ensures |r.session.modals| == |s.modals|
    ensures Valid(s) ==> Valid(r.session)
    ensures |outputs| > 0 && Throws(outputs[0], focused, selection) ==>
      r == Reaction(s, Complete(s, i, outputs[0].text, focused, selection))
    decreases |outputs|
  {
    if |outputs| == 0 then Reaction(s, [])
    else
      var first := RouteOne(s, i, outputs[0], focused, selection);
      if Throws(outputs[0], focused, selection) then first
      else
        var rest := Route(first.session, i, outputs[1..], focused, selection);
        Reaction(rest.session, first.outs + rest.outs)
  }

  /** Modal `i` takes a step of its hook: its new hook state and the recorder
      are stored, then its callbacks run. */
  function Commit(s: Session, i: nat, step: Step, focused: ActiveElement,
                  selection: Option<DomSelection>): (r: Reaction)
    ensures |r.session.modals| == |s.modals|
    ensures i >= |s.modals| ==> r == Reaction(s, [])
    ensures (Valid(s) && i < |s.modals| && step.hook.id == s.modals[i].hook.id
             && step.hook.mounted == s.modals[i].hook.mounted && Consistent(step.device)) ==> Valid(r.session)
  {
    if i >= |s.modals| then Reaction(s, [])
    else
      var s' := s.(modals := s.modals[i := s.modals[i].(hook := step.hook)], device := step.device);
      Route(s', i, step.outputs, focused, selection)
  }

  function StepModal(build: Build, s: Session, i: nat, e: TranscriptionHook.Event, focused: ActiveElement,
                     selection: Option<DomSelection>): (r: Reaction)
    ensures |r.session.modals| == |s.modals|
    ensures Valid(s) && !e.Unmounted? ==> Valid(r.session)
  {
    if i >= |s.modals| then Reaction(s, [])
    else Commit(s, i, HookStep(build, s.modals[i].hook, s.device, e), focused, selection)
  }

  /** The page effects among `outs`, in order. */
  function PageEffects(outs: seq<Out>): (es: seq<Effect>)
    ensures |es| <= |outs|
    ensures forall e :: e in es <==> Page(e) in outs
    decreases |outs|
  {
    if |outs| == 0 then []
    else (if outs[0].Page? then [outs[0].effect] else []) + PageEffects(outs[1..])
  }

  /** A runtime message reaches the reply listener of every modal, in the
      order they were rendered; one listener throwing does not keep the
      message from the others. Each listener reads the page the earlier ones
      left: the focused element and the window selection are refreshed by the
      page effects those listeners made. */
  function DeliverToModals(build: Build, s: Session, from: nat, m: Message, focused: ActiveElement,
                           selection: Option<DomSelection>): (r: Reaction)
    ensures |r.session.modals| == |s.modals|
    ensures Valid(s) ==> Valid(r.session)
    decreases |s.modals| - from
  {
    if from >= |s.modals| then Reaction(s, [])
    else
      var first := StepModal(build, s, from, MessageArrives(m), focused, selection);
      var es := PageEffects(first.outs);
      var rest := DeliverToModals(build, first.session, from + 1, m, Refresh(focused, es), RefreshSelection(selection, es));
      Reaction(rest.session, first.outs + rest.outs)
  }

  /** `start-transcription`. With a modal open it only dispatches
      `transcription-stop`, which the open modal handles at once. Otherwise a
      new modal is rendered and mounted, remembering the focused element, and
      its hook starts recording. */
  function OnStartTranscription(s: Session, active: ActiveElement): (r: Reaction)
    ensures |r.session.modals| == |s.modals| + (if s.ui.None? then 1 else 0)
    ensures s.ui.None? ==>
      && r.session.ui == Some(|s.modals|)
      && r.session.modals == s.modals + [Modal(Mount(|s.modals|), active)]
      && r.outs == [Page(MountUi(|s.modals|))]
    ensures s.ui.Some? ==> r.session.ui == s.ui && |r.outs| >= 1 && r.outs[0] == Page(DispatchTranscriptionStop)
    ensures Valid(s) ==> Valid(r.session)
  {
    match s.ui
    case Some(u) =>
      if u < |s.modals| then
        var stopped := Commit(s, u, OnStopEvent(s.modals[u].hook, s.device), NoActiveElement, None);
        Reaction(stopped.session, [Page(DispatchTranscriptionStop)] + stopped.outs)
      else Reaction(s, [Page(DispatchTranscriptionStop)])
    case None =>
      var n := |s.modals|;
      Reaction(s.(ui := Some(n), modals := s.modals + [Modal(Mount(n), active)]), [Page(MountUi(n))])
  }

  /** The listener of `content.tsx`, then the modals' reply listeners. The
      listener's proofreading cases repeat those of `content.ts` word for
      word, so they are `ContentScript.OnMessage`, applied once, and the
      response it sends goes out; the transcription results are left to the
      modals. */
  function OnRuntimeMessage(build: Build, s: Session, m: Message, active: ActiveElement,
                            selection: Option<DomSelection>): (r: Reaction)
    ensures m.GetSelection? || m.ProofreadComplete? || m.ProofreadError? ==>
      var handled := OnMessage(build, s.cache, active, selection, m);
      r == Reaction(s.(cache := handled.cache), Pages(handled.effects) + Responses(handled.response))
    ensures m.TranscriptionComplete? || m.TranscriptionError? ==> r == DeliverToModals(build, s, 0, m, active, selection)
    ensures m.StartTranscription? ==> r == OnStartTranscription(s, active)
    ensures m.TranscribeAudio? || m.OtherAction? ==> r == Reaction(s, [])
    ensures Valid(s) ==> Valid(r.session)
  {
    match m
    case StartTranscription => OnStartTranscription(s, active)
    case TranscriptionComplete(_) => DeliverToModals(build, s, 0, m, active, selection)
    case TranscriptionError(_) => DeliverToModals(build, s, 0, m, active, selection)
    case TranscribeAudio(_) => Reaction(s, [])
    case OtherAction(_) => Reaction(s, [])
    case _ =>
      var handled := OnMessage(build, s.cache, active, selection, m);
      Reaction(s.(cache := handled.cache), Pages(handled.effects) + Responses(handled.response))
  }

  /** The modal whose `stopRecording` call the `onstop` handler of `recorder`
      resolves, if a stop event of it is to come. */
  function StopOwner(d: Device, recorder: RecorderId): (owner: Option<nat>)
    ensures owner.Some? <==> recorder in d.handlers
    ensures owner.Some? ==> d.handlers[recorder] == StopCaller(owner.value)
                            || d.handlers[recorder] == CleanupCaller(owner.value)
  {
    if recorder in d.handlers then Some(d.handlers[recorder] / 2) else None
  }

  /** What reaches the content script: runtime messages (with the focused
      element and the window selection at that moment; for a transcription
      result, the element focused after the target was refocused), the
      microphone answering a modal's auto-start, the open modal's controls,
      and the recorder's events. */
  datatype SessionEvent =
    | Runtime(message: Message, active: ActiveElement, selection: Option<DomSelection>)
    | MicrophoneAnswers(modal: nat, acquisition: Acquisition)
    | StopClicked
    | CancelClicked
    | KeyPressed(code: string)
    | Chunk(recorder: RecorderId, chunk: AudioRecorder.Chunk)
    | RecorderStopped(recorder: RecorderId, finalChunk: AudioRecorder.Chunk, delivered: bool)

  /** One event. The recorder's `stop` event goes to the modal whose stop it
      resolves; a handler whose modal was never rendered only resets the
      recorder. */
  function SessionStep(build: Build, s: Session, e: SessionEvent): (r: Reaction)
    ensures Valid(s) ==> Valid(r.session)
    ensures |s.modals| <= |r.session.modals| <= |s.modals| + 1
  {
    match e
    case Runtime(m, active, selection) => OnRuntimeMessage(build, s, m, active, selection)
    case MicrophoneAnswers(i, acquisition) =>
      StepModal(build, s, i, AutoStartSettles(acquisition), NoActiveElement, None)
    case StopClicked =>
      if s.ui.Some? && s.ui.value < |s.modals| then
        Commit(s, s.ui.value, OnStopClick(s.modals[s.ui.value].hook, s.device), NoActiveElement, None)
      else Reaction(s, [])
    case CancelClicked =>
      if s.ui.Some? then Route(s, s.ui.value, OnCancelClick(), NoActiveElement, None) else Reaction(s, [])
    case KeyPressed(code) =>
      if s.ui.Some? then Route(s, s.ui.value, OnKeyDown(code).outputs, NoActiveElement, None) else Reaction(s, [])
    case Chunk(recorder, chunk) => Reaction(s.(device := OnDataAvailable(s.device, recorder, chunk)), [])
    case RecorderStopped(recorder, finalChunk, delivered) =>
      match StopOwner(s.device, recorder)
      case Some(i) =>
        if i < |s.modals| then StepModal(build, s, i, RecorderStops(recorder, finalChunk, delivered), NoActiveElement, None)
        else Reaction(s.(device := OnStop(OnDataAvailable(s.device, recorder, finalChunk), recorder).device), [])
      case None => Reaction(s, [])
  }

  function Run(build: Build, s: Session, events: seq<SessionEvent>): Session
    decreases |events|
  {
    if |events| == 0 then s else Run(build, SessionStep(build, s, events[0]).session, events[1..])
  }

  /** However messages, clicks, keys and recorder events interleave, in
      either build, at most one modal is mounted, it is the one `ui` holds,
      and the recorder stays consistent. */
  lemma {:induction false} AtMostOneModal(build: Build, s: Session, events: seq<SessionEvent>)
    requires Valid(s)
    ensures var r := Run(build, s, events);
      && Valid(r)
      && (forall i, j | 0 <= i < j < |r.modals| :: !(r.modals[i].hook.mounted && r.modals[j].hook.mounted))
    decreases |events|
  {
    if |events| > 0 {
      AtMostOneModal(build, SessionStep(build, s, events[0]).session, events[1..]);
    }
  }

  /** The shortcut while a modal is open opens no second one: the modal count
      and `ui` stay, and the open modal gets the stop event. If it was
      recording, the recording stops and the modal shows "Processing...". */
  lemma StartWhileOpenStops(build: Build, s: Session, active: ActiveElement, selection: Option<DomSelection>)
    requires Valid(s) && s.ui.Some?
    ensures var r := OnRuntimeMessage(build, s, StartTranscription, active, selection);
      && |r.session.modals| == |s.modals| && r.session.ui == s.ui
      && r.outs[0] == Page(DispatchTranscriptionStop)
    ensures var u := s.ui.value;
      var r := OnRuntimeMessage(build, s, StartTranscription, active, selection);
      StopEventActs(s.modals[u].hook.state) && IsRecording(s.device) ==>
        && !IsRecording(r.session.device)
        && r.session.modals[u].hook.state.statusText == ProcessingStatus
        && r.outs == [Page(DispatchTranscriptionStop)]
  {
  }

  /** Escape closes the open modal: its ui is removed, a recording is stopped,
      and `ui` is cleared so the next shortcut opens a new one. */
  lemma EscapeCloses(build: Build, s: Session)
    requires Valid(s) && s.ui.Some?
    ensures var r := SessionStep(build, s, KeyPressed("Escape"));
      && r.outs == [Page(RemoveUi(s.ui.value))]
      && r.session.ui.None?
      && !IsRecording(r.session.device)
  {
    var k := OnKeyDown("Escape");
    assert k.outputs == [OnClose];
    var first := RouteOne(s, s.ui.value, OnClose, NoActiveElement, None);
    assert Route(first.session, s.ui.value, [], NoActiveElement, None).outs == [];
  }

  /** Escape while the microphone has not answered yet, then the microphone
      is granted: as written the closed modal's recorder starts and keeps the
      microphone; corrected it is stopped at once. No modal is open either
      way. */
  lemma EscapeBeforeGrant(build: Build, s: Session, stream: StreamId)
    requires Valid(s) && s.ui.Some? && s.modals[s.ui.value].hook.autoStartPending && !IsRecording(s.device)
    ensures var u := s.ui.value;
      var closed := SessionStep(build, s, KeyPressed("Escape")).session;
      var answered := SessionStep(build, closed, MicrophoneAnswers(u, Granted(stream))).session;
      && answered.ui.None?
      && (IsRecording(answered.device) <==> build == AsWritten)
      && stream in answered.device.liveStreams
  {
    var u := s.ui.value;
    EscapeCloses(build, s);
    var closed := SessionStep(build, s, KeyPressed("Escape")).session;
    assert closed.modals[u].hook.autoStartPending && !closed.modals[u].hook.mounted;
  }

  /** A microphone left on with no modal open, as `EscapeBeforeGrant` leaves
      it as written, is stopped by a later modal closed before its own grant:
      that modal's cleanup asks `isRecording()` of the module state, which is
      still the leaked recorder, and the recorder's `stop` event then releases
      its stream and resets the state. */
  lemma LaterModalStopsLeakedRecorder(build: Build, s: Session, active: ActiveElement,
                                      selection: Option<DomSelection>, finalChunk: AudioRecorder.Chunk)
    requires Valid(s) && s.ui.None? && IsRecording(s.device)
    ensures var rid := s.device.recorder.mediaRecorder.value.id;
      var shown := SessionStep(build, s, Runtime(StartTranscription, active, selection)).session;
      var closed := SessionStep(build, shown, KeyPressed("Escape")).session;
      var stopped := SessionStep(build, closed, RecorderStopped(rid, finalChunk, true)).session;
      && shown.ui.Some? && IsRecording(shown.device)
      && closed.ui.None? && !IsRecording(closed.device)
      && stopped.device.recorder == Reset
      && stopped.device.liveStreams == s.device.liveStreams - ToSet(s.device.recorder.stream)
  {
    var recorder := s.device.recorder.mediaRecorder.value.id;
    var shown := SessionStep(build, s, Runtime(StartTranscription, active, selection)).session;
    var n := |s.modals|;
    assert shown == s.(ui := Some(n), modals := s.modals + [Modal(Mount(n), active)]);
    EscapeCloses(build, shown);
    var first := RouteOne(shown, n, OnClose, NoActiveElement, None);
    assert Route(first.session, n, [], NoActiveElement, None) == Reaction(first.session, []);
    var closed := SessionStep(build, shown, KeyPressed("Escape")).session;
    assert closed == first.session;
    var d := closed.device;
    assert d == RequestStop(s.device, CleanupCaller(n)).device;
    assert recorder in d.handlers && d.handlers[recorder] == CleanupCaller(n);
    assert StopOwner(d, recorder) == Some(n);
    var h := closed.modals[n].hook;
    var step := TranscriptionHook.RecorderStopped(h, d, recorder, finalChunk, true);
    assert step.outputs == [];
    assert HookStep(build, h, d, RecorderStops(recorder, finalChunk, true)) == step;
  }

  /** A completion followed by a close, routed for modal `i`: the insertion
      leaves the session alone; then, unless it threw, the close acts on
      it. */
  lemma RouteCompleteThenClose(s: Session, i: nat, text: string, focused: ActiveElement,
                               selection: Option<DomSelection>)
    ensures var r := Route(s, i, [OnTranscriptionComplete(text), OnClose], focused, selection);
      var threw := InsertTextAtCursor(focused, selection, text).result.Throws?;
      && r.session == (if threw then s else CloseUi(s).session)
      && r.outs == Complete(s, i, text, focused, selection) + (if threw then [] else CloseUi(s).outs)
  {
    var outputs := [OnTranscriptionComplete(text), OnClose];
    assert outputs[1..] == [OnClose];
    assert [OnClose][1..] == [];
    var first := RouteOne(s, i, OnTranscriptionComplete(text), focused, selection);
    assert first.session == s;
    var last := Route(s, i, [OnClose], focused, selection);
    assert last == Reaction(CloseUi(s).session, CloseUi(s).outs + []);
    assert Complete(s, i, text, focused, selection) + [] == Complete(s, i, text, focused, selection);
  }

  /** The last modal, with no reply listener, lets a transcription result pass
      without any effect. */
  lemma QuietLastModal(build: Build, s: Session, m: Message, focused: ActiveElement, selection: Option<DomSelection>)
    requires |s.modals| > 0 && !s.modals[|s.modals| - 1].hook.listening
    ensures DeliverToModals(build, s, |s.modals| - 1, m, focused, selection) == Reaction(s, [])
  {
    var last := |s.modals| - 1;
    var h := s.modals[last].hook;
    assert OnReply(h, s.device, m) == Step(h, s.device, []);
    assert s.modals[last := s.modals[last].(hook := h)] == s.modals;
    var first := StepModal(build, s, last, MessageArrives(m), focused, selection);
    assert first == Reaction(s, []);
  }

  /** The session once modal `i` has unregistered its reply listener. */
  function Unlistened(s: Session, i: nat): Session
    requires i < |s.modals|
  {
    s.(modals := s.modals[i := s.modals[i].(hook := s.modals[i].hook.(listening := false))])
  }

  /** A listening modal receiving its transcription: it unregisters and
      inserts the text; then, unless the insertion threw, its `onClose` acts
      on the session. */
  lemma ListenerReceives(build: Build, s: Session, i: nat, text: string, focused: ActiveElement,
                         selection: Option<DomSelection>)
    requires i < |s.modals| && s.modals[i].hook.listening
    ensures var u := Unlistened(s, i);
      var threw := InsertTextAtCursor(focused, selection, text).result.Throws?;
      StepModal(build, s, i, MessageArrives(TranscriptionComplete(text)), focused, selection)
        == Reaction(if threw then u else CloseUi(u).session,
                    Complete(u, i, text, focused, selection) + (if threw then [] else CloseUi(u).outs))
  {
    var h := s.modals[i].hook;
    var step := OnReply(h, s.device, TranscriptionComplete(text));
    assert step == Step(h.(listening := false), s.device, [OnTranscriptionComplete(text), OnClose]);
    var u := Unlistened(s, i);
    assert s.(modals := s.modals[i := s.modals[i].(hook := step.hook)], device := step.device) == u;
    assert Commit(s, i, step, focused, selection) == Route(u, i, step.outputs, focused, selection);
    RouteCompleteThenClose(u, i, text, focused, selection);
  }

  /** The transcription arrives while the one modal waits for it: the stored
      target is refocused and the text is inserted at its cursor. Then the
      modal closes, except when the target is an input without a selection:
      there the insertion throws, `onClose` is never called, and the modal
      stays open with its listener gone. */
  lemma TranscriptionLandsInTarget(build: Build, h: Hook, d: Device, cache: Cache, target: ActiveElement,
                                   text: string, selection: Option<DomSelection>)
    requires h.id == 0 && h.mounted && h.listening && target.IsHtmlElement()
    ensures var s := Session(cache, Some(0), [Modal(h, target)], d);
      var r := OnRuntimeMessage(build, s, TranscriptionComplete(text), target, selection);
      var ins := InsertTextAtCursor(target, selection, text);
      && r.outs == [Page(Focus(target.id))] + Pages(ins.effects)
                   + (if ins.result.Throws? then [] else [Page(RemoveUi(0))])
      && (r.session.ui.None? <==> !ins.result.Throws?)
      && (ins.result.Throws? ==> r.session.ui == Some(0) && r.session.modals[0].hook.mounted)
      && !r.session.modals[0].hook.listening
  {
    var s := Session(cache, Some(0), [Modal(h, target)], d);
    var m := TranscriptionComplete(text);
    ListenerReceives(build, s, 0, text, target, selection);
    var after := StepModal(build, s, 0, MessageArrives(m), target, selection);
    var es := PageEffects(after.outs);
    assert DeliverToModals(build, after.session, 1, m, Refresh(target, es), RefreshSelection(selection, es))
        == Reaction(after.session, []);
    assert DeliverToModals(build, s, 0, m, target, selection) == Reaction(after.session, after.outs + []);
  }

  /** The step of the closed, still listening modal 0 while modal 1 is
      open: its outs start with the focus and the insertion, and, unless the
      insertion threw, its `onClose` removes modal 1. */
  lemma ClosedListenerStep(build: Build, s: Session, text: string, target: ActiveElement,
                           selection: Option<DomSelection>)
    requires |s.modals| == 2 && s.ui == Some(1) && s.modals[0].hook.listening && s.modals[0].target == target
    requires target.IsHtmlElement()
    ensures var r := StepModal(build, s, 0, MessageArrives(TranscriptionComplete(text)), target, selection);
      var ins := InsertTextAtCursor(target, selection, text);
      && |r.session.modals| == 2
      && r.session.modals[1].hook.listening == s.modals[1].hook.listening
      && |r.outs| >= 1 + |ins.effects|
      && r.outs[..1 + |ins.effects|] == [Page(Focus(target.id))] + Pages(ins.effects)
      && (!ins.result.Throws? ==>
            && r.outs == [Page(Focus(target.id))] + Pages(ins.effects) + [Page(RemoveUi(1))]
            && r.session.ui.None? && !r.session.modals[1].hook.mounted)
  {
    ListenerReceives(build, s, 0, text, target, selection);
    var u := Unlistened(s, 0);
    var ins := InsertTextAtCursor(target, selection, text);
    var inserted := Complete(u, 0, text, target, selection);
    assert inserted == [Page(Focus(target.id))] + Pages(ins.effects);
    if !ins.result.Throws? {
      assert CloseUi(u).outs == [Page(RemoveUi(1))];
      assert (inserted + [Page(RemoveUi(1))])[..|inserted|] == inserted;
    } else {
      assert inserted[..|inserted|] == inserted;
    }
  }

  /** A modal closed while its audio was being transcribed still listens: when
      the text arrives it is inserted anyway, and, unless the insertion threw,
      that modal's `onClose` removes the modal open now. */
  lemma ClosedModalStillInserts(build: Build, closed: Hook, current: Hook, d: Device, cache: Cache,
                                target: ActiveElement, text: string, selection: Option<DomSelection>)
    requires closed.id == 0 && !closed.mounted && closed.listening
    requires current.id == 1 && current.mounted && !current.listening
    requires target.IsHtmlElement()
    ensures var s := Session(cache, Some(1), [Modal(closed, target), Modal(current, target)], d);
      var r := OnRuntimeMessage(build, s, TranscriptionComplete(text), target, selection);
      var ins := InsertTextAtCursor(target, selection, text);
      && Page(Focus(target.id)) in r.outs
      && |r.outs| >= 1 + |ins.effects|
      && r.outs[..1 + |ins.effects|] == [Page(Focus(target.id))] + Pages(ins.effects)
      && (!ins.result.Throws? ==>
            && Page(RemoveUi(1)) in r.outs
            && r.session.ui.None?
            && !r.session.modals[1].hook.mounted)
  {
    var s := Session(cache, Some(1), [Modal(closed, target), Modal(current, target)], d);
    var m := TranscriptionComplete(text);
    var ins := InsertTextAtCursor(target, selection, text);
    ClosedListenerStep(build, s, text, target, selection);
    var after := StepModal(build, s, 0, MessageArrives(m), target, selection);
    assert after.outs[0] == Page(Focus(target.id));
    if !ins.result.Throws? {
      assert after.outs[1 + |ins.effects|] == Page(RemoveUi(1));
    }
    DeliverQuietSecond(build, s, m, target, selection);
  }

  /** With two modals of which the second does not listen once the first has
      had its turn, the message does only what the first listener does. */
  lemma DeliverQuietSecond(build: Build, s: Session, m: Message, focused: ActiveElement,
                           selection: Option<DomSelection>)
    requires |s.modals| == 2
    requires !StepModal(build, s, 0, MessageArrives(m), focused, selection).session.modals[1].hook.listening
    ensures DeliverToModals(build, s, 0, m, focused, selection)
            == StepModal(build, s, 0, MessageArrives(m), focused, selection)
  {
    var after := StepModal(build, s, 0, MessageArrives(m), focused, selection);
    var es := PageEffects(after.outs);
    DeliverToTwo(build, s, m, focused, selection);
    QuietModalStep(build, after.session, 1, m, Refresh(focused, es), RefreshSelection(selection, es));
    assert after.outs + [] == after.outs;
  }

  /** A modal without a reply listener lets a runtime message pass. */
  lemma QuietModalStep(build: Build, s: Session, i: nat, m: Message, focused: ActiveElement,
                       selection: Option<DomSelection>)
    requires i < |s.modals| && !s.modals[i].hook.listening
    ensures StepModal(build, s, i, MessageArrives(m), focused, selection) == Reaction(s, [])
  {
    var h := s.modals[i].hook;
    assert OnReply(h, s.device, m) == Step(h, s.device, []);
    assert s.modals[i := s.modals[i].(hook := h)] == s.modals;
  }

  /** The page effects of two out lists are those of each, in order. */
  lemma {:induction false} PageEffectsAppend(a: seq<Out>, b: seq<Out>)
    ensures PageEffects(a + b) == PageEffects(a) + PageEffects(b)
    decreases |a|
  {
    if |a| > 0 {
      assert (a + b)[1..] == a[1..] + b;
      PageEffectsAppend(a[1..], b);
    } else {
      assert a + b == b;
    }
  }

  /** Page effects wrapped as outs are read back unchanged. */
  lemma {:induction false} PageEffectsOfPages(effects: seq<Effect>)
    ensures PageEffects(Pages(effects)) == effects
    decreases |effects|
  {
    if |effects| > 0 {
      assert Pages(effects)[1..] == Pages(effects[1..]);
      PageEffectsOfPages(effects[1..]);
    }
  }

  /** The page effects of a focus, a list of effects and one more effect. */
  lemma PageEffectsAround(x: Effect, effects: seq<Effect>, y: seq<Effect>)
    requires |y| <= 1
    ensures PageEffects([Page(x)] + Pages(effects) + Pages(y)) == [x] + effects + y
  {
    PageEffectsAppend([Page(x)] + Pages(effects), Pages(y));
    PageEffectsAppend([Page(x)], Pages(effects));
    PageEffectsOfPages(effects);
    PageEffectsOfPages(y);
    assert PageEffects([Page(x)]) == [x] + PageEffects([Page(x)][1..]);
  }

  /** Replaying a focus, an insertion and a removal on a text control is
      replaying the insertion. */
  lemma ReplayOneInsertion(id: ElementId, f: FieldState, effects: seq<Effect>, ui: nat)
    ensures ApplyAllToField(id, f, [Focus(id)] + effects + [RemoveUi(ui)]) == ApplyAllToField(id, f, effects)
  {
    ApplyAllToFieldAppend(id, f, [Focus(id)] + effects, [RemoveUi(ui)]);
    ApplyAllToFieldAppend(id, f, [Focus(id)], effects);
    ApplyAllToFieldCons(id, f, Focus(id), []);
    ApplyAllToFieldCons(id, ApplyAllToField(id, f, effects), RemoveUi(ui), []);
  }

  /** The page effects of the two listeners of `TwoListenersInsertTwice`,
      replayed on the textarea: the first inserts at the caret, the second
      at the caret the first left. */
  lemma ReplayTwoListeners(target: ActiveElement, selection: Option<DomSelection>, text: string,
                           first: seq<Out>, second: seq<Out>)
    requires target.Selectable() && target.selectionEnd.Some? && target.kind == TextAreaElement
    requires LiveField(target).selectionStart == LiveField(target).selectionEnd <= |target.value|
    requires first == [Page(Focus(target.id))] + Pages(InsertTextAtCursor(target, selection, text).effects)
                      + Pages([RemoveUi(1)])
    requires var es := PageEffects(first);
      second == [Page(Focus(target.id))]
                + Pages(InsertTextAtCursor(Refresh(target, es), RefreshSelection(selection, es), text).effects) + Pages([])
    ensures var c := LiveField(target).selectionStart;
      var n := c + |text| + |text|;
      ApplyAllToField(target.id, LiveField(target), PageEffects(first + second))
        == FieldState(target.value[..c] + text + text + target.value[c..], n, n)
  {
    var id, f := target.id, LiveField(target);
    var ins1 := InsertTextAtCursor(target, selection, text).effects;
    var es0 := PageEffects(first);
    PageEffectsAround(Focus(id), ins1, [RemoveUi(1)]);
    ReplayOneInsertion(id, f, ins1, 1);
    var t1, sel1 := Refresh(target, es0), RefreshSelection(selection, es0);
    assert t1 == Refresh(target, ins1);
    var ins2 := InsertTextAtCursor(t1, sel1, text).effects;
    PageEffectsAround(Focus(id), ins2, []);
    PageEffectsAppend(first, second);
    var g := ApplyAllToField(id, f, ins1);
    ApplyAllToFieldAppend(id, f, es0, [Focus(id)] + ins2);
    ApplyAllToFieldCons(id, g, Focus(id), ins2);
    assert PageEffects(second) == [Focus(id)] + ins2;
    SecondInsertSeesFirst(target, selection, sel1, text, text);
  }

  /** The first of two listening modals, closed while the second is open,
      inserts the text and closes the open one, whose listener stays. */
  lemma FirstOfTwoListeners(build: Build, closed: Hook, current: Hook, d: Device, cache: Cache,
                            target: ActiveElement, text: string, selection: Option<DomSelection>)
    requires closed.id == 0 && !closed.mounted && closed.listening
    requires current.id == 1 && current.mounted && current.listening
    requires target.Selectable()
    ensures var s := Session(cache, Some(1), [Modal(closed, target), Modal(current, target)], d);
      var r := StepModal(build, s, 0, MessageArrives(TranscriptionComplete(text)), target, selection);
      && r.outs == [Page(Focus(target.id))] + Pages(InsertTextAtCursor(target, selection, text).effects)
                   + Pages([RemoveUi(1)])
      && r.session.ui.None? && |r.session.modals| == 2
      && !r.session.modals[0].hook.listening && r.session.modals[1].hook.listening
      && r.session.modals[1].target == target
  {
    var s := Session(cache, Some(1), [Modal(closed, target), Modal(current, target)], d);
    ListenerReceives(build, s, 0, text, target, selection);
    assert Pages([RemoveUi(1)]) == [Page(RemoveUi(1))];
  }

  /** A listening modal when no modal is open: it unregisters and inserts
      the text, and its `onClose`, if the insertion lets it run, finds
      nothing to remove. */
  lemma LoneListenerInserts(build: Build, s: Session, i: nat, text: string, focused: ActiveElement,
                            selection: Option<DomSelection>)
    requires i < |s.modals| && s.modals[i].hook.listening && s.ui.None?
    requires s.modals[i].target.IsHtmlElement()
    ensures var r := StepModal(build, s, i, MessageArrives(TranscriptionComplete(text)), focused, selection);
      && r.outs == [Page(Focus(s.modals[i].target.id))] + Pages(InsertTextAtCursor(focused, selection, text).effects)
      && r.session == Unlistened(s, i)
  {
    ListenerReceives(build, s, i, text, focused, selection);
  }

  /** With two modals, the second listener reads the page the first left. */
  lemma DeliverToTwo(build: Build, s: Session, m: Message, focused: ActiveElement, selection: Option<DomSelection>)
    requires |s.modals| == 2
    ensures var first := StepModal(build, s, 0, MessageArrives(m), focused, selection);
      var es := PageEffects(first.outs);
      var second := StepModal(build, first.session, 1, MessageArrives(m), Refresh(focused, es), RefreshSelection(selection, es));
      DeliverToModals(build, s, 0, m, focused, selection) == Reaction(second.session, first.outs + second.outs)
  {
    var first := StepModal(build, s, 0, MessageArrives(m), focused, selection);
    var es := PageEffects(first.outs);
    var t1, sel1 := Refresh(focused, es), RefreshSelection(selection, es);
    var second := StepModal(build, first.session, 1, MessageArrives(m), t1, sel1);
    var es1 := PageEffects(second.outs);
    assert DeliverToModals(build, second.session, 2, m, Refresh(t1, es1), RefreshSelection(sel1, es1))
        == Reaction(second.session, []);
    assert second.outs + [] == second.outs;
  }

  /** Two modals still listen for the same transcription, the first closed
      and the second open, both aimed at a textarea with a caret. Each
      listener inserts into the textarea as the earlier one left it, so the
      text lands twice at the caret, and the open modal is closed. */
  lemma TwoListenersInsertTwice(build: Build, closed: Hook, current: Hook, d: Device, cache: Cache,
                                target: ActiveElement, text: string, selection: Option<DomSelection>)
    requires closed.id == 0 && !closed.mounted && closed.listening
    requires current.id == 1 && current.mounted && current.listening
    requires target.Selectable() && target.selectionEnd.Some? && target.kind == TextAreaElement
    requires LiveField(target).selectionStart == LiveField(target).selectionEnd <= |target.value|
    ensures var s := Session(cache, Some(1), [Modal(closed, target), Modal(current, target)], d);
      var r := OnRuntimeMessage(build, s, TranscriptionComplete(text), target, selection);
      var c := LiveField(target).selectionStart;
      var n := c + |text| + |text|;
      && ApplyAllToField(target.id, LiveField(target), PageEffects(r.outs))
           == FieldState(target.value[..c] + text + text + target.value[c..], n, n)
      && r.session.ui.None?
      && !r.session.modals[0].hook.listening && !r.session.modals[1].hook.listening
  {
    var s := Session(cache, Some(1), [Modal(closed, target), Modal(current, target)], d);
    var m := TranscriptionComplete(text);
    FirstOfTwoListeners(build, closed, current, d, cache, target, text, selection);
    var after0 := StepModal(build, s, 0, MessageArrives(m), target, selection);
    var es0 := PageEffects(after0.outs);
    var t1, sel1 := Refresh(target, es0), RefreshSelection(selection, es0);
    RefreshWithoutWritesKeepsElement(target, es0);
    LoneListenerInserts(build, after0.session, 1, text, t1, sel1);
    var after1 := StepModal(build, after0.session, 1, MessageArrives(m), t1, sel1);
    assert after1.outs == after1.outs + Pages([]);
    DeliverToTwo(build, s, m, target, selection);
    ReplayTwoListeners(target, selection, text, after0.outs, after1.outs);
  }

  /** Textarea 7 holds "ab" with the caret after "a"; two listeners receive
      "X": the textarea ends up holding "aXXb" with the caret after both. */
  lemma TwoListenersOnTextarea(build: Build, closed: Hook, current: Hook, d: Device, cache: Cache,
                               selection: Option<DomSelection>)
    requires closed.id == 0 && !closed.mounted && closed.listening
    requires current.id == 1 && current.mounted && current.listening
    ensures var target := TextField(7, TextAreaElement, "ab", Some(1), Some(1));
      var s := Session(cache, Some(1), [Modal(closed, target), Modal(current, target)], d);
      var r := OnRuntimeMessage(build, s, TranscriptionComplete("X"), target, selection);
      ApplyAllToField(7, FieldState("ab", 1, 1), PageEffects(r.outs)) == FieldState("aXXb", 3, 3)
  {
    var target := TextField(7, TextAreaElement, "ab", Some(1), Some(1));
    TwoListenersInsertTwice(build, closed, current, d, cache, target, "X", selection);
    assert "ab"[..1] + "X" + "X" + "ab"[1..] == "aXXb";
  }

  /** As written the script answers `get-selection` with the snapshot object;
      corrected, with the selected text. Either way the answer is the one
      thing it sends, and the cache holds the capture. */
  lemma SessionAnswersSelection(build: Build, s: Session, active: ActiveElement, selection: Option<DomSelection>)
    ensures var r := OnRuntimeMessage(build, s, GetSelection, active, selection);
      var capture := GetSelectionText(s.cache, active, selection);
      && r.session == s.(cache := capture.cache)
      && (build == AsWritten ==> r.outs == [Respond(Responded(SnapshotObject(capture.snapshot)))])
      && (build == Corrected ==> r.outs == [Respond(Responded(Str(SelectionString(selection))))])
  {
  }

  /** A stop requested by the open modal whose `stop` event comes only after a
      new recording has started in the recorder: the modal sends the new
      recording's audio for transcription, and the new recording's microphone
      is released. */
  lemma StaleStopInSession(build: Build, s: Session, stream: StreamId, chunks: seq<AudioRecorder.Chunk>,
                           finalChunk: AudioRecorder.Chunk, delivered: bool)
    requires Valid(s) && s.ui.Some? && IsRecording(s.device)
    requires !StopDisabled(s.modals[s.ui.value].hook.state)
    ensures var u := s.ui.value;
      var stale := s.device.recorder.mediaRecorder.value.id;
      var stopping := SessionStep(build, s, StopClicked).session;
      var restarted := stopping.(device := StartRecording(stopping.device, Granted(stream)).device);
      var recorded := restarted.(device := Deliver(restarted.device, stopping.device.nextRecorder, chunks));
      var r := SessionStep(build, recorded, RecorderStopped(stale, finalChunk, delivered));
      && |r.outs| > 0 && r.outs[0] == ToBackground(TranscribeAudio(Blob(NonEmpty(chunks))))
      && stream !in r.session.device.liveStreams
  {
    var u := s.ui.value;
    var h := s.modals[u].hook;
    var stale := s.device.recorder.mediaRecorder.value.id;
    var begun := StopAndInsert(h, s.device);
    StopClickBegins(build, s);
    var stopping := SessionStep(build, s, StopClicked).session;
    StaleStopSendsNewRecording(h, s.device, stream, chunks, finalChunk, delivered);
    var restarted := StartRecording(stopping.device, Granted(stream)).device;
    DeliverKeepsOrder(restarted, stopping.device.nextRecorder, chunks);
    var device := Deliver(restarted, stopping.device.nextRecorder, chunks);
    var recorded := stopping.(device := device);
    StopEventGoesToOwner(build, recorded, u, stale, finalChunk, delivered);
    var step := TranscriptionHook.RecorderStopped(begun.hook, device, stale, finalChunk, delivered);
    RouteStartsWithSend(recorded.(modals := recorded.modals[u := recorded.modals[u].(hook := step.hook)],
                                  device := step.device),
                        u, step.outputs);
  }

  /** A click on an enabled Stop while recording: the open modal begins its
      stop path, with no callback. */
  lemma StopClickBegins(build: Build, s: Session)
    requires Valid(s) && s.ui.Some? && IsRecording(s.device)
    requires !StopDisabled(s.modals[s.ui.value].hook.state)
    ensures var u := s.ui.value;
      var begun := StopAndInsert(s.modals[u].hook, s.device);
      && begun.hook.id == u
      && SessionStep(build, s, StopClicked).session
         == s.(modals := s.modals[u := s.modals[u].(hook := begun.hook)], device := begun.device)
  {
  }

  /** The `stop` event of a recorder whose handler resolves modal `i`'s stop
      path goes to that modal's hook. */
  lemma StopEventGoesToOwner(build: Build, s: Session, i: nat, recorder: RecorderId,
                             finalChunk: AudioRecorder.Chunk, delivered: bool)
    requires i < |s.modals| && recorder in s.device.handlers && s.device.handlers[recorder] == StopCaller(i)
    ensures SessionStep(build, s, RecorderStopped(recorder, finalChunk, delivered))
            == Commit(s, i, TranscriptionHook.RecorderStopped(s.modals[i].hook, s.device, recorder, finalChunk, delivered),
                      NoActiveElement, None)
  {
    assert StopOwner(s.device, recorder) == Some(i);
  }

  /** Routing callbacks that start with a transcription request sends it
      first; callbacks that only send or report leave the session alone. */
  lemma {:induction false} RouteStartsWithSend(s: Session, i: nat, outputs: seq<Output>)
    requires forall k | 0 <= k < |outputs| :: outputs[k].SendAudio? || outputs[k].OnError?
    ensures var r := Route(s, i, outputs, NoActiveElement, None);
      && r.session == s
      && (|outputs| > 0 && outputs[0].SendAudio? ==>
            |r.outs| > 0 && r.outs[0] == ToBackground(TranscribeAudio(outputs[0].blob)))
    decreases |outputs|
  {
    if |outputs| > 0 {
      RouteStartsWithSend(s, i, outputs[1..]);
    }
  }
}

=== FILE: dom.dfy ===
/** The page as the content script sees it. Elements and DOM ranges are opaque
    handles; what the scripts read from the live page (the focused element with
    its value and offsets, the window selection) enters as plain values, and
    what they do to the page is an ordered log of `Effect`s. */
module Dom {
  import opened Js

  type ElementId = nat
  type RangeId = nat

  /** The two native text controls the scripts recognise with `instanceof`. */
  datatype FieldKind = InputElement | TextAreaElement

  /** `document.activeElement`, classified the way the scripts test it. A text
      control carries its live `value`, `selectionStart` and `selectionEnd`;
      the offsets are `null` exactly for the input types that have no
      selection (`email`, `number` and the like). */
  datatype ActiveElement =
    | NoActiveElement
    | TextField(id: ElementId, kind: FieldKind, value: string,
                selectionStart: Option<nat>, selectionEnd: Option<nat>)
    | ContentEditable(id: ElementId)
    | OtherHtmlElement(id: ElementId)
    | NonHtmlElement(id: ElementId)
  {
    /** `instanceof HTMLElement`. */
    predicate IsHtmlElement() {
      TextField? || ContentEditable? || OtherHtmlElement?
    }

    /** A text control whose type has a selection, read off its non-null
        `selectionStart`. */
    predicate Selectable() {
      TextField? && selectionStart.Some?
    }
  }

  /** What `setSelectionRange` throws on an input whose type has no selection
      (section 4.10.5.2.10 of the HTML standard); the wording of the message is
      the browser's. */
  const SelectionUnsupported := Thrown(true, "InvalidStateError", "The input element's type does not support selection.")

  /** A non-null `window.getSelection()`: its `toString()` and its ranges in
      order (`rangeCount` is the length). */
  datatype DomSelection = DomSelection(text: string, ranges: seq<RangeId>)

  /** `window.getSelection()?.toString() ?? ""`. */
  function SelectionString(selection: Option<DomSelection>): string {
    match selection
    case Some(s) => s.text
    case None => ""
  }

  /** What a script does to the page, in the order it does it. */
  datatype Effect =
    | SetValue(element: ElementId, kind: FieldKind, value: string)
    | SetSelectionRange(element: ElementId, start: int, end: int)
    | DispatchInput(target: ElementId)
    | DeleteContents(range: RangeId)
    | InsertTextNode(range: RangeId, text: string)
    | CollapseAfterInserted(range: RangeId)
    | RemoveAllRanges
    | AddRange(range: RangeId)
    | Alert(message: string)
    | Focus(element: ElementId)
    | DispatchTranscriptionStop
    | MountUi(ui: nat)
    | RemoveUi(ui: nat)

  /** The value and selection of one text control. */
  datatype FieldState = FieldState(value: string, selectionStart: nat, selectionEnd: nat)

  /** A line feed or a carriage return. */
  predicate IsLineBreak(c: char) {
    c == '\n' || c == '\r'
  }

  predicate NoLineBreaks(s: string) {
    forall i | 0 <= i < |s| :: !IsLineBreak(s[i])
  }

  /** `s` with every line feed and carriage return removed ("strip newlines"
      in the HTML standard): what is left has no line breaks, and text without
      line breaks is kept as it is. */
  function StripLineBreaks(s: string): (r: string)
    ensures |r| <= |s|
    ensures NoLineBreaks(r)
    ensures NoLineBreaks(s) ==> r == s
    decreases |s|
  {
    if |s| == 0 then ""
    else if IsLineBreak(s[0]) then StripLineBreaks(s[1..])
    else [s[0]] + StripLineBreaks(s[1..])
  }

  /** The value a text control holds after `value` is assigned: a single-line
      input runs the value sanitization algorithm, which strips line breaks;
      a textarea keeps the string. */
  function Sanitized(kind: FieldKind, value: string): (r: string)
    ensures kind == TextAreaElement ==> r == value
    ensures kind == InputElement ==> r == StripLineBreaks(value)
  {
    match kind
    case InputElement => StripLineBreaks(value)
    case TextAreaElement => value
  }

  /** How one effect changes the text control `id`. Assigning `value` stores
      the sanitized string and, when that differs from the old value, puts the
      selection at its end; `setSelectionRange` clamps both offsets to the
      length and pulls the start down to the end (section 4.10.5.2.10 of the
      HTML standard). */
  function ApplyToField(id: ElementId, f: FieldState, e: Effect): (r: FieldState)
    ensures r.selectionStart <= r.selectionEnd <= |r.value| || r == f
    ensures !(e.SetValue? || e.SetSelectionRange?) || e.element != id ==> r == f
    ensures e.SetValue? && e.element == id ==> r.value == Sanitized(e.kind, e.value)
    ensures e.SetValue? && e.element == id && r.value != f.value ==> r.selectionStart == r.selectionEnd == |r.value|
    ensures e.SetValue? && e.element == id && r.value == f.value ==> r == f
    ensures e.SetSelectionRange? && e.element == id ==> r.value == f.value
    ensures e.SetSelectionRange? && e.element == id && 0 <= e.start <= e.end <= |f.value| ==>
      r == FieldState(f.value, e.start, e.end)
    ensures e.SetSelectionRange? && e.element == id && e.start > e.end ==> r.selectionStart == r.selectionEnd
  {
    match e
    case SetValue(el, kind, v) =>
      var stored := Sanitized(kind, v);
      if el != id || stored == f.value then f else FieldState(stored, |stored|, |stored|)
    case SetSelectionRange(el, s, t) =>
      if el == id then
        var len := |f.value|;
        var end := Clamp(t, len);
        var start := if Clamp(s, len) <= end then Clamp(s, len) else end;
        FieldState(f.value, start, end)
      else f
    case _ => f
  }

  /** The text control `id` after a whole log of effects, in order. */
  function ApplyAllToField(id: ElementId, f: FieldState, es: seq<Effect>): FieldState
    decreases |es|
  {
    if |es| == 0 then f else ApplyAllToField(id, ApplyToField(id, f, es[0]), es[1..])
  }

  /** The log writes nothing to any text control. */
  predicate TouchesNoField(es: seq<Effect>) {
    forall i | 0 <= i < |es| :: !es[i].SetValue? && !es[i].SetSelectionRange?
  }

  /** A log that writes no text control leaves every text control as it was. */
  lemma {:induction false} NoFieldWriteKeepsField(id: ElementId, f: FieldState, es: seq<Effect>)
    requires TouchesNoField(es)
    ensures ApplyAllToField(id, f, es) == f
    decreases |es|
  {
    if |es| > 0 {
      assert TouchesNoField(es[1..]) by {
        forall i | 0 <= i < |es[1..]|
          ensures !es[1..][i].SetValue? && !es[1..][i].SetSelectionRange?
        {
          assert es[1..][i] == es[i + 1];
        }
      }
      NoFieldWriteKeepsField(id, f, es[1..]);
    }
  }

  /** The ranges of the window selection after one effect. */
  function ApplyToSelection(ranges: seq<RangeId>, e: Effect): seq<RangeId> {
    match e
    case RemoveAllRanges => []
    case AddRange(r) => ranges + [r]
    case _ => ranges
  }

  /** The ranges of the window selection after a whole log of effects. */
  function ApplyAllToSelection(ranges: seq<RangeId>, es: seq<Effect>): seq<RangeId>
    decreases |es|
  {
    if |es| == 0 then ranges else ApplyAllToSelection(ApplyToSelection(ranges, es[0]), es[1..])
  }
  /** Applying two logs one after the other is applying their concatenation. */
  lemma {:induction false} ApplyAllToFieldAppend(id: ElementId, f: FieldState, a: seq<Effect>, b: seq<Effect>)
    ensures ApplyAllToField(id, f, a + b) == ApplyAllToField(id, ApplyAllToField(id, f, a), b)
    decreases |a|
  {
    if |a| > 0 {
      assert (a + b)[1..] == a[1..] + b;
      ApplyAllToFieldAppend(id, ApplyToField(id, f, a[0]), a[1..], b);
    } else {
      assert a + b == b;
    }
  }

  /** Applying a log to a text control is applying its first effect, then the rest. */
  lemma ApplyAllToFieldCons(id: ElementId, f: FieldState, e: Effect, rest: seq<Effect>)
    ensures ApplyAllToField(id, f, [e] + rest) == ApplyAllToField(id, ApplyToField(id, f, e), rest)
  {
    assert ([e] + rest)[1..] == rest;
  }

  /** Applying a log to the selection is applying its first effect, then the rest. */
  lemma ApplyAllToSelectionCons(ranges: seq<RangeId>, e: Effect, rest: seq<Effect>)
    ensures ApplyAllToSelection(ranges, [e] + rest) == ApplyAllToSelection(ApplyToSelection(ranges, e), rest)
  {
    assert ([e] + rest)[1..] == rest;
  }
}

=== FILE: insert_text.dfy ===
/** `insertText.ts`: puts transcribed text at the live caret of the focused
    element. Unlike `replaceText` it reads the element's current value and
    offsets, not a cached copy. */
module InsertText {
  import opened Js
  import opened Dom
  import opened TextSplice

  /** What the call returned or threw, and what it did to the page before. */
  datatype Insertion = Insertion(result: Completion<bool>, effects: seq<Effect>)

  /** `insertTextAtCursor(text)`, given the focused element and the window
      selection. It returns true for a text control whose type has a
      selection, and for a contenteditable element while the selection has a
      range; then the last thing it does is fire an input event on the focused
      element. It returns false, doing nothing, for anything else. On an input
      whose type has no selection it writes the value and then throws from
      `setSelectionRange`. */
  function InsertTextAtCursor(active: ActiveElement, selection: Option<DomSelection>, text: string): (r: Insertion)
    ensures r.result.Throws? <==> active.TextField? && !active.Selectable()
    ensures r.result.Throws? ==>
      && r.result.error == SelectionUnsupported
      && r.effects == [SetValue(active.id, active.kind, Splice(active.value, active.selectionStart.GetOr(0),
                                                               active.selectionEnd.GetOr(0), text))]
    ensures r.result == Returns(true) <==>
              (active.Selectable() || (active.ContentEditable? && selection.Some? && |selection.value.ranges| > 0))
    ensures r.result == Returns(false) ==> r.effects == []
    ensures r.result == Returns(true) ==> |r.effects| > 0 && r.effects[|r.effects| - 1] == DispatchInput(active.id)
  {
    match active
    case NoActiveElement => Insertion(Returns(false), [])
    case TextField(id, kind, value, selectionStart, selectionEnd) =>
      var start := selectionStart.GetOr(0);
      var end := selectionEnd.GetOr(0);
      var caret := CaretAfter(start, text);
      var write := SetValue(id, kind, Splice(value, start, end, text));
      if !active.Selectable() then Insertion(Throws(SelectionUnsupported), [write])
      else Insertion(Returns(true), [write, SetSelectionRange(id, caret, caret), DispatchInput(id)])
    case ContentEditable(id) =>
      if selection.None? || |selection.value.ranges| == 0 then Insertion(Returns(false), [])
      else
        var range := selection.value.ranges[0];
        Insertion(Returns(true), [
          DeleteContents(range),
          InsertTextNode(range, text),
          CollapseAfterInserted(range),
          RemoveAllRanges,
          AddRange(range),
          DispatchInput(id)])
    case OtherHtmlElement(_) => Insertion(Returns(false), [])
    case NonHtmlElement(_) => Insertion(Returns(false), [])
  }

  /** The live state of a focused text control, offsets `null` read as 0. */
  function LiveField(active: ActiveElement): FieldState
    requires active.TextField?
  {
    FieldState(active.value, active.selectionStart.GetOr(0), active.selectionEnd.GetOr(0))
  }

  /** Into a selectable text control whose live selection lies within its
      value: the selection is replaced by the text, as the control stores it
      (an input drops line breaks), and the caret is collapsed just after the
      text, or at the end when the stored value is shorter. A textarea, or
      text without line breaks, holds exactly the spliced value. */
  lemma InsertIntoField(active: ActiveElement, selection: Option<DomSelection>, text: string)
    requires active.Selectable()
    requires LiveField(active).selectionStart <= LiveField(active).selectionEnd <= |active.value|
    ensures var f := LiveField(active);
      var spliced := f.value[..f.selectionStart] + text + f.value[f.selectionEnd..];
      var g := ApplyAllToField(active.id, f, InsertTextAtCursor(active, selection, text).effects);
      && g.value == Sanitized(active.kind, spliced)
      && g.selectionStart == g.selectionEnd == Clamp(f.selectionStart + |text|, |g.value|)
      && (active.kind == TextAreaElement || NoLineBreaks(spliced) ==>
            g == FieldState(spliced, f.selectionStart + |text|, f.selectionStart + |text|))
  {
    var f := LiveField(active);
    var s, t := f.selectionStart, f.selectionEnd;
    SpliceReplacesSelection(f.value, s, t, text);
    var e0, e1, e2 := SetValue(active.id, active.kind, Splice(f.value, s, t, text)),
                      SetSelectionRange(active.id, s + |text|, s + |text|), DispatchInput(active.id);
    assert InsertTextAtCursor(active, selection, text).effects == [e0] + ([e1] + ([e2] + []));
    ApplyAllToFieldCons(active.id, f, e0, [e1] + ([e2] + []));
    ApplyAllToFieldCons(active.id, ApplyToField(active.id, f, e0), e1, [e2] + []);
    ApplyAllToFieldCons(active.id, ApplyToField(active.id, ApplyToField(active.id, f, e0), e1), e2, []);
  }

  /** Into an input whose type has no selection: both offsets read as 0, so
      the value written is the text followed by the old value; then
      `setSelectionRange` throws, and no input event is fired. */
  lemma InsertIntoUnselectableInput(id: ElementId, kind: FieldKind, value: string,
                                    selection: Option<DomSelection>, text: string)
    ensures var r := InsertTextAtCursor(TextField(id, kind, value, None, None), selection, text);
      && r.result == Throws(SelectionUnsupported)
      && ApplyAllToField(id, FieldState(value, 0, 0), r.effects).value == Sanitized(kind, text + value)
      && forall i | 0 <= i < |r.effects| :: !r.effects[i].DispatchInput?
  {
    var r := InsertTextAtCursor(TextField(id, kind, value, None, None), selection, text);
    assert Splice(value, 0, 0, text) == text + value;
    ApplyAllToFieldCons(id, FieldState(value, 0, 0), r.effects[0], []);
  }

  /** At a collapsed caret of a textarea, or with no line breaks involved,
      nothing is removed: the field grows by exactly the text, and taking the
      text out again gives the old value back. */
  lemma InsertAtCaretKeepsValue(active: ActiveElement, selection: Option<DomSelection>, text: string)
    requires active.Selectable()
    requires LiveField(active).selectionStart == LiveField(active).selectionEnd <= |active.value|
    ensures var f := LiveField(active);
      var g := ApplyAllToField(active.id, f, InsertTextAtCursor(active, selection, text).effects);
      active.kind == TextAreaElement || NoLineBreaks(f.value[..f.selectionStart] + text + f.value[f.selectionStart..]) ==>
        && |g.value| == |f.value| + |text|
        && g.value[..f.selectionStart] + g.value[f.selectionStart + |text|..] == f.value
        && g.value[f.selectionStart..f.selectionStart + |text|] == text
  {
    var f := LiveField(active);
    InsertIntoField(active, selection, text);
    SpliceAtCaretOnlyInserts(f.value, f.selectionStart, text);
    SpliceReplacesSelection(f.value, f.selectionStart, f.selectionStart, text);
  }

  /** Into a contenteditable element with a range: no text control is written,
      the first range is emptied, receives the text node and is collapsed after
      it, and it ends up as the selection's only range. */
  lemma InsertIntoEditable(id: ElementId, selection: DomSelection, text: string, other: ElementId, live: FieldState)
    requires |selection.ranges| > 0
    ensures var r := InsertTextAtCursor(ContentEditable(id), Some(selection), text);
      var range := selection.ranges[0];
      && r.effects[..3] == [DeleteContents(range), InsertTextNode(range, text), CollapseAfterInserted(range)]
      && ApplyAllToSelection(selection.ranges, r.effects) == [range]
      && ApplyAllToField(other, live, r.effects) == live
  {
    var range := selection.ranges[0];
    var es := InsertTextAtCursor(ContentEditable(id), Some(selection), text).effects;
    NoFieldWriteKeepsField(other, live, es);
    var e0, e1, e2, e3, e4, e5 := DeleteContents(range), InsertTextNode(range, text), CollapseAfterInserted(range),
                                  RemoveAllRanges, AddRange(range), DispatchInput(id);
    var rs := selection.ranges;
    assert es == [e0] + ([e1] + ([e2] + ([e3] + ([e4] + ([e5] + [])))));
    ApplyAllToSelectionCons(rs, e0, [e1] + ([e2] + ([e3] + ([e4] + ([e5] + [])))));
    ApplyAllToSelectionCons(rs, e1, [e2] + ([e3] + ([e4] + ([e5] + []))));
    ApplyAllToSelectionCons(rs, e2, [e3] + ([e4] + ([e5] + [])));
    ApplyAllToSelectionCons(rs, e3, [e4] + ([e5] + []));
    ApplyAllToSelectionCons([], e4, [e5] + []);
    ApplyAllToSelectionCons([range], e5, []);
  }

  /** The focused element as the next read of the page finds it once `es`
      has been done to the page: a text control holds the value and the
      selection the effects left it with (an offset that reads `null` keeps
      reading `null`); any other element reads as before. */
  function Refresh(active: ActiveElement, es: seq<Effect>): (r: ActiveElement)
    ensures !active.TextField? ==> r == active
    ensures active.TextField? ==>
      var g := ApplyAllToField(active.id, LiveField(active), es);
      && r.TextField? && r.id == active.id && r.kind == active.kind && r.value == g.value
      && r.selectionStart == (if active.selectionStart.Some? then Some(g.selectionStart) else None)
      && r.selectionEnd == (if active.selectionEnd.Some? then Some(g.selectionEnd) else None)
  {
    match active
    case TextField(id, kind, value, start, end) =>
      var g := ApplyAllToField(id, LiveField(active), es);
      TextField(id, kind, g.value,
                if start.Some? then Some(g.selectionStart) else None,
                if end.Some? then Some(g.selectionEnd) else None)
    case _ => active
  }

  /** Effects that write to no text control leave the focused element reading
      as it did; a selectable control stays selectable whatever is done. */
  lemma RefreshWithoutWritesKeepsElement(active: ActiveElement, es: seq<Effect>)
    ensures TouchesNoField(es) ==> Refresh(active, es) == active
    ensures Refresh(active, es).Selectable() <==> active.Selectable()
  {
    if active.TextField? && TouchesNoField(es) {
      NoFieldWriteKeepsField(active.id, LiveField(active), es);
    }
  }

  /** The window selection as the next read of the page finds it once `es`
      has been done: its ranges are the ones the effects left. Its text is not
      read again, since inserting at the cursor only looks at the ranges. */
  function RefreshSelection(selection: Option<DomSelection>, es: seq<Effect>): (r: Option<DomSelection>)
    ensures r.Some? <==> selection.Some?
    ensures selection.Some? ==>
      r.value.text == selection.value.text && r.value.ranges == ApplyAllToSelection(selection.value.ranges, es)
  {
    match selection
    case None => None
    case Some(sel) => Some(DomSelection(sel.text, ApplyAllToSelection(sel.ranges, es)))
  }

  /** Two insertions in a row into a textarea whose caret lies within its
      value, the second reading the page the first left: both texts land at
      the caret, the first before the second, and the caret ends after both. */
  lemma SecondInsertSeesFirst(active: ActiveElement, selection: Option<DomSelection>, later: Option<DomSelection>,
                              a: string, b: string)
    requires active.Selectable() && active.selectionEnd.Some? && active.kind == TextAreaElement
    requires LiveField(active).selectionStart == LiveField(active).selectionEnd <= |active.value|
    ensures var c := LiveField(active).selectionStart;
      var first := Refresh(active, InsertTextAtCursor(active, selection, a).effects);
      var second := Refresh(first, InsertTextAtCursor(first, later, b).effects);
      && second.TextField? && second.id == active.id && second.Selectable() && second.selectionEnd.Some?
      && LiveField(second) == FieldState(active.value[..c] + a + b + active.value[c..], c + |a| + |b|, c + |a| + |b|)
  {
    var c := LiveField(active).selectionStart;
    var v := active.value;
    InsertIntoField(active, selection, a);
    var first := Refresh(active, InsertTextAtCursor(active, selection, a).effects);
    assert LiveField(first) == FieldState(v[..c] + a + v[c..], c + |a|, c + |a|);
    InsertIntoField(first, later, b);
    var w := v[..c] + a + v[c..];
    assert w[..c + |a|] == v[..c] + a;
    assert w[c + |a|..] == v[c..];
  }
}

=== FILE: js.dfy ===
/** The JavaScript built-ins the extension leans on, modelled over plain values.
    A `string` is a Dafny string: a sequence of Unicode scalar values. JavaScript
    counts `length`, `substring` bounds and the selection offsets of text fields
    in UTF-16 code units instead; the two agree on text inside the Basic
    Multilingual Plane, and each character outside it is one `char` here but
    two code units there. */
module Js {

  /** `T | null | undefined`, with `??` as `GetOr`. */
  datatype Option<+T> = None | Some(value: T) {
    function GetOr(default: T): T {
      match this
      case Some(v) => v
      case None => default
    }
  }

  /** An optional value as a set: empty for `None`, the value alone otherwise. */
  function ToSet<T>(o: Option<T>): (r: set<T>)
    ensures |r| <= 1
    ensures o.Some? ==> o.value in r
    ensures o.None? ==> r == {}
  {
    match o
    case Some(v) => {v}
    case None => {}
  }

  /** How a call ends: it returns a value, or it throws. */
  datatype Completion<+T> = Returns(value: T) | Throws(error: Thrown)

  /** A thrown JavaScript value: whether it is an `Error` instance, its `name`
      and its `message`. */
  datatype Thrown = Thrown(isError: bool, name: string, message: string)

  /** An `Error` constructed by `new Error(message)`. */
  function PlainError(message: string): Thrown {
    Thrown(true, "Error", message)
  }

  /** The truthiness of a string: only the empty string is falsy. */
  predicate Truthy(s: string) {
    s != ""
  }

  // ---------------------------------------------------------------------------
  // String.prototype.substring
  // ---------------------------------------------------------------------------

  /** A `substring` argument clamped into `[0, len]`. */
  function Clamp(i: int, len: nat): (r: nat)
    ensures r <= len
    ensures 0 <= i <= len ==> r == i
  {
    if i < 0 then 0 else if i > len then len else i
  }

  /** `s.substring(start, end)`: both arguments are clamped into `[0, |s|]` and
      swapped when the first exceeds the second. */
  function Substring(s: string, start: int, end: int): (r: string)
    ensures 0 <= start <= end <= |s| ==> r == s[start..end]
    ensures 0 <= end <= start <= |s| ==> r == s[end..start]
    ensures start <= 0 && |s| <= end ==> r == s
    ensures |r| <= |s|
  {
    var a := Clamp(start, |s|);
    var b := Clamp(end, |s|);
    if a <= b then s[a..b] else s[b..a]
  }

  /** `s.substring(start)`: the end defaults to the length of the string. */
  function SubstringFrom(s: string, start: int): (r: string)
    ensures r == s[Clamp(start, |s|)..]
  {
    Substring(s, start, |s|)
  }

  /** `substring` does not care about the order of its arguments. */
  lemma SubstringSymmetric(s: string, a: int, b: int)
    ensures Substring(s, a, b) == Substring(s, b, a)
  {
  }

  // ---------------------------------------------------------------------------
  // String.prototype.trim
  // ---------------------------------------------------------------------------

  /** ECMAScript WhiteSpace and LineTerminator code units: the characters `trim`
      removes (section 22.1.3.32 of ECMA-262, "TrimString"). */
  predicate IsSpace(c: char) {
    || c == '\t' || c == '\n' || c == '\U{B}' || c == '\U{C}' || c == '\r'
    || c == ' ' || c == '\U{A0}' || c == '\U{1680}'
    || ('\U{2000}' <= c <= '\U{200A}')
    || c == '\U{2028}' || c == '\U{2029}' || c == '\U{202F}' || c == '\U{205F}'
    || c == '\U{3000}' || c == '\U{FEFF}'
  }

  /** Every character of `s` is white space (the empty string included). */
  predicate Blank(s: string) {
    forall i | 0 <= i < |s| :: IsSpace(s[i])
  }

  /** Leading white space removed: the result is the longest suffix of `s` that
      does not start with white space, and only white space was dropped. */
  function TrimStart(s: string): (r: string)
    ensures |r| <= |s| && r == s[|s| - |r|..]
    ensures Blank(s[..|s| - |r|])
    ensures |r| > 0 ==> !IsSpace(r[0])
  {
    if |s| > 0 && IsSpace(s[0]) then
      var t := TrimStart(s[1..]);
      var k := |s| - |t|;
      assert s[k..] == s[1..][k - 1..];
      assert Blank(s[..k]) by {
        forall i | 0 < i < k
          ensures IsSpace(s[..k][i])
        {
          assert s[..k][i] == s[1..][..k - 1][i - 1];
        }
      }
      t
    else s
  }

  /** Trailing white space removed: the result is the longest prefix of `s`
      that does not end with white space, and only white space was dropped. */
  function TrimEnd(s: string): (r: string)
    ensures |r| <= |s| && r == s[..|r|]
    ensures Blank(s[|r|..])
    ensures |r| > 0 ==> !IsSpace(r[|r| - 1])
  {
    if |s| > 0 && IsSpace(s[|s| - 1]) then
      var t := TrimEnd(s[..|s| - 1]);
      assert s[..|s| - 1][|t|..] == s[|t|..|s| - 1];
      t
    else s
  }

  /** `s.trim()`: no longer than `s`, and with no white space at either end. */
  function Trim(s: string): (r: string)
    ensures |r| <= |s|
    ensures |r| > 0 ==> !IsSpace(r[0]) && !IsSpace(r[|r| - 1])
  {
    var t := TrimStart(s);
    var r := TrimEnd(t);
    assert |r| > 0 ==> r[0] == t[0];
    r
  }

  /** `s.trim().length === 0` holds exactly when `s` consists of white space. */
  lemma TrimEmptyIffBlank(s: string)
    ensures |Trim(s)| == 0 <==> Blank(s)
  {
    var t := TrimStart(s);
    if |Trim(s)| == 0 {
      assert Blank(t[0..]);
      assert s[..|s| - |t|] == s;
    }
  }

  /** The trimmed string is the piece of the original between the leading and
      the trailing white space: what is cut off on either side is blank. */
  lemma TrimIsInnerSlice(s: string)
    ensures var i := |s| - |TrimStart(s)|;
      && i + |Trim(s)| <= |s|
      && Trim(s) == s[i..i + |Trim(s)|]
      && Blank(s[..i])
      && Blank(s[i + |Trim(s)|..])
  {
    var t := TrimStart(s);
    var i := |s| - |t|;
    var r := TrimEnd(t);
    assert t == s[i..];
    assert r == t[..|r|];
    TrimEndIsPrefix(s, i, t, r);
  }

  /** A prefix of a suffix is a slice, and the rest of the suffix is the tail. */
  lemma TrimEndIsPrefix(s: string, i: nat, t: string, r: string)
    requires i <= |s| && t == s[i..] && |r| <= |t| && r == t[..|r|]
    ensures r == s[i..i + |r|]
    ensures t[|r|..] == s[i + |r|..]
  {
  }

  // ---------------------------------------------------------------------------
  // Number to string, for the decimal status codes in error messages
  // ---------------------------------------------------------------------------

  function DigitChar(d: nat): char
    requires d < 10
  {
    "0123456789"[d]
  }

  predicate IsDigit(c: char) {
    '0' <= c <= '9'
  }

  function DigitValue(c: char): nat
    requires IsDigit(c)
  {
    (c as int - '0' as int) as nat
  }

  /** `${n}` for a non-negative integer: its decimal digits, without leading
      zeros. */
  function DecimalString(n: nat): (r: string)
    ensures |r| > 0
    ensures forall i | 0 <= i < |r| :: IsDigit(r[i])
    ensures |r| > 1 ==> r[0] != '0'
    decreases n
  {
    if n < 10 then [DigitChar(n)] else DecimalString(n / 10) + [DigitChar(n % 10)]
  }

  /** The value a string of decimal digits denotes. */
  function ParseDecimal(s: string): nat
    requires forall i | 0 <= i < |s| :: IsDigit(s[i])
  {
    if |s| == 0 then 0 else ParseDecimal(s[..|s| - 1]) * 10 + DigitValue(s[|s| - 1])
  }

  /** Reading the decimal string back gives the number: the rendering loses
      nothing, so distinct status codes give distinct messages. */
  lemma {:induction false} DecimalRoundTrip(n: nat)
    ensures ParseDecimal(DecimalString(n)) == n
    decreases n
  {
    if n >= 10 {
      var p := DecimalString(n / 10);
      var r := DecimalString(n);
      assert r[..|r| - 1] == p;
      DecimalRoundTrip(n / 10);
    }
  }
}

=== FILE: messages.dfy ===
/** The runtime messages exchanged between the background worker, the content
    scripts and the transcription modal, keyed by their `action` string, and
    the values the code reads out of them. */
module Messages {
  import opened Js
  import opened SelectionCache
  import opened AudioRecorder

  datatype Message =
    | GetSelection
    | ProofreadComplete(proofreadText: string)
    | ProofreadError(error: string)
    | TranscriptionComplete(text: string)
    | TranscriptionError(error: string)
    | StartTranscription
    /** The recorded audio; the code sends it as a base64 data URL. */
    | TranscribeAudio(audio: Blob)
    | OtherAction(name: string)

  /** The `action` string each message carries. */
  function Action(m: Message): (a: string)
    ensures m.OtherAction? ==> a == m.name
  {
    match m
    case GetSelection => "get-selection"
    case ProofreadComplete(_) => "proofread-complete"
    case ProofreadError(_) => "proofread-error"
    case TranscriptionComplete(_) => "transcription-complete"
    case TranscriptionError(_) => "transcription-error"
    case StartTranscription => "start-transcription"
    case TranscribeAudio(_) => "transcribe-audio"
    case OtherAction(name) => name
  }

  /** Reading an action string back: an action the code knows gives its
      message, any other string is `OtherAction`. */
  function Parse(action: string, payload: string, audio: Blob): (m: Message)
    ensures Action(m) == action
  {
    if action == "get-selection" then GetSelection
    else if action == "proofread-complete" then ProofreadComplete(payload)
    else if action == "proofread-error" then ProofreadError(payload)
    else if action == "transcription-complete" then TranscriptionComplete(payload)
    else if action == "transcription-error" then TranscriptionError(payload)
    else if action == "start-transcription" then StartTranscription
    else if action == "transcribe-audio" then TranscribeAudio(audio)
    else OtherAction(action)
  }

  /** A property value as far as the code looks at it: missing, a string, or
      a selection snapshot object. */
  datatype JsValue = Undefined | Str(s: string) | SnapshotObject(snapshot: SelectionSnapshot)

  /** What `tabs.sendMessage(tab, { action: "get-selection" })` settles to:
      no response, an object whose `selectedText` property holds a value, or
      a rejection. */
  datatype SelectionResponse =
    | NoResponse
    | Responded(selectedText: JsValue)
    | Rejected(error: Thrown)

  /** The action tags of the known messages are pairwise distinct, so
      dispatching on the tag recovers the message: `Parse` inverts `Action`. */
  lemma ParseAction(m: Message, payload: string, audio: Blob)
    requires m.ProofreadComplete? ==> payload == m.proofreadText
    requires (m.ProofreadError? || m.TranscriptionError?) ==> payload == m.error
    requires m.TranscriptionComplete? ==> payload == m.text
    requires m.TranscribeAudio? ==> audio == m.audio
    requires m.OtherAction? ==> m.name !in KnownActions
    ensures Parse(Action(m), payload, audio) == m
  {
  }

  const KnownActions := {"get-selection", "proofread-complete", "proofread-error", "transcription-complete",
                         "transcription-error", "start-transcription", "transcribe-audio"}
}

=== FILE: proofread.dfy ===
/** The proofreading round trip as the background worker drives it
    (`background.ts`'s context-menu handler) and as `proofreadSelection` in
    `proofread.ts` writes it out a second time. The network is a parameter:
    what `fetch` and `json()` settle to. The messages sent to the tab and the
    request posted are an ordered log of `Action`s. */
module Proofread {
  import opened Js
  import opened Messages

  const MenuItemId := "proofread-selection"
  const DefaultApiBase := "https://transcription-api-omega.vercel.app"
  const ProofreadPath := "/api/proofread"
  const BackgroundEndpoint := "https://transcription-api-omega.vercel.app/api/proofread"

  const NothingSelectedMessage := "Please select some text to proofread"
  const NoProofreadTextMessage := "No proofread text returned from API"
  const UnknownErrorMessage := "Unknown error occurred"
  const MissingKeyMessage := "API key is missing. Please set VITE_API_KEY in your .env file."
  const StatusMessagePrefix := "API returned status: "

  /** The `TypeError` V8 throws when `selectedText` holds an object, whose
      `trim` property is not a function. */
  const TrimNotAFunction := "response.selectedText.trim is not a function"

  /** What the API call settles to: `fetch` rejects, or a response with its
      status and (read only for a 2xx status) its JSON body. */
  datatype ApiOutcome =
    | FetchRejected(error: Thrown)
    | Answered(status: nat, body: ApiBody)

  /** The `TypeError` V8 throws when the body is the JSON value `null`, so
      that `result.proofreadText` reads a property of null. */
  const NullBodyMessage := "Cannot read properties of null (reading 'proofreadText')"

  /** `await response.json()`: a parse failure, the JSON value `null`, or an
      object together with its `proofreadText` as a string, `None` when it is
      missing, null or another falsy value. */
  datatype ApiBody = Unparseable(error: Thrown) | NullBody | Parsed(property: Option<string>)

  /** A `POST` of `{ text }`, with the bearer token when one is sent. */
  datatype Request = Request(url: string, text: string, bearer: Option<string>)

  datatype Action = SendToTab(tab: int, message: Message) | Post(request: Request)

  /** The guard on the answer to `get-selection`. */
  datatype SelectionCheck = NothingSelected | Selected(text: string) | CheckThrows(error: Thrown)

  /** `!response?.selectedText || response.selectedText.trim().length === 0`,
      after awaiting the response. A rejected request throws; missing or blank
      text counts as nothing selected; an object is truthy and has no `trim`,
      so calling it throws. */
  function CheckSelection(response: SelectionResponse): (c: SelectionCheck)
    ensures c.Selected? <==>
      (response.Responded? && response.selectedText.Str? && !Blank(response.selectedText.s))
    ensures c.Selected? ==> c.text == response.selectedText.s
    ensures c.CheckThrows? <==> (response.Rejected? || (response.Responded? && response.selectedText.SnapshotObject?))
    ensures response.Rejected? ==> c == CheckThrows(response.error)
  {
    match response
    case Rejected(e) => CheckThrows(e)
    case NoResponse => NothingSelected
    case Responded(v) =>
      match v
      case Undefined => NothingSelected
      case Str(s) =>
        TrimEmptyIffBlank(s);
        if !Truthy(s) || |Trim(s)| == 0 then NothingSelected else Selected(s)
      case SnapshotObject(_) => CheckThrows(Thrown(true, "TypeError", TrimNotAFunction))
  }

  /** `apiResponse.ok`. */
  predicate Ok(status: nat) {
    200 <= status <= 299
  }

  function StatusMessage(status: nat): string {
    StatusMessagePrefix + DecimalString(status)
  }

  datatype ApiResult = Proofread(text: string) | ApiThrows(error: Thrown)

  /** From the response to the proofread text: a rejection is rethrown, a non-2xx
      status throws with the status in the message, so does a body that does
      not parse, a `null` body throws a `TypeError`, a missing or empty
      `proofreadText` throws, and otherwise the text is the result. */
  function ReadApi(outcome: ApiOutcome): (r: ApiResult)
    ensures r.Proofread? <==>
      (outcome.Answered? && Ok(outcome.status) && outcome.body.Parsed?
       && outcome.body.property.Some? && outcome.body.property.value != "")
    ensures r.Proofread? ==> r.text == outcome.body.property.value
    ensures outcome.Answered? && !Ok(outcome.status) ==> r == ApiThrows(PlainError(StatusMessage(outcome.status)))
    ensures outcome.FetchRejected? ==> r == ApiThrows(outcome.error)
    ensures outcome.Answered? && Ok(outcome.status) ==>
      && (outcome.body.Unparseable? ==> r == ApiThrows(outcome.body.error))
      && (outcome.body.NullBody? ==> r == ApiThrows(Thrown(true, "TypeError", NullBodyMessage)))
      && (outcome.body.Parsed? && (outcome.body.property.None? || outcome.body.property.value == "") ==>
            r == ApiThrows(PlainError(NoProofreadTextMessage)))
  {
    match outcome
    case FetchRejected(e) => ApiThrows(e)
    case Answered(status, body) =>
      if !Ok(status) then ApiThrows(PlainError(StatusMessage(status)))
      else
        match body
        case Unparseable(e) => ApiThrows(e)
        case NullBody => ApiThrows(Thrown(true, "TypeError", NullBodyMessage))
        case Parsed(text) =>
          if text.None? || !Truthy(text.value) then ApiThrows(PlainError(NoProofreadTextMessage))
          else Proofread(text.value)
  }

  /** The text the catch block reports: an `Error`'s message, or a fixed text
      for anything else thrown. */
  function ErrorMessage(e: Thrown): (m: string)
    ensures e.isError ==> m == e.message
    ensures !e.isError ==> m == UnknownErrorMessage
  {
    if e.isError then e.message else UnknownErrorMessage
  }

  /** What the background tells the tab about an API call: the proofread
      text, or the error it threw. */
  function Answer(r: ApiResult): (m: Message)
    ensures m.ProofreadComplete? <==> r.Proofread?
    ensures r.Proofread? ==> m.proofreadText == r.text
    ensures r.ApiThrows? ==> m == ProofreadError(ErrorMessage(r.error))
  {
    match r
    case Proofread(t) => ProofreadComplete(t)
    case ApiThrows(e) => ProofreadError(ErrorMessage(e))
  }

  /** The context-menu click handler of `background.ts`. It acts only for its
      own menu item on a tab with a truthy id. It asks the tab for the
      selection; nothing selected is reported to the tab, and so is an error
      thrown by the check; a selection is posted, without a token, to the
      fixed endpoint, and the tab is told the proofread text or the error. */
  function OnMenuClicked(menuItemId: string, tab: Option<int>, response: SelectionResponse,
                         api: ApiOutcome): (actions: seq<Action>)
    ensures menuItemId != MenuItemId || tab.None? || tab.value == 0 ==> actions == []
    ensures menuItemId == MenuItemId && tab.Some? && tab.value != 0 ==>
      var ask := SendToTab(tab.value, GetSelection);
      && (CheckSelection(response).NothingSelected? ==>
            actions == [ask, SendToTab(tab.value, ProofreadError(NothingSelectedMessage))])
      && (CheckSelection(response).CheckThrows? ==>
            actions == [ask, SendToTab(tab.value, ProofreadError(ErrorMessage(CheckSelection(response).error)))])
      && (CheckSelection(response).Selected? ==>
            actions == [ask, Post(Request(BackgroundEndpoint, CheckSelection(response).text, None)),
                        SendToTab(tab.value, Answer(ReadApi(api)))])
    ensures (exists i | 0 <= i < |actions| :: actions[i].Post?) <==>
      (menuItemId == MenuItemId && tab.Some? && tab.value != 0 && CheckSelection(response).Selected?)
  {
    if menuItemId != MenuItemId || tab.None? || tab.value == 0 then []
    else
      var id := tab.value;
      var ask := [SendToTab(id, GetSelection)];
      match CheckSelection(response)
      case NothingSelected => ask + [SendToTab(id, ProofreadError(NothingSelectedMessage))]
      case CheckThrows(e) => ask + [SendToTab(id, ProofreadError(ErrorMessage(e)))]
      case Selected(text) =>
        var actions := ask + [Post(Request(BackgroundEndpoint, text, None)), SendToTab(id, Answer(ReadApi(api)))];
        assert actions[1].Post?;
        actions
  }

  /** A failing API status reaches the tab as "API returned status: " and the
      status. */
  lemma BadStatusIsReported(tabId: int, s: string, status: nat, body: ApiBody)
    requires tabId != 0 && s != "" && !Blank(s) && !Ok(status)
    ensures OnMenuClicked(MenuItemId, Some(tabId), Responded(Str(s)), Answered(status, body))[2]
            == SendToTab(tabId, ProofreadError(StatusMessagePrefix + DecimalString(status)))
  {
  }

  /** A 2xx answer whose body is `null` reaches the tab as the `TypeError`'s
      message, with nothing proofread. */
  lemma NullBodyIsReported(tabId: int, s: string, status: nat)
    requires tabId != 0 && s != "" && !Blank(s) && Ok(status)
    ensures var actions := OnMenuClicked(MenuItemId, Some(tabId), Responded(Str(s)), Answered(status, NullBody));
      && |actions| == 3
      && actions[2] == SendToTab(tabId, ProofreadError(NullBodyMessage))
      && forall i | 0 <= i < |actions| :: !(actions[i].SendToTab? && actions[i].message.ProofreadComplete?)
  {
  }

  /** The environment `proofread.ts` reads: `VITE_API_BASE_URL` and
      `VITE_API_KEY` (`None` when unset). */
  datatype Env = Env(apiBase: Option<string>, apiKey: Option<string>)

  /** `proofreadSelection`: the actions it takes and what the returned promise
      rejects with, if anything (it has no catch block). */
  datatype ProofreadRun = ProofreadRun(actions: seq<Action>, thrown: Option<Thrown>)

  /** `proofreadSelection(tabId)`. The selection is checked before the key: a
      blank selection is reported to the tab even without a key; a missing or
      empty key throws before any request; otherwise the request carries the
      key as bearer token and goes to the configured base, or the default. */
  function ProofreadSelection(tabId: int, env: Env, response: SelectionResponse, api: ApiOutcome): (r: ProofreadRun)
    ensures |r.actions| >= 1 && r.actions[0] == SendToTab(tabId, GetSelection)
    ensures CheckSelection(response).NothingSelected? ==>
      r == ProofreadRun([SendToTab(tabId, GetSelection), SendToTab(tabId, ProofreadError(NothingSelectedMessage))], None)
    ensures CheckSelection(response).CheckThrows? ==>
      r == ProofreadRun([SendToTab(tabId, GetSelection)], Some(CheckSelection(response).error))
    ensures CheckSelection(response).Selected? && !Truthy(env.apiKey.GetOr("")) ==>
      r == ProofreadRun([SendToTab(tabId, GetSelection)], Some(PlainError(MissingKeyMessage)))
    ensures CheckSelection(response).Selected? && Truthy(env.apiKey.GetOr("")) ==>
      var post := Post(Request(env.apiBase.GetOr(DefaultApiBase) + ProofreadPath, CheckSelection(response).text, env.apiKey));
      && (ReadApi(api).Proofread? ==>
            r == ProofreadRun([SendToTab(tabId, GetSelection), post, SendToTab(tabId, ProofreadComplete(ReadApi(api).text))], None))
      && (ReadApi(api).ApiThrows? ==>
            r == ProofreadRun([SendToTab(tabId, GetSelection), post], Some(ReadApi(api).error)))
    ensures (exists i | 0 <= i < |r.actions| :: r.actions[i].Post?) <==>
      (CheckSelection(response).Selected? && Truthy(env.apiKey.GetOr("")))
    ensures forall i | 0 <= i < |r.actions| && r.actions[i].Post? ::
      && r.actions[i].request.bearer == env.apiKey
      && r.actions[i].request.url == env.apiBase.GetOr(DefaultApiBase) + ProofreadPath
  {
    var ask := [SendToTab(tabId, GetSelection)];
    match CheckSelection(response)
    case CheckThrows(e) => ProofreadRun(ask, Some(e))
    case NothingSelected => ProofreadRun(ask + [SendToTab(tabId, ProofreadError(NothingSelectedMessage))], None)
    case Selected(text) =>
      if !Truthy(env.apiKey.GetOr("")) then ProofreadRun(ask, Some(PlainError(MissingKeyMessage)))
      else
        PostSelection(tabId, env, text, api)
  }

  /** The part of `proofreadSelection` after both checks passed: ask, post
      once, then report the proofread text, or reject with what the call
      threw. */
  function PostSelection(tabId: int, env: Env, text: string, api: ApiOutcome): (r: ProofreadRun)
    ensures |r.actions| >= 2 && r.actions[0] == SendToTab(tabId, GetSelection)
    ensures r.actions[1] == Post(Request(env.apiBase.GetOr(DefaultApiBase) + ProofreadPath, text, env.apiKey))
    ensures forall i | 0 <= i < |r.actions| && i != 1 :: r.actions[i].SendToTab?
    ensures var ask := SendToTab(tabId, GetSelection);
      var post := Post(Request(env.apiBase.GetOr(DefaultApiBase) + ProofreadPath, text, env.apiKey));
      && (ReadApi(api).Proofread? ==> r == ProofreadRun([ask, post, SendToTab(tabId, ProofreadComplete(ReadApi(api).text))], None))
      && (ReadApi(api).ApiThrows? ==> r == ProofreadRun([ask, post], Some(ReadApi(api).error)))
  {
    var ask := SendToTab(tabId, GetSelection);
    var post := Post(Request(env.apiBase.GetOr(DefaultApiBase) + ProofreadPath, text, env.apiKey));
    match ReadApi(api)
    case Proofread(t) => ProofreadRun([ask, post, SendToTab(tabId, ProofreadComplete(t))], None)
    case ApiThrows(e) => ProofreadRun([ask, post], Some(e))
  }

  /** An action with the bearer token dropped from a request. */
  function WithoutBearer(a: Action): Action {
    match a
    case Post(req) => Post(req.(bearer := None))
    case SendToTab(_, _) => a
  }

  /** The actions with every bearer token dropped. */
  function StripBearers(actions: seq<Action>): (r: seq<Action>)
    ensures |r| == |actions|
    ensures forall i | 0 <= i < |actions| :: r[i] == WithoutBearer(actions[i])
    decreases |actions|
  {
    if |actions| == 0 then [] else [WithoutBearer(actions[0])] + StripBearers(actions[1..])
  }

  /** A run of `proofreadSelection` with its rejection reported to the tab
      the way the background's catch block does, and the bearer token
      dropped. */
  function Reported(tabId: int, run: ProofreadRun): seq<Action> {
    match run.thrown
    case None => StripBearers(run.actions)
    case Some(e) => StripBearers(run.actions) + [SendToTab(tabId, ProofreadError(ErrorMessage(e)))]
  }

  /** The copies agree when the selection does not pass the check: both ask,
      and report the same error or the same "nothing selected". */
  lemma AgreeWithoutSelection(tabId: int, key: string, response: SelectionResponse, api: ApiOutcome)
    requires tabId != 0 && key != "" && !CheckSelection(response).Selected?
    ensures OnMenuClicked(MenuItemId, Some(tabId), response, api)
            == Reported(tabId, ProofreadSelection(tabId, Env(None, Some(key)), response, api))
  {
    var run := ProofreadSelection(tabId, Env(None, Some(key)), response, api);
    var ask := SendToTab(tabId, GetSelection);
    if CheckSelection(response).NothingSelected? {
      var told := SendToTab(tabId, ProofreadError(NothingSelectedMessage));
      assert run.actions == [ask, told];
      assert StripBearers(run.actions) == [ask, told];
    } else {
      assert run.actions == [ask];
      assert StripBearers(run.actions) == [ask];
    }
  }

  /** The endpoint the background hard-codes is the default base with the
      proofreading path. */
  lemma EndpointIsDefault()
    ensures DefaultApiBase + ProofreadPath == BackgroundEndpoint
  {
  }

  /** The copies agree when the selection passes and the API answers with a
      text: the same post, without the bearer token, and the same answer. */
  lemma AgreeOnProofread(tabId: int, key: string, response: SelectionResponse, api: ApiOutcome)
    requires tabId != 0 && key != "" && CheckSelection(response).Selected? && ReadApi(api).Proofread?
    ensures OnMenuClicked(MenuItemId, Some(tabId), response, api)
            == Reported(tabId, ProofreadSelection(tabId, Env(None, Some(key)), response, api))
  {
    var run := ProofreadSelection(tabId, Env(None, Some(key)), response, api);
    var ask := SendToTab(tabId, GetSelection);
    var text := CheckSelection(response).text;
    EndpointIsDefault();
    var post := Post(Request(BackgroundEndpoint, text, Some(key)));
    var told := SendToTab(tabId, ProofreadComplete(ReadApi(api).text));
    assert run == ProofreadRun([ask, post, told], None);
    assert StripBearers(run.actions) == [ask, Post(Request(BackgroundEndpoint, text, None)), told];
  }

  /** The copies agree when the selection passes and the API call throws:
      the same post, without the bearer token, and the same error. */
  lemma AgreeOnApiError(tabId: int, key: string, response: SelectionResponse, api: ApiOutcome)
    requires tabId != 0 && key != "" && CheckSelection(response).Selected? && ReadApi(api).ApiThrows?
    ensures OnMenuClicked(MenuItemId, Some(tabId), response, api)
            == Reported(tabId, ProofreadSelection(tabId, Env(None, Some(key)), response, api))
  {
    var run := ProofreadSelection(tabId, Env(None, Some(key)), response, api);
    var ask := SendToTab(tabId, GetSelection);
    var text := CheckSelection(response).text;
    EndpointIsDefault();
    var post := Post(Request(BackgroundEndpoint, text, Some(key)));
    assert run == ProofreadRun([ask, post], Some(ReadApi(api).error));
    assert StripBearers(run.actions) == [ask, Post(Request(BackgroundEndpoint, text, None))];
  }

  /** The two copies agree: with a key set and no base configured, the
      background handler does what `proofreadSelection` does, except that it
      sends no bearer token and reports to the tab what the other throws. */
  lemma BackgroundIsReportedProofread(tabId: int, key: string, response: SelectionResponse, api: ApiOutcome)
    requires tabId != 0 && key != ""
    ensures OnMenuClicked(MenuItemId, Some(tabId), response, api)
            == Reported(tabId, ProofreadSelection(tabId, Env(None, Some(key)), response, api))
  {
    if CheckSelection(response).Selected? {
      if ReadApi(api).Proofread? {
        AgreeOnProofread(tabId, key, response, api);
      } else {
        AgreeOnApiError(tabId, key, response, api);
      }
    } else {
      AgreeWithoutSelection(tabId, key, response, api);
    }
  }

  /** The status check and its message: "API returned status: 503" for a
      503, no error for 200 to 299. */
  lemma StatusBoundaries(body: ApiBody)
    ensures ReadApi(Answered(503, body)) == ApiThrows(PlainError("API returned status: 503"))
    ensures ReadApi(Answered(199, body)).ApiThrows?
    ensures ReadApi(Answered(300, body)).ApiThrows?
    ensures ReadApi(Answered(200, Parsed(Some("ok")))) == Proofread("ok")
    ensures ReadApi(Answered(299, Parsed(Some("ok")))) == Proofread("ok")
  {
    assert DecimalString(503) == "503" by {
      assert DecimalString(50) == "50" by {
        assert DecimalString(5) == "5";
      }
    }
  }

  /** White space only is nothing selected: the tab is told to select some
      text and nothing is posted. */
  lemma BlankSelectionIsNotSent(tabId: int, s: string, api: ApiOutcome)
    requires tabId != 0 && Blank(s)
    ensures OnMenuClicked(MenuItemId, Some(tabId), Responded(Str(s)), api)
            == [SendToTab(tabId, GetSelection), SendToTab(tabId, ProofreadError(NothingSelectedMessage))]
  {
  }
}

=== FILE: replace_text.dfy ===
/** `replaceText.ts`: puts the proofread text where the cached selection was. */
module ReplaceText {
  import opened Js
  import opened Dom
  import opened SelectionCache
  import opened TextSplice

  const SelectionLostMessage := "Selection was lost. Please try again."

  /** The cache afterwards, what was done to the page, and what the call
      threw, if anything. */
  datatype Replacement = Replacement(cache: Cache, effects: seq<Effect>, thrown: Option<Thrown>)

  /** `replaceText(proofreadText)`, given the cache and the window selection at
      the time of the call. The cache is always consumed. With no entry the
      user is alerted and the page is left alone. For a text control the
      cached value is spliced and written back; then the caret is put after the
      new text, which throws for an input whose type has no selection, and
      otherwise an input event is fired. For a range its contents are replaced
      by one text node and, when there is a window selection, the range
      becomes its only range. */
  function ReplaceText(cache: Cache, selection: Option<DomSelection>, proofreadText: string): (r: Replacement)
    ensures r.cache.None?
    ensures cache.None? <==> Alert(SelectionLostMessage) in r.effects
    ensures cache.None? ==> |r.effects| == 1
    ensures r.thrown.Some? <==> cache.Some? && cache.value.element.CachedField? && !cache.value.element.selectable
    ensures r.thrown.Some? ==>
      && r.thrown.value == SelectionUnsupported
      && |r.effects| == 1 && r.effects[0].SetValue? && r.effects[0].element == cache.value.element.id
    ensures (exists i | 0 <= i < |r.effects| :: r.effects[i].DispatchInput?)
        <==> cache.Some? && cache.value.element.CachedField? && cache.value.element.selectable
    ensures forall i | 0 <= i < |r.effects| && r.effects[i].DispatchInput? ::
        i > 0 && r.effects[0].SetValue? && r.effects[0].element == r.effects[i].target
  {
    var consumed := GetCachedSelectionInfo(cache);
    match consumed.info
    case None =>
      Replacement(consumed.cache, [Alert(SelectionLostMessage)], None)
    case Some(info) =>
      match info.element
      case CachedField(id, kind, selectable) =>
        var start := info.selectionStart.GetOr(0);
        var end := info.selectionEnd.GetOr(0);
        var currentValue := info.currentValue.GetOr("");
        var caret := CaretAfter(start, proofreadText);
        var write := SetValue(id, kind, Splice(currentValue, start, end, proofreadText));
        if !selectable then Replacement(consumed.cache, [write], Some(SelectionUnsupported))
        else
          var effects := [write, SetSelectionRange(id, caret, caret), DispatchInput(id)];
          assert effects[2].DispatchInput?;
          Replacement(consumed.cache, effects, None)
      case CachedRange(range) =>
        var reselect := if selection.Some? then [RemoveAllRanges, AddRange(range)] else [];
        Replacement(consumed.cache, [DeleteContents(range), InsertTextNode(range, proofreadText)] + reselect, None)
  }

  /** A cached entry for a selectable control. */
  function SelectableEntry(id: ElementId, kind: FieldKind, start: Option<nat>, end: Option<nat>,
                           value: Option<string>): Cache
  {
    Some(CachedSelectionInfo(CachedField(id, kind, true), start, end, value))
  }

  /** Replacing into a cached selectable control whose offsets lie within its
      cached value: whatever the control holds now, afterwards it holds the
      cached value with the cached selection replaced, as the control stores
      it (an input drops line breaks), and the caret is collapsed just after
      the new text, or at the end when the stored value is shorter. A textarea,
      or text without line breaks, holds exactly the spliced value. No other
      element is written and nothing is thrown. */
  lemma ReplaceIntoField(id: ElementId, kind: FieldKind, start: nat, end: nat, value: string,
                         selection: Option<DomSelection>, text: string, live: FieldState, other: ElementId)
    requires start <= end <= |value|
    requires other != id
    ensures var r := ReplaceText(SelectableEntry(id, kind, Some(start), Some(end), Some(value)), selection, text);
      var spliced := value[..start] + text + value[end..];
      var g := ApplyAllToField(id, live, r.effects);
      && r.thrown.None?
      && g.value == Sanitized(kind, spliced)
      && g.selectionStart == g.selectionEnd == Clamp(start + |text|, |g.value|)
      && (kind == TextAreaElement || NoLineBreaks(spliced) ==>
            g == FieldState(spliced, start + |text|, start + |text|))
      && ApplyAllToField(other, live, r.effects) == live
  {
    SpliceReplacesSelection(value, start, end, text);
    var caret := start + |text|;
    var es := ReplaceText(SelectableEntry(id, kind, Some(start), Some(end), Some(value)), selection, text).effects;
    var e0, e1, e2 := SetValue(id, kind, Splice(value, start, end, text)), SetSelectionRange(id, caret, caret),
                      DispatchInput(id);
    assert es == [e0] + ([e1] + ([e2] + []));
    forall x: ElementId
      ensures ApplyAllToField(x, live, es)
              == ApplyToField(x, ApplyToField(x, ApplyToField(x, live, e0), e1), e2)
    {
      ApplyAllToFieldCons(x, live, e0, [e1] + ([e2] + []));
      ApplyAllToFieldCons(x, ApplyToField(x, live, e0), e1, [e2] + []);
      ApplyAllToFieldCons(x, ApplyToField(x, ApplyToField(x, live, e0), e1), e2, []);
    }
  }

  /** A cached entry without offsets or value (which `getSelectionText` never
      records for a control, but the type allows) reads them as 0, 0 and "":
      the control ends up holding exactly the new text as it stores it, with
      the caret at its end. */
  lemma ReplaceIntoFieldDefaults(id: ElementId, kind: FieldKind, selection: Option<DomSelection>,
                                 text: string, live: FieldState)
    ensures var r := ReplaceText(SelectableEntry(id, kind, None, None, None), selection, text);
      var stored := Sanitized(kind, text);
      ApplyAllToField(id, live, r.effects) == FieldState(stored, |stored|, |stored|)
  {
    var es := ReplaceText(SelectableEntry(id, kind, None, None, None), selection, text).effects;
    var e0, e1, e2 := SetValue(id, kind, Splice("", 0, 0, text)), SetSelectionRange(id, |text|, |text|), DispatchInput(id);
    assert Splice("", 0, 0, text) == text;
    assert es == [e0] + ([e1] + ([e2] + []));
    ApplyAllToFieldCons(id, live, e0, [e1] + ([e2] + []));
    ApplyAllToFieldCons(id, ApplyToField(id, live, e0), e1, [e2] + []);
    ApplyAllToFieldCons(id, ApplyToField(id, ApplyToField(id, live, e0), e1), e2, []);
  }

  /** Replacing into an input whose type has no selection (an `email` or
      `number` input): the value is written, then `setSelectionRange` throws,
      so the caret is not moved and no input event is fired. */
  lemma ReplaceIntoUnselectableInput(id: ElementId, kind: FieldKind, start: nat, end: nat, value: string,
                                     selection: Option<DomSelection>, text: string, live: FieldState)
    ensures var r := ReplaceText(Some(CachedSelectionInfo(CachedField(id, kind, false), Some(start), Some(end), Some(value))),
                                 selection, text);
      && r.thrown == Some(SelectionUnsupported)
      && r.effects == [SetValue(id, kind, Splice(value, start, end, text))]
      && ApplyAllToField(id, live, r.effects).value == Sanitized(kind, Splice(value, start, end, text))
  {
    var r := ReplaceText(Some(CachedSelectionInfo(CachedField(id, kind, false), Some(start), Some(end), Some(value))),
                         selection, text);
    ApplyAllToFieldCons(id, live, r.effects[0], []);
  }

  /** Replacing into a cached range: no text control is written, the range is
      emptied before the text node goes in, and with a window selection the
      range is afterwards its only range. */
  lemma ReplaceIntoRange(range: RangeId, selection: Option<DomSelection>, text: string,
                         id: ElementId, live: FieldState)
    ensures var r := ReplaceText(Some(RangeEntry(range)), selection, text);
      && ApplyAllToField(id, live, r.effects) == live
      && r.effects[0] == DeleteContents(range)
      && r.effects[1] == InsertTextNode(range, text)
      && (selection.Some? ==> ApplyAllToSelection(selection.value.ranges, r.effects) == [range])
      && (selection.None? ==> |r.effects| == 2)
  {
    var r := ReplaceText(Some(RangeEntry(range)), selection, text);
    NoFieldWriteKeepsField(id, live, r.effects);
    if selection.Some? {
      var rs := selection.value.ranges;
      var e0, e1, e2, e3 := DeleteContents(range), InsertTextNode(range, text), RemoveAllRanges, AddRange(range);
      assert r.effects == [e0] + ([e1] + ([e2] + ([e3] + [])));
      ApplyAllToSelectionCons(rs, e0, [e1] + ([e2] + ([e3] + [])));
      ApplyAllToSelectionCons(rs, e1, [e2] + ([e3] + []));
      ApplyAllToSelectionCons(rs, e2, [e3] + []);
      ApplyAllToSelectionCons([], e3, []);
    }
  }

  /** With an empty cache nothing on the page changes: the only effect is the
      alert. */
  lemma ReplaceWithoutEntry(selection: Option<DomSelection>, text: string, id: ElementId, live: FieldState)
    ensures var r := ReplaceText(None, selection, text);
      && r.effects == [Alert(SelectionLostMessage)]
      && ApplyAllToField(id, live, r.effects) == live
      && (selection.Some? ==> ApplyAllToSelection(selection.value.ranges, r.effects) == selection.value.ranges)
  {
  }

  /** One capture serves one replacement: a second `replaceText` after it takes
      the "selection lost" path, whatever the capture found. */
  lemma SecondReplaceIsLost(cache: Cache, active: ActiveElement, selection: Option<DomSelection>,
                            first: string, second: string)
    ensures var c := GetSelectionText(cache, active, selection);
      var r1 := ReplaceText(c.cache, selection, first);
      ReplaceText(r1.cache, selection, second).effects == [Alert(SelectionLostMessage)]
  {
  }

  /** The proofreading scenario on a text box holding "Hello world" with
      "world" selected: the box ends up holding "Hello Earth" with the caret at
      offset 11. */
  lemma HelloEarth(id: ElementId, selection: Option<DomSelection>, live: FieldState)
    ensures var c := GetSelectionText(None, TextField(id, InputElement, "Hello world", Some(6), Some(11)), selection);
      ApplyAllToField(id, live, ReplaceText(c.cache, selection, "Earth").effects)
        == FieldState("Hello Earth", 11, 11)
  {
    var c := GetSelectionText(None, TextField(id, InputElement, "Hello world", Some(6), Some(11)), selection);
    assert c.cache == SelectableEntry(id, InputElement, Some(6), Some(11), Some("Hello world"));
    ReplaceIntoField(id, InputElement, 6, 11, "Hello world", selection, "Earth", live, id + 1);
    HelloEarthSpliced();
  }

  lemma HelloEarthSpliced()
    ensures "Hello world"[..6] + "Earth" + "Hello world"[11..] == "Hello Earth"
    ensures NoLineBreaks("Hello Earth")
  {
    SpliceHelloEarth();
  }
}

=== FILE: selection_cache.dfy ===
/** The module-level selection cache of `getSelectionText.ts`: a capture that
    records where the user's selection is, and a consume-once read of it. */
module SelectionCache {
  import opened Js
  import opened Dom

  /** The `element` of a cached entry: the text control itself (with its kind,
      and whether its type has a selection) or the DOM range of the window
      selection. */
  datatype CachedElement = CachedField(id: ElementId, kind: FieldKind, selectable: bool) | CachedRange(range: RangeId)

  /** `CachedSelectionInfo` of `types.ts`: offsets and value are optional and are
      only filled in for a text control. The offsets are DOM offsets, so they
      are never negative. */
  datatype CachedSelectionInfo = CachedSelectionInfo(
    element: CachedElement,
    selectionStart: Option<nat>,
    selectionEnd: Option<nat>,
    currentValue: Option<string>)

  datatype SourceType = InputTextarea | DomSelectionSource

  /** What `getSelectionText` returns. */
  datatype SelectionSnapshot = SelectionSnapshot(
    selectedText: string,
    contextText: string,
    sourceType: SourceType)

  /** The module variable `cachedSelectionInfo` (`null` is `None`). */
  type Cache = Option<CachedSelectionInfo>

  datatype Capture = Capture(snapshot: SelectionSnapshot, cache: Cache)
  datatype Consumed = Consumed(info: Cache, cache: Cache)

  /** The entry cached for a focused text control: its offsets with `null` read
      as 0 and its whole current value. */
  function FieldEntry(active: ActiveElement): CachedSelectionInfo
    requires active.TextField?
  {
    CachedSelectionInfo(
      CachedField(active.id, active.kind, active.Selectable()),
      Some(active.selectionStart.GetOr(0)),
      Some(active.selectionEnd.GetOr(0)),
      Some(active.value))
  }

  /** The entry cached for a DOM range: the range and nothing else. */
  function RangeEntry(range: RangeId): CachedSelectionInfo {
    CachedSelectionInfo(CachedRange(range), None, None, None)
  }

  /** `selection?.getRangeAt(0)`: `None` when there is no selection, and also
      when it has no range, where `getRangeAt` throws and the caller catches. */
  function FirstRange(selection: Option<DomSelection>): Option<RangeId> {
    match selection
    case None => None
    case Some(s) => if |s.ranges| == 0 then None else Some(s.ranges[0])
  }

  /** `getSelectionText`. The selected text is always the window selection's
      string; a focused text control replaces the cache with its offsets and
      value and reports its value as the context; otherwise the first range
      replaces the cache when there is one, and when there is none the
      previous entry stays. */
  function GetSelectionText(cache: Cache, active: ActiveElement, selection: Option<DomSelection>): (r: Capture)
    ensures r.snapshot.selectedText == SelectionString(selection)
    ensures r.snapshot.sourceType == InputTextarea <==> active.TextField?
    ensures active.TextField? ==> r.snapshot.contextText == active.value
    ensures !active.TextField? ==> r.snapshot.contextText == r.snapshot.selectedText
    ensures active.TextField? ==> r.cache == Some(FieldEntry(active))
    ensures !active.TextField? && FirstRange(selection).Some? ==> r.cache == Some(RangeEntry(FirstRange(selection).value))
    ensures !active.TextField? && FirstRange(selection).None? ==> r.cache == cache
  {
    var selectedText := SelectionString(selection);
    if active.TextField? then
      Capture(SelectionSnapshot(selectedText, active.value, InputTextarea), Some(FieldEntry(active)))
    else
      var cache' := match FirstRange(selection)
        case Some(range) => Some(RangeEntry(range))
        case None => cache;
      Capture(SelectionSnapshot(selectedText, selectedText, DomSelectionSource), cache')
  }

  /** `getCachedSelectionInfo`: hands out the entry and empties the cache. */
  function GetCachedSelectionInfo(cache: Cache): (r: Consumed)
    ensures r.info == cache
    ensures r.cache.None?
  {
    Consumed(cache, None)
  }

  /** Consume-once: whatever the cache held, a second read right after the first
      finds nothing. */
  lemma ConsumeOnce(cache: Cache)
    ensures GetCachedSelectionInfo(GetCachedSelectionInfo(cache).cache).info.None?
  {
  }

  /** A capture that found a text control or a range is handed out exactly
      once: the first read returns the entry recorded for it, the second read
      returns nothing. */
  lemma CaptureThenConsume(cache: Cache, active: ActiveElement, selection: Option<DomSelection>)
    requires active.TextField? || FirstRange(selection).Some?
    ensures var c := GetSelectionText(cache, active, selection);
      var first := GetCachedSelectionInfo(c.cache);
      && first.info.Some?
      && (active.TextField? ==> first.info.value == FieldEntry(active))
      && (!active.TextField? ==> first.info.value.element == CachedRange(FirstRange(selection).value))
      && GetCachedSelectionInfo(first.cache).info.None?
  {
  }

  /** A capture with neither a focused text control nor a range does not clear
      an earlier entry: a later read still returns that entry. */
  lemma FailedCaptureKeepsEarlierEntry(earlier: CachedSelectionInfo, active: ActiveElement, selection: Option<DomSelection>)
    requires !active.TextField? && FirstRange(selection).None?
    ensures GetCachedSelectionInfo(GetSelectionText(Some(earlier), active, selection).cache).info == Some(earlier)
  {
  }
}

=== FILE: selection_style.dfy ===
/** `selectionStyle.ts`: a highlight for the selection, made of one `<style>`
    element in the document head and one `selectionchange` listener, tracked in
    two module variables. Elements and listener closures are opaque handles;
    the document is the set of style elements in its head and the set of
    `selectionchange` listeners registered on it, which may include ones the
    page itself added. */
module SelectionStyle {
  import opened Js

  type StyleId = nat
  type ListenerId = nat

  const StyleElementId := "transcription-extension-selection-style"

  /** The module variables `styleTag` and `selectionChangeListener`. */
  datatype Highlight = Highlight(styleTag: Option<StyleId>, selectionChangeListener: Option<ListenerId>)

  datatype Document = Document(styles: set<StyleId>, selectionListeners: set<ListenerId>)

  /** The module variables, the document, and every style element and listener
      this module ever created. */
  datatype World = World(
    highlight: Highlight,
    doc: Document,
    createdStyles: set<StyleId>,
    createdListeners: set<ListenerId>)

  /** Of everything this module created, exactly what the module variables
      record is in the document: at most one style element and one listener. */
  ghost predicate AtMostOneLive(w: World) {
    && w.doc.styles * w.createdStyles == ToSet(w.highlight.styleTag)
    && w.doc.selectionListeners * w.createdListeners == ToSet(w.highlight.selectionChangeListener)
  }

  /** `removeSelectionHighlight`: takes out exactly the recorded style element
      and unregisters exactly the recorded listener, and forgets both. */
  function RemoveSelectionHighlight(w: World): (r: World)
    ensures r.highlight == Highlight(None, None)
    ensures r.doc.styles == w.doc.styles - ToSet(w.highlight.styleTag)
    ensures r.doc.selectionListeners == w.doc.selectionListeners - ToSet(w.highlight.selectionChangeListener)
    ensures r.createdStyles == w.createdStyles && r.createdListeners == w.createdListeners
  {
    var styles := match w.highlight.styleTag
      case Some(t) => w.doc.styles - {t}
      case None => w.doc.styles;
    var listeners := match w.highlight.selectionChangeListener
      case Some(l) => w.doc.selectionListeners - {l}
      case None => w.doc.selectionListeners;
    World(Highlight(None, None), Document(styles, listeners), w.createdStyles, w.createdListeners)
  }

  /** A fresh handle: `createElement` and a new closure are new objects. */
  predicate Fresh(w: World, tag: StyleId, listener: ListenerId) {
    && tag !in w.createdStyles && tag !in w.doc.styles
    && listener !in w.createdListeners && listener !in w.doc.selectionListeners
  }

  /** `applySelectionHighlight`: removes any previous highlight first, then
      appends a new style element and registers a new listener, and records
      both. */
  function ApplySelectionHighlight(w: World, tag: StyleId, listener: ListenerId): (r: World)
    requires Fresh(w, tag, listener)
    ensures r.highlight == Highlight(Some(tag), Some(listener))
    ensures tag in r.doc.styles && listener in r.doc.selectionListeners
    ensures r.doc.styles - {tag} == w.doc.styles - ToSet(w.highlight.styleTag)
    ensures r.doc.selectionListeners - {listener}
            == w.doc.selectionListeners - ToSet(w.highlight.selectionChangeListener)
  {
    var cleared := RemoveSelectionHighlight(w);
    World(
      Highlight(Some(tag), Some(listener)),
      Document(cleared.doc.styles + {tag}, cleared.doc.selectionListeners + {listener}),
      w.createdStyles + {tag},
      w.createdListeners + {listener})
  }

  /** A `selectionchange` event, with the selection's string (`None` when
      `getSelection()` is null). The module's listener, if registered, removes
      the highlight when the string is empty or missing and otherwise does
      nothing. */
  function OnSelectionChange(w: World, selectionText: Option<string>): (r: World)
    ensures (w.highlight.selectionChangeListener.Some? && !Truthy(selectionText.GetOr("")))
            ==> r == RemoveSelectionHighlight(w)
    ensures (w.highlight.selectionChangeListener.None? || Truthy(selectionText.GetOr(""))) ==> r == w
  {
    if w.highlight.selectionChangeListener.Some? && !Truthy(selectionText.GetOr("")) then
      RemoveSelectionHighlight(w)
    else w
  }

  /** Removing is idempotent. */
  lemma RemoveIdempotent(w: World)
    ensures RemoveSelectionHighlight(RemoveSelectionHighlight(w)) == RemoveSelectionHighlight(w)
  {
  }

  /** The three operations keep the module's own style elements and listeners
      down to the recorded ones. */
  lemma RemovePreservesAtMostOne(w: World)
    requires AtMostOneLive(w)
    ensures AtMostOneLive(RemoveSelectionHighlight(w))
  {
  }

  lemma ApplyPreservesAtMostOne(w: World, tag: StyleId, listener: ListenerId)
    requires AtMostOneLive(w) && Fresh(w, tag, listener)
    ensures AtMostOneLive(ApplySelectionHighlight(w, tag, listener))
  {
    var c := RemoveSelectionHighlight(w);
    assert c.doc.styles * c.createdStyles == {};
    assert c.doc.selectionListeners * c.createdListeners == {};
  }

  /** The events that reach this module. */
  datatype Event = Apply(tag: StyleId, listener: ListenerId) | Remove | SelectionChange(text: Option<string>)

  /** A run of events; an `Apply` whose handles are not fresh cannot happen
      and leaves the world as it is. */
  function Run(w: World, events: seq<Event>): World
    decreases |events|
  {
    if |events| == 0 then w
    else
      var w' := match events[0]
        case Apply(t, l) => if Fresh(w, t, l) then ApplySelectionHighlight(w, t, l) else w
        case Remove => RemoveSelectionHighlight(w)
        case SelectionChange(text) => OnSelectionChange(w, text);
      Run(w', events[1..])
  }

  /** From a page with none of the module's elements, any run of applies,
      removals and selection changes leaves at most one of its style elements
      and one of its listeners in the document. */
  lemma {:induction false} RunKeepsAtMostOne(w: World, events: seq<Event>)
    requires AtMostOneLive(w)
    ensures AtMostOneLive(Run(w, events))
    decreases |events|
  {
    if |events| > 0 {
      var w' := match events[0]
        case Apply(t, l) => if Fresh(w, t, l) then ApplySelectionHighlight(w, t, l) else w
        case Remove => RemoveSelectionHighlight(w)
        case SelectionChange(text) => OnSelectionChange(w, text);
      match events[0] {
        case Apply(t, l) =>
          if Fresh(w, t, l) {
            ApplyPreservesAtMostOne(w, t, l);
          }
        case Remove =>
          RemovePreservesAtMostOne(w);
        case SelectionChange(text) =>
          RemovePreservesAtMostOne(w);
      }
      RunKeepsAtMostOne(w', events[1..]);
    }
  }

  /** Clearing the selection after an apply takes the highlight down again:
      the page is back to what it was before the apply, minus any earlier
      highlight. */
  lemma ClearedSelectionUndoesApply(w: World, tag: StyleId, listener: ListenerId)
    requires Fresh(w, tag, listener)
    ensures var r := OnSelectionChange(ApplySelectionHighlight(w, tag, listener), Some(""));
      && r.highlight == Highlight(None, None)
      && r.doc == RemoveSelectionHighlight(w).doc
  {
  }
}

=== FILE: splice.dfy ===
/** The one string operation both `replaceText` and `insertTextAtCursor` perform:
    `value.substring(0, start) + text + value.substring(end)`. */
module TextSplice {
  import opened Js

  /** The value with `text` put in place of the code units between `start` and
      `end`, with JavaScript's clamping of out-of-range offsets. */
  function Splice(value: string, start: int, end: int, text: string): (r: string)
    ensures r == value[..Clamp(start, |value|)] + text + value[Clamp(end, |value|)..]
  {
    Substring(value, 0, start) + text + SubstringFrom(value, end)
  }

  /** Where the caret goes after a splice: just past the inserted text. */
  function CaretAfter(start: nat, text: string): nat {
    start + |text|
  }

  /** With well-ordered offsets inside the value, the splice keeps everything
      before `start` and from `end` on, puts `text` exactly between them, and
      the caret position points just past it. */
  lemma SpliceReplacesSelection(value: string, start: nat, end: nat, text: string)
    requires start <= end <= |value|
    ensures var r := Splice(value, start, end, text);
      && |r| == |value| - (end - start) + |text|
      && r[..start] == value[..start]
      && r[start..CaretAfter(start, text)] == text
      && r[CaretAfter(start, text)..] == value[end..]
      && CaretAfter(start, text) <= |r|
  {
    var r := Splice(value, start, end, text);
    assert r == value[..start] + text + value[end..];
    assert r[..start] == value[..start];
    assert r[start..start + |text|] == text;
    assert r[start + |text|..] == value[end..];
  }

  /** With a collapsed selection the splice only inserts: taking the inserted
      text out again gives back the original value. */
  lemma SpliceAtCaretOnlyInserts(value: string, caret: nat, text: string)
    requires caret <= |value|
    ensures var r := Splice(value, caret, caret, text);
      && |r| == |value| + |text|
      && r[..caret] + r[caret + |text|..] == value
  {
    SpliceReplacesSelection(value, caret, caret, text);
    var r := Splice(value, caret, caret, text);
    assert value == value[..caret] + value[caret..];
  }

  /** Offsets past the end of the value behave as the end of the value. */
  lemma SplicePastEndAppends(value: string, start: int, end: int, text: string)
    requires start >= |value| && end >= |value|
    ensures Splice(value, start, end, text) == value + text
  {
  }

  /** The replacement of "world" in "Hello world" by "Earth": "Hello Earth",
      with the caret at 11. */
  lemma SpliceHelloEarth()
    ensures Splice("Hello world", 6, 11, "Earth") == "Hello Earth"
    ensures CaretAfter(6, "Earth") == 11
  {
    assert "Hello world"[..6] == "Hello ";
    assert "Hello world"[11..] == "";
  }
}

=== FILE: transcription_hook.dfy ===
/** `useTranscriptionModal`: the React state of the transcription modal and the
    transitions its effects and handlers make. Each awaited step is split at
    its `await`: the part before it is one transition, and the continuation is
    a later transition driven by the event that settles the promise (the
    microphone answering, the recorder's `stop` event, the background's reply).
    State updates after unmounting are applied to the record but never
    rendered. */
module TranscriptionHook {
  import opened Js
  import opened AudioRecorder
  import opened Messages
  import opened Builds

  const ReadyStatus := "Ready to record"
  const RecordingStatus := "Recording..."
  const ProcessingStatus := "Processing..."
  const FailedStatus := "Transcription failed"

  const PermissionDeniedMessage := "Microphone permission denied. Please allow microphone access and try again."
  const StartFailedMessage := "Failed to start recording. Please check your microphone."
  const TranscribeFailedMessage := "Failed to transcribe audio. Please try again."
  const SendFailedMessage := "Failed to transcribe audio. Please make sure the transcription server is running on localhost:3000."

  /** `TranscriptionModalState`. */
  datatype ModalState = ModalState(isRecordingState: bool, isProcessing: bool, statusText: string)

  const Initial := ModalState(false, false, ReadyStatus)

  /** One instance of the hook: its React state; the auto-start effect's
      `mounted` flag; whether the auto-start is still waiting for the
      microphone; whether a stop path is waiting for its `stopRecording`
      promise; and whether its one-shot reply listener is registered. */
  datatype Hook = Hook(
    id: nat,
    state: ModalState,
    mounted: bool,
    autoStartPending: bool,
    awaitingStop: bool,
    listening: bool)

  /** What the hook does outside itself: the three callbacks of
      `UseTranscriptionModalProps`, and the `transcribe-audio` message to the
      background. */
  datatype Output =
    | OnError(message: string)
    | OnClose
    | OnTranscriptionComplete(text: string)
    | SendAudio(blob: Blob)

  datatype Step = Step(hook: Hook, device: Device, outputs: seq<Output>)

  /** The `stopRecording` callers of a hook: its own stop path, and the
      cleanup of its auto-start effect, whose promise nobody waits for. */
  function StopCaller(id: nat): Caller {
    2 * id
  }

  function CleanupCaller(id: nat): Caller {
    2 * id + 1
  }

  /** The message for a failed start: the permission message exactly for an
      `Error` named "NotAllowedError". */
  function StartErrorMessage(e: Thrown): (m: string)
    ensures m == PermissionDeniedMessage <==> (e.isError && e.name == "NotAllowedError")
    ensures m == PermissionDeniedMessage || m == StartFailedMessage
  {
    if e.isError && e.name == "NotAllowedError" then PermissionDeniedMessage else StartFailedMessage
  }

  /** The first render and the auto-start effect: the initial state, mounted,
      with `startRecording` awaiting the microphone. */
  function Mount(id: nat): (h: Hook)
    ensures h.state == ModalState(false, false, "Ready to record")
    ensures h.mounted && h.autoStartPending && !h.awaitingStop && !h.listening
  {
    Hook(id, Initial, true, true, false, false)
  }

  /** The auto-start's `startRecording` settles. The recorder module is
      updated either way. Only while mounted: success shows "Recording...",
      failure reports the error and then closes the modal. */
  function AutoStartSettled(h: Hook, d: Device, acquisition: Acquisition): (r: Step)
    ensures !h.autoStartPending ==> r == Step(h, d, [])
    ensures h.autoStartPending ==> r.device == StartRecording(d, acquisition).device && !r.hook.autoStartPending
    ensures h.autoStartPending && h.mounted && acquisition.Granted? ==>
      r.hook.state == h.state.(isRecordingState := true, statusText := RecordingStatus) && r.outputs == []
    ensures h.autoStartPending && h.mounted && !acquisition.Granted? ==>
      r.hook.state == h.state && r.outputs == [OnError(StartErrorMessage(acquisition.error)), OnClose]
    ensures h.autoStartPending && !h.mounted ==> r.hook.state == h.state && r.outputs == []
  {
    if !h.autoStartPending then Step(h, d, [])
    else
      var started := StartRecording(d, acquisition);
      var h' := h.(autoStartPending := false);
      if !h.mounted then Step(h', started.device, [])
      else if started.error.None? then
        Step(h'.(state := h.state.(isRecordingState := true, statusText := RecordingStatus)), started.device, [])
      else
        Step(h', started.device, [OnError(StartErrorMessage(started.error.value)), OnClose])
  }

  /** Unmounting runs the auto-start effect's cleanup: `mounted` is cleared and
      a recorder that is recording is stopped. */
  function Unmount(h: Hook, d: Device): (r: Step)
    ensures !r.hook.mounted && r.outputs == []
    ensures r.hook == h.(mounted := false)
    ensures IsRecording(d) ==> r.device == RequestStop(d, CleanupCaller(h.id)).device && !IsRecording(r.device)
    ensures !IsRecording(d) ==> r.device == d
  {
    var h' := h.(mounted := false);
    if IsRecording(d) then Step(h', RequestStop(d, CleanupCaller(h.id)).device, [])
    else Step(h', d, [])
  }

  /** The part of the stop path before `await stopRecording()`: "Processing...",
      then the request. When there is no recorder the promise is already
      resolved to null and the continuation runs at once: recording is
      cleared and nothing is transcribed. */
  function BeginStop(h: Hook, d: Device): (r: Step)
    ensures r.hook.state.isProcessing && r.hook.state.statusText == ProcessingStatus
    ensures r.outputs == []
    ensures r.device == RequestStop(d, StopCaller(h.id)).device
    ensures d.recorder.mediaRecorder.Some? ==> r.hook.awaitingStop && r.hook.state.isRecordingState == h.state.isRecordingState
    ensures d.recorder.mediaRecorder.None? ==> r.hook.awaitingStop == h.awaitingStop && !r.hook.state.isRecordingState
    ensures r.hook.mounted == h.mounted && r.hook.listening == h.listening && r.hook.id == h.id
    ensures r.hook.autoStartPending == h.autoStartPending
  {
    var h' := h.(state := h.state.(isProcessing := true, statusText := ProcessingStatus));
    var request := RequestStop(d, StopCaller(h.id));
    if request.resolvedNull then
      Step(h'.(state := h'.state.(isRecordingState := false)), request.device, [])
    else
      Step(h'.(awaitingStop := true), request.device, [])
  }

  /** `handleToggleRecording`. When not recording it starts: success shows
      "Recording...", failure only reports the error (the modal stays open and
      its state is unchanged). When recording it takes the stop path. */
  function ToggleRecording(h: Hook, d: Device, acquisition: Acquisition): (r: Step)
    ensures !h.state.isRecordingState && acquisition.Granted? ==>
      r.hook == h.(state := h.state.(isRecordingState := true, statusText := RecordingStatus)) && r.outputs == []
    ensures !h.state.isRecordingState && !acquisition.Granted? ==>
      r.hook == h && r.device.recorder == d.recorder && r.outputs == [OnError(StartErrorMessage(acquisition.error))]
    ensures h.state.isRecordingState ==> r == BeginStop(h, d)
  {
    if !h.state.isRecordingState then
      var started := StartRecording(d, acquisition);
      if started.error.None? then
        Step(h.(state := h.state.(isRecordingState := true, statusText := RecordingStatus)), started.device, [])
      else
        Step(h, started.device, [OnError(StartErrorMessage(started.error.value))])
    else BeginStop(h, d)
  }

  /** `handleStopAndInsert`: the stop path, only while the recorder is
      recording; otherwise nothing at all happens. */
  function StopAndInsert(h: Hook, d: Device): (r: Step)
    ensures !IsRecording(d) ==> r == Step(h, d, [])
    ensures IsRecording(d) ==> r == BeginStop(h, d) && r.hook.awaitingStop && !IsRecording(r.device)
  {
    if IsRecording(d) then BeginStop(h, d) else Step(h, d, [])
  }

  /** `processAudioTranscription`: registers the reply listener and sends the
      audio; when sending fails the error is reported and the modal shows
      "Transcription failed" (the listener stays registered). */
  function ProcessAudio(h: Hook, d: Device, blob: Blob, delivered: bool): (r: Step)
    ensures r.hook.listening && r.device == d
    ensures r.hook.mounted == h.mounted && r.hook.awaitingStop == h.awaitingStop
    ensures |r.outputs| > 0 && r.outputs[0] == SendAudio(blob)
    ensures delivered ==> r.outputs == [SendAudio(blob)] && r.hook.state == h.state
    ensures !delivered ==> r.outputs == [SendAudio(blob), OnError(SendFailedMessage)]
                           && r.hook.state == ModalState(false, false, FailedStatus)
  {
    var h' := h.(listening := true);
    if delivered then Step(h', d, [SendAudio(blob)])
    else Step(h'.(state := ModalState(false, false, FailedStatus)), d, [SendAudio(blob), OnError(SendFailedMessage)])
  }

  /** The continuation of the stop path once its `stopRecording` promise
      resolves with a blob: recording is cleared and the audio is sent. */
  function StopResolved(h: Hook, d: Device, blob: Blob, delivered: bool): (r: Step)
    ensures !h.awaitingStop ==> r == Step(h, d, [])
    ensures h.awaitingStop ==>
      && !r.hook.awaitingStop && !r.hook.state.isRecordingState && r.hook.listening
      && r.device == d
      && |r.outputs| > 0 && r.outputs[0] == SendAudio(blob)
  {
    if !h.awaitingStop then Step(h, d, [])
    else
      var h' := h.(awaitingStop := false, state := h.state.(isRecordingState := false));
      ProcessAudio(h', d, blob, delivered)
  }

  /** The one-shot reply listener. A completion unregisters it, delivers the
      text and closes; an error unregisters it, reports, and shows
      "Transcription failed" with recording and processing cleared; any other
      message leaves it registered. Without a listener nothing happens. */
  function OnReply(h: Hook, d: Device, reply: Message): (r: Step)
    ensures r.device == d
    ensures !h.listening || !(reply.TranscriptionComplete? || reply.TranscriptionError?) ==> r == Step(h, d, [])
    ensures h.listening && reply.TranscriptionComplete? ==>
      r.hook == h.(listening := false) && r.outputs == [OnTranscriptionComplete(reply.text), OnClose]
    ensures h.listening && reply.TranscriptionError? ==>
      && r.hook == h.(listening := false, state := ModalState(false, false, FailedStatus))
      && r.outputs == [OnError(TranscribeFailedMessage)]
  {
    if !h.listening then Step(h, d, [])
    else
      match reply
      case TranscriptionComplete(text) =>
        Step(h.(listening := false), d, [OnTranscriptionComplete(text), OnClose])
      case TranscriptionError(_) =>
        Step(h.(listening := false, state := ModalState(false, false, FailedStatus)), d, [OnError(TranscribeFailedMessage)])
      case _ =>
        Step(h, d, [])
  }

  /** The stop event of recorder `recorder`, with the final `dataavailable`
      before it. It comes only to a recorder that `stop()` was called on, and
      its handler resets the module whichever recorder is current; the final
      chunk only counts when that recorder is still current. When the promise
      resolved is this hook's own waiting stop path, its continuation runs,
      with the outcome of sending the audio. */
  function RecorderStopped(h: Hook, d: Device, recorder: RecorderId, finalChunk: Chunk, delivered: bool): (r: Step)
    ensures recorder !in d.handlers ==> r == Step(h, d, [])
    ensures recorder in d.handlers ==>
      && r.device == Device(Reset, d.liveStreams - ToSet(d.recorder.stream), d.handlers - {recorder}, d.nextRecorder)
      && (r.outputs != [] <==> d.handlers[recorder] == StopCaller(h.id) && h.awaitingStop)
      && (r.outputs != [] ==>
            r.outputs[0] == SendAudio(Blob(d.recorder.audioChunks
                                           + (if IsCurrent(d, recorder) && |finalChunk| > 0 then [finalChunk] else []))))
      && (r.outputs == [] ==> r.hook == h)
    ensures forall k | 0 <= k < |r.outputs| :: r.outputs[k].SendAudio? || r.outputs[k].OnError?
  {
    if recorder !in d.handlers then Step(h, d, [])
    else
      var stopped := OnStop(OnDataAvailable(d, recorder, finalChunk), recorder);
      var res := stopped.resolved.value;
      if res.caller == StopCaller(h.id) then StopResolved(h, stopped.device, res.blob, delivered)
      else Step(h, stopped.device, [])
  }

  /** Everything that can happen to one hook instance and the recorder. */
  datatype Event =
    | AutoStartSettles(acquisition: Acquisition)
    | ToggleClicked(acquisition: Acquisition)
    | StopAndInsertCalled
    | ChunkRecorded(recorder: RecorderId, chunk: Chunk)
    | RecorderStops(recorder: RecorderId, finalChunk: Chunk, delivered: bool)
    | MessageArrives(message: Message)
    | Unmounted

  /** One event. Only unmounting changes whether the hook is mounted, no step
      changes its id, and every step keeps the recorder consistent. The builds differ only in a microphone granted to
      the auto-start after unmounting: as written it keeps recording, and
      corrected it is stopped at once. */
  function HookStep(build: Build, h: Hook, d: Device, e: Event): (r: Step)
    ensures r.hook.id == h.id
    ensures !e.Unmounted? ==> r.hook.mounted == h.mounted
    ensures Consistent(d) ==> Consistent(r.device)
    ensures e.AutoStartSettles? && h.autoStartPending && !h.mounted && e.acquisition.Granted? ==>
      (IsRecording(r.device) <==> build == AsWritten) && r.outputs == []
  {
    match e
    case AutoStartSettles(acquisition) =>
      if build == AsWritten then AutoStartSettled(h, d, acquisition) else AutoStartSettledReleasing(h, d, acquisition)
    case ToggleClicked(acquisition) => ToggleRecording(h, d, acquisition)
    case StopAndInsertCalled => StopAndInsert(h, d)
    case ChunkRecorded(recorder, chunk) => Step(h, OnDataAvailable(d, recorder, chunk), [])
    case RecorderStops(recorder, finalChunk, delivered) => RecorderStopped(h, d, recorder, finalChunk, delivered)
    case MessageArrives(message) => OnReply(h, d, message)
    case Unmounted => Unmount(h, d)
  }

  /** On every other event the two builds take the same step. */
  lemma BuildsAgreeElsewhere(h: Hook, d: Device, e: Event)
    requires !(e.AutoStartSettles? && h.autoStartPending && !h.mounted && e.acquisition.Granted?)
    ensures HookStep(AsWritten, h, d, e) == HookStep(Corrected, h, d, e)
  {
  }

  /** A run of events, with the outputs of every step in order. */
  function RunHook(build: Build, h: Hook, d: Device, events: seq<Event>): Step
    decreases |events|
  {
    if |events| == 0 then Step(h, d, [])
    else
      var first := HookStep(build, h, d, events[0]);
      var rest := RunHook(build, first.hook, first.device, events[1..]);
      Step(rest.hook, rest.device, first.outputs + rest.outputs)
  }

  /** The events that may hand the microphone to a new recorder. */
  predicate Grants(e: Event) {
    (e.AutoStartSettles? || e.ToggleClicked?) && e.acquisition.Granted?
  }

  function SendCount(outputs: seq<Output>): nat
    decreases |outputs|
  {
    if |outputs| == 0 then 0
    else (if outputs[0].SendAudio? then 1 else 0) + SendCount(outputs[1..])
  }

  lemma {:induction false} SendCountAppend(a: seq<Output>, b: seq<Output>)
    ensures SendCount(a + b) == SendCount(a) + SendCount(b)
    decreases |a|
  {
    if |a| == 0 {
      assert a + b == b;
    } else {
      assert (a + b)[0] == a[0];
      assert (a + b)[1..] == a[1..] + b;
      SendCountAppend(a[1..], b);
    }
  }

  /** How many recordings the hook can still turn into a transcription
      request: one while a recorder exists or its own stop is pending, none
      otherwise. */
  function Budget(h: Hook, d: Device): nat {
    if d.recorder.mediaRecorder.Some? || h.awaitingStop then 1 else 0
  }

  lemma {:induction false} NoSendCountsZero(outputs: seq<Output>)
    requires forall i | 0 <= i < |outputs| :: !outputs[i].SendAudio?
    ensures SendCount(outputs) == 0
    decreases |outputs|
  {
    if |outputs| > 0 {
      NoSendCountsZero(outputs[1..]);
    }
  }

  /** Every step that hands out no microphone spends the budget on what it
      sends: a request for transcription uses the one recording up. */
  lemma StepSpendsBudget(build: Build, h: Hook, d: Device, e: Event)
    requires !Grants(e)
    ensures var r := HookStep(build, h, d, e);
      SendCount(r.outputs) + Budget(r.hook, r.device) <= Budget(h, d)
  {
    var r := HookStep(build, h, d, e);
    if e.RecorderStops? && e.recorder in d.handlers && d.handlers[e.recorder] == StopCaller(h.id) && h.awaitingStop {
      var stopped := OnStop(OnDataAvailable(d, e.recorder, e.finalChunk), e.recorder);
      var h' := h.(awaitingStop := false, state := h.state.(isRecordingState := false));
      assert r == ProcessAudio(h', stopped.device, stopped.resolved.value.blob, e.delivered);
      NoSendCountsZero(r.outputs[1..]);
    } else {
      NoSendCountsZero(r.outputs);
    }
  }

  /** One recording is transcribed at most once: however the stop button, the
      stop shortcut, the recorder's events, replies and unmounting interleave,
      a run that starts no new recorder sends at most one transcription
      request, and none once the recorder is gone and no stop is pending. */
  lemma {:induction false} AtMostOneTranscriptionPerRecording(build: Build, h: Hook, d: Device, events: seq<Event>)
    requires forall i | 0 <= i < |events| :: !Grants(events[i])
    ensures SendCount(RunHook(build, h, d, events).outputs) <= Budget(h, d) <= 1
    decreases |events|
  {
    if |events| > 0 {
      var first := HookStep(build, h, d, events[0]);
      StepSpendsBudget(build, h, d, events[0]);
      AtMostOneTranscriptionPerRecording(build, first.hook, first.device, events[1..]);
      SendCountAppend(first.outputs, RunHook(build, first.hook, first.device, events[1..]).outputs);
    }
  }

  /** While the stop path is under way a second stop signal changes nothing:
      the recorder is no longer recording, so `handleStopAndInsert` is a
      no-op. */
  lemma RepeatedStopIsIgnored(h: Hook, d: Device)
    requires IsRecording(d)
    ensures var first := StopAndInsert(h, d);
      StopAndInsert(first.hook, first.device) == Step(first.hook, first.device, [])
  {
  }

  /** A recording stopped through the hook: the blob holds the recorded chunks
      in order, the microphone is released, the transcription request goes
      out, and the modal leaves the recording state. */
  lemma StopAndTranscribe(h: Hook, d: Device, chunk: Chunk, delivered: bool)
    requires IsRecording(d) && d.recorder.stream.Some?
    ensures var stopping := StopAndInsert(h, d);
      var recorder := d.recorder.mediaRecorder.value.id;
      var r := RecorderStopped(stopping.hook, stopping.device, recorder, chunk, delivered);
      && r.outputs[0] == SendAudio(Blob(d.recorder.audioChunks + NonEmpty([chunk])))
      && d.recorder.stream.value !in r.device.liveStreams
      && r.device.recorder == Reset
      && !r.hook.state.isRecordingState && r.hook.listening
  {
    assert NonEmpty([chunk]) == if |chunk| > 0 then [chunk] else [] by {
      assert [chunk][1..] == [];
    }
    assert d.recorder.audioChunks + [] == d.recorder.audioChunks;
  }

  /** The stop path's `stop` event arriving after another recording has
      started: the hook sends the NEW recording's audio as its own, without its
      own final chunk, and the new recording's microphone is released. */
  lemma StaleStopSendsNewRecording(h: Hook, d: Device, stream: StreamId, chunks: seq<Chunk>,
                                   finalChunk: Chunk, delivered: bool)
    requires Consistent(d) && IsRecording(d)
    ensures var stopping := StopAndInsert(h, d);
      var stale := d.recorder.mediaRecorder.value.id;
      var restarted := StartRecording(stopping.device, Granted(stream)).device;
      var recorded := Deliver(restarted, stopping.device.nextRecorder, chunks);
      var r := RecorderStopped(stopping.hook, recorded, stale, finalChunk, delivered);
      && |r.outputs| > 0 && r.outputs[0] == SendAudio(Blob(NonEmpty(chunks)))
      && stream !in r.device.liveStreams
      && r.device.recorder == Reset
  {
    var stopping := StopAndInsert(h, d);
    var restarted := StartRecording(stopping.device, Granted(stream)).device;
    DeliverKeepsOrder(restarted, stopping.device.nextRecorder, chunks);
    assert [] + NonEmpty(chunks) == NonEmpty(chunks);
  }

  /** The auto-start settling as the effect's cleanup should have handled it:
      a microphone granted after unmounting is stopped again at once. While
      mounted, and for a refusal, it is the code as written. */
  function AutoStartSettledReleasing(h: Hook, d: Device, acquisition: Acquisition): (r: Step)
    ensures h.mounted || !acquisition.Granted? ==> r == AutoStartSettled(h, d, acquisition)
    ensures h.autoStartPending && !h.mounted && acquisition.Granted? ==>
      && !IsRecording(r.device)
      && r.device.recorder.mediaRecorder == Some(MediaRecorder(d.nextRecorder, Inactive))
      && r.device.handlers == d.handlers[d.nextRecorder := CleanupCaller(h.id)]
      && r.outputs == []
  {
    var settled := AutoStartSettled(h, d, acquisition);
    if h.autoStartPending && !h.mounted && acquisition.Granted? then
      Step(settled.hook, RequestStop(settled.device, CleanupCaller(h.id)).device, settled.outputs)
    else settled
  }

  /** As written: the modal closed (Escape) before the microphone answered.
      The cleanup found nothing recording, so the granted recorder keeps
      recording with no stop handler, its stream stays live, and no `stop`
      event of it ever comes. */
  lemma ClosedBeforeGrantKeepsMicrophone(id: nat, d: Device, stream: StreamId, finalChunk: Chunk, delivered: bool)
    requires Consistent(d) && !IsRecording(d)
    ensures var closed := Unmount(Mount(id), d);
      var settled := AutoStartSettled(closed.hook, closed.device, Granted(stream));
      && IsRecording(settled.device)
      && stream in settled.device.liveStreams
      && d.nextRecorder !in settled.device.handlers
      && RecorderStopped(settled.hook, settled.device, d.nextRecorder, finalChunk, delivered)
         == Step(settled.hook, settled.device, [])
  {
  }

  /** Corrected: the late grant is stopped, and its `stop` event releases the
      stream, resets the recorder and sends nothing. */
  lemma ClosedBeforeGrantReleasesMicrophone(id: nat, d: Device, stream: StreamId, finalChunk: Chunk, delivered: bool)
    requires !IsRecording(d)
    ensures var closed := Unmount(Mount(id), d);
      var settled := AutoStartSettledReleasing(closed.hook, closed.device, Granted(stream));
      var stopped := RecorderStopped(settled.hook, settled.device, d.nextRecorder, finalChunk, delivered);
      && stream !in stopped.device.liveStreams
      && stopped.device.recorder == Reset
      && stopped.outputs == []
  {
  }
}

=== FILE: transcription_modal.dfy ===
/** `TranscriptionModal`: the component around the hook. Its refs are read as
    the current state, and its handlers are attached only while it is mounted
    (the session decides which instance is). */
module TranscriptionModal {
  import opened AudioRecorder
  import opened TranscriptionHook

  /** The Stop button's `disabled`: the button is usable exactly when the
      shortcut acts. */
  function StopDisabled(s: ModalState): (disabled: bool)
    ensures disabled <==> !StopEventActs(s)
  {
    !s.isRecordingState || s.isProcessing
  }

  /** The condition under which the `transcription-stop` document event calls
      `handleStopAndInsert`: only while recording, never while processing. */
  function StopEventActs(s: ModalState): (acts: bool)
    ensures acts ==> s.isRecordingState && StatusLabel(s) == "Voice"
    ensures s.isProcessing ==> !acts
  {
    s.isRecordingState && !s.isProcessing
  }

  /** The status label. */
  function StatusLabel(s: ModalState): (text: string)
    ensures text == "Voice" <==> s.isRecordingState
    ensures text == "Voice" || text == "Paused"
  {
    if s.isRecordingState then "Voice" else "Paused"
  }

  /** The status dot's class list. */
  function StatusDotClass(s: ModalState): (c: string)
    ensures |c| >= 11 && c[..11] == "status-dot "
    ensures s.isRecordingState ==> c[11..] == "recording"
    ensures !s.isRecordingState ==> |c| == 11
  {
    "status-dot " + (if s.isRecordingState then "recording" else "")
  }

  /** A keydown seen in the capture phase: for Escape the default action is
      prevented (the event still propagates) and the modal closes; every other
      key passes untouched. */
  datatype KeyOutcome = KeyOutcome(preventDefault: bool, outputs: seq<Output>)

  function OnKeyDown(code: string): (r: KeyOutcome)
    ensures r.preventDefault <==> code == "Escape"
    ensures code == "Escape" ==> r.outputs == [OnClose]
    ensures code != "Escape" ==> r.outputs == []
  {
    if code == "Escape" then KeyOutcome(true, [OnClose]) else KeyOutcome(false, [])
  }

  /** The `transcription-stop` document event. */
  function OnStopEvent(h: Hook, d: Device): (r: Step)
    ensures !StopEventActs(h.state) ==> r == Step(h, d, [])
    ensures StopEventActs(h.state) ==> r == StopAndInsert(h, d)
  {
    if StopEventActs(h.state) then StopAndInsert(h, d) else Step(h, d, [])
  }

  /** A click on Stop; a disabled button takes no clicks. */
  function OnStopClick(h: Hook, d: Device): (r: Step)
    ensures StopDisabled(h.state) ==> r == Step(h, d, [])
    ensures !StopDisabled(h.state) ==> r == StopAndInsert(h, d)
  {
    if StopDisabled(h.state) then Step(h, d, []) else StopAndInsert(h, d)
  }

  /** A click on Cancel closes the modal. */
  function OnCancelClick(): (outputs: seq<Output>)
    ensures outputs == [OnClose]
  {
    [OnClose]
  }

  /** The shortcut and the button are one control: the stop event acts
      exactly when Stop is enabled, and then does what a click does. */
  lemma StopEventIsStopClick(h: Hook, d: Device)
    ensures StopEventActs(h.state) <==> !StopDisabled(h.state)
    ensures OnStopEvent(h, d) == OnStopClick(h, d)
  {
  }

  /** Once the stop path has begun the modal is processing: Stop is disabled
      and further stop events are ignored, so one press transcribes once. */
  lemma NoSecondStopWhileProcessing(h: Hook, d: Device)
    requires StopEventActs(h.state) && IsRecording(d)
    ensures var first := OnStopEvent(h, d);
      && first.hook.state.isProcessing
      && StopDisabled(first.hook.state)
      && StatusLabel(first.hook.state) == StatusLabel(h.state)
      && OnStopEvent(first.hook, first.device) == Step(first.hook, first.device, [])
  {
  }

  /** A fresh modal shows "Paused" with Stop disabled until the microphone
      answers; once recording starts it shows "Voice" with Stop enabled. */
  lemma AutoStartEnablesStop(id: nat, d: Device, stream: StreamId)
    ensures StatusLabel(Mount(id).state) == "Paused" && StopDisabled(Mount(id).state)
    ensures var started := AutoStartSettled(Mount(id), d, Granted(stream));
      && StatusLabel(started.hook.state) == "Voice"
      && !StopDisabled(started.hook.state)
      && started.hook.state.statusText == "Recording..."
  {
  }
}
